=== FILE: README.md ===
# Phishing detection core in Dafny

This project models the deterministic logic around the classifiers of a
FastAPI phishing-detection backend. It covers four areas.

- **URL lexical features.** `UrlFeatures` models `URLFeatureExtractor`. It maps
  a URL to 24 named numbers in a fixed order:
  - character counts;
  - dot-split domain arithmetic;
  - path and query segment counts;
  - keyword-substring counts;
  - shortener, repeated-character and mixed-case flags.
- **Text and hybrid features.** `TextFeatures` models three parts:
  - the basic text features of `NLPFeatureExtractor`, with the gating of its
    TF-IDF and BERT stages;
  - the WHOIS feature defaults;
  - the merge order of `HybridFeatureExtractor`.
- **Classifier glue.** `ModelLoader` models how `predict_url`, `predict_text`
  and `predict_hybrid` work:
  - ordering a feature dict by a saved name list, with 0.0 for missing names;
  - mapping class 1 to "Phishing";
  - taking the largest class probability as the confidence;
  - the two sentinel results.
- **LLM reply handling.** `LlmAnalyzer` models:
  - the tolerant reply parser;
  - the keyword and percentage fallback parse;
  - the URL "phishing bias";
  - result defaulting and the fixed fallback result;
  - the ML+LLM combination of `final_url_analysis`.
- **Analytics.** `Analytics` models the analytics router's summary, daily,
  per-model and history endpoints. Each is a pure fold over a sequence of
  prediction-log rows.

Shared pieces:

- `Optional` holds `Option` and `Result`.
- `Strings` holds ASCII character classes, counting, `find`/`rfind`,
  `str.split` with its round trip, and decimal rendering of naturals.
- `FeatureMap` models a Python `Dict[str, float]` as an insertion-ordered
  sequence of pairs. Its `Update` follows `dict.update`: an existing key keeps
  its position and takes the new value, and a new key is appended.
- The URL extractor merges its five groups with five `update` calls on an
  empty dict. `UrlFeatures.MergeIsConcat` proves that this equals laying the
  groups end to end, and `UrlFeatures.ExtractFeatures` is defined as that
  concatenation.

Foreign calls become inputs:

- `urllib.parse.urlparse` is an `Option<UrlParts>`, which is `None` when it raises.
- `word_tokenize` is a function into `Option<seq<string>>`.
- The TF-IDF and BERT stages are optional functions yielding their scores.
- The WHOIS lookup is a function from domain to `WhoisLookup`.
- The page text fetched for the hybrid extractor is a string.
- `json.loads` is a `string -> Option<Reply>` decoder.
- The classifier and scaler are functions into `Option`.
- The LLM invocation is an `Invocation`, which either completed with text or
  raised with a message.
- The clock is a `today` day number. Timestamps are integer microseconds.

## Model

| member | source | states |
|---|---|---|
| UrlFeatures.UrlFeatureKeysFixed | backend/app/utils/feature_extraction.py:56-75 | whatever the URL, and whether or not URL parsing fails, the merged URL dict has exactly the 24 feature names in extraction order, each once |
| UrlFeatures.MergeIsConcat | backend/app/utils/feature_extraction.py:56-75 | the five successive `update` calls on an empty dict give the concatenation of the five groups, so no group overwrites another |
| UrlFeatures.ExtractFeatures | backend/app/utils/feature_extraction.py:56-75 | the URL dict is what the five successive `update` calls on an empty dict produce, starting from the basic group and ending with the suspicious group |
| FeatureMap.Update | backend/app/utils/feature_extraction.py:58-73 | `dict.update` keeps every existing key in its position at the front of the result, and keeps the keys distinct |
| FeatureMap.UpdateKeys | backend/app/utils/feature_extraction.py:58-73 | the keys after `dict.update` are the old keys followed by the new dict's keys that were not present yet, each once, in the order they first occur |
| FeatureMap.UpdateGet | backend/app/utils/feature_extraction.py:58-73 | after `dict.update` a key holds the new dict's value when the new dict has it, and its old value otherwise |
| FeatureMap.UpdateDisjoint | backend/app/utils/feature_extraction.py:58-73 | when none of the new dict's keys is present, `dict.update` appends the new dict unchanged |
| UrlFeatures.ExtractBasic | backend/app/utils/feature_extraction.py:77-103 | `url_length` is the URL's length; every other count is at most that length; the special-character count is at least the dot count; the digit count is 0 exactly when no character is a digit |
| UrlFeatures.KeywordHits | backend/app/utils/feature_extraction.py:210 | a keyword count is at most the number of listed keywords, and it is 0 exactly when no listed keyword occurs as a substring |
| UrlFeatures.KeywordHitsCountsDistinct | backend/app/utils/feature_extraction.py:164 | for a list without repetitions, the keyword count equals the number of distinct listed keywords that occur |
| UrlFeatures.ExtractDomain | backend/app/utils/feature_extraction.py:105-143 | a failed parse gives the all-zero defaults; otherwise the features are the host length, (dots in host) − 1 subdomains, `has_ip` iff the host matches the IP pattern, `has_https` iff the scheme is exactly "https", and a TLD length of 0 without a dot or else the length after the last dot; `suspicious_tld` is false on every input |
| UrlFeatures.DotlessHostHasNegativeSubdomains | backend/app/utils/feature_extraction.py:117 | a host without '.' (the empty host included) yields `num_subdomains` = −1 |
| UrlFeatures.TopLevelLabel | backend/app/utils/feature_extraction.py:126 | the TLD is the text after the last '.' (empty when there is none), so it never contains '.' |
| UrlFeatures.NoSuspiciousSuffix | backend/app/utils/feature_extraction.py:126-130 | a label without '.' cannot end with any listed suspicious TLD, because each one begins with '.' |
| UrlFeatures.IpPatternIffLabels | backend/app/utils/feature_extraction.py:120 | `^\d+\.\d+\.\d+\.\d+$` matches iff the host is four non-empty digit runs joined by '.', optionally followed by one final newline, which `$` admits |
| UrlFeatures.DigitRunsIffLabels | backend/app/utils/feature_extraction.py:120 | the regex-style reading of the pattern (leading digits, then '.') agrees with the split-into-labels reading for any number of runs |
| UrlFeatures.IpPatternLower | backend/app/utils/feature_extraction.py:111-120 | lower-casing the host does not change whether it matches the IP pattern |
| UrlFeatures.DigitRunsOnlyDigitsAndDots | backend/app/utils/feature_extraction.py:120 | whatever the digit-run pattern matches consists of ASCII digits and '.' only |
| UrlFeatures.StrayCharDefeatsIpPattern | backend/app/utils/feature_extraction.py:120 | a host with any character other than a digit or '.' before its last position never matches the IP pattern |
| UrlFeatures.DottedQuadIsIp | backend/app/utils/feature_extraction.py:120 | "1.2.3.4" matches the IP pattern |
| UrlFeatures.PortDefeatsIpPattern | backend/app/utils/feature_extraction.py:120 | "1.2.3.4:80" does not match the IP pattern, so a host with a port never counts as an IP address |
| UrlFeatures.ExtractPath | backend/app/utils/feature_extraction.py:145-174 | a failed parse gives the defaults; otherwise `path_length` is the path's length; the directory count is the number of non-separator characters that end a run between slashes, so at most (slashes + 1) and 0 iff the path is only slashes; `has_file_extension` holds iff the text after the last '/' contains '.'; the keyword count is taken on the lower-cased path |
| UrlFeatures.NonEmptyPiecesAreSegmentEnds | backend/app/utils/feature_extraction.py:157 | the number of non-empty pieces of `s.split(sep)` equals the number of non-separator characters that are last or followed by the separator |
| UrlFeatures.PathSegmentFacts | backend/app/utils/feature_extraction.py:157-160 | splitting the path on '/' gives at most (slashes + 1) non-empty segments, none exactly when the path is all slashes, and the last piece is the text after the last '/' |
| UrlFeatures.NoSegmentsIffOnlySeparators | backend/app/utils/feature_extraction.py:157 | a split has no non-empty piece iff every character is the separator |
| UrlFeatures.ExtractQuery | backend/app/utils/feature_extraction.py:176-201 | a failed parse gives the defaults; otherwise `num_params` is 0 for an empty query and ('&' count) + 1 otherwise; the keyword count is taken on the lower-cased query and is bounded by the list length |
| UrlFeatures.RepeatSearch | backend/app/utils/feature_extraction.py:217 | `(.)\1{2,}` finds a match iff at some position a non-newline character is followed by two copies of itself |
| UrlFeatures.ExtractSuspicious | backend/app/utils/feature_extraction.py:203-222 | the keyword count is the number of listed keywords occurring in the lower-cased URL, at most 22, and 0 iff none occurs; `is_shortened` holds iff some listed shortener occurs in the lower-cased URL; `has_repeated_chars` iff some non-newline character repeats three times consecutively; `has_mixed_case` iff a lower-case and an upper-case letter both occur |
| UrlFeatures.ShortenedWhenListed | backend/app/utils/feature_extraction.py:213-214 | any occurrence of a listed shortener at any position marks the URL as shortened |
| UrlFeatures.ShortenerMatchesMicrosoft | backend/app/utils/feature_extraction.py:213-214 | "https://microsoft.com" is flagged as shortened, because it contains "t.co" |
| UrlFeatures.UrlKeywordEntry | backend/app/utils/feature_extraction.py:210 | the merged URL dict stores the URL-wide keyword count under "suspicious_keywords" |
| TextFeatures.StopCount | backend/app/utils/feature_extraction.py:361 | the stop-word count is at most the token count, and equals it iff every token is a stop word |
| TextFeatures.StopWordRatio | backend/app/utils/feature_extraction.py:361-362 | the ratio lies in [0, 1]; it is 0 with no tokens; with tokens it is 1 iff every token is a stop word |
| TextFeatures.SpecialCharRatio | backend/app/utils/feature_extraction.py:365-367 | the ratio lies in [0, 1]; it is 0 for empty text; for non-empty text it is 0 iff no character is special |
| TextFeatures.AvgWordLength | backend/app/utils/feature_extraction.py:355-358 | the average is non-negative; it is 0 with no tokens; otherwise average × token count equals the total token length |
| TextFeatures.ExtractTextBasic | backend/app/utils/feature_extraction.py:343-379 | `text_length` and `word_count` are the text and token lengths; the average, the stop-word ratio and the special-character ratio are those of the tokens and the text; the keyword count is the number of listed text keywords occurring in the lower-cased text, at most 17; no tokens gives average and stop-word ratio 0, and empty text gives special-character ratio 0 and keyword count 0 |
| TextFeatures.NoKeywordInEmpty | backend/app/utils/feature_extraction.py:376-377 | no non-empty keyword occurs in the empty text, so its keyword count is 0 |
| TextFeatures.IndexedDictPairs | backend/app/utils/feature_extraction.py:392-393 | the loop storing `prefix_i` for each index builds exactly the list of pairs (prefix_i, values[i]) in index order |
| TextFeatures.IndexedNameInjective | backend/app/utils/feature_extraction.py:393 | different indices give different names `prefix_i` |
| TextFeatures.TfidfDict | backend/app/utils/feature_extraction.py:381-398 | a failed TF-IDF stage contributes nothing; otherwise entry i is ("tfidf_i", score i) for every selected score, in selection order, so the names are distinct and none is "suspicious_keywords" |
| TextFeatures.BertDict | backend/app/utils/feature_extraction.py:400-419 | a failed BERT stage contributes nothing; otherwise entry i is ("bert_i", embedding[i]) for the first min(10, n) dimensions |
| TextFeatures.AddStageKeeps | backend/app/utils/feature_extraction.py:333-339 | adding a TF-IDF or BERT group keeps the six basic names first and keeps the text keyword count |
| TextFeatures.ExtractNlp | backend/app/utils/feature_extraction.py:326-341 | extraction fails exactly when tokenisation does; on success the dict is the six basic text features, then the "tfidf_" entries when TF-IDF is loaded, then the "bert_" entries when BERT is loaded, nothing else; "suspicious_keywords" holds the text keyword count |
| TextFeatures.BasicThenTfidf | backend/app/utils/feature_extraction.py:330-335 | the TF-IDF entries, when the stage is loaded, are appended unchanged after the six basic entries, and none of the result's names starts with "bert_" |
| TextFeatures.NlpLayout | backend/app/utils/feature_extraction.py:326-341 | the three successive `update` calls on an empty dict lay out the basic, TF-IDF and BERT groups end to end, because the three groups share no name |
| TextFeatures.AppendPrefixed | backend/app/utils/feature_extraction.py:333-339 | updating a dict with distinct names that all carry a prefix no old name carries appends them unchanged |
| TextFeatures.WhoisDomain | backend/app/utils/feature_extraction.py:233-238 | the lookup domain is the lower-cased host with one leading "www." removed |
| TextFeatures.WhoisFeatures | backend/app/utils/feature_extraction.py:228-268 | the keys are always the three WHOIS names; a failed parse, a failed lookup or an unusable creation date gives three zeros; a record without a creation date has age 0; a creation date gives its age in days; registrar and country become 1/0 flags |
| TextFeatures.WhoisNamesFresh | backend/app/utils/feature_extraction.py:435-438 | no WHOIS name is a URL feature name |
| TextFeatures.MergeDisjoint | backend/app/utils/feature_extraction.py:435-438 | updating a dict with another dict with disjoint names appends it unchanged |
| TextFeatures.HybridBase | backend/app/utils/feature_extraction.py:435-438 | updating the URL dict with the WHOIS dict appends the WHOIS entries: 24 URL names followed by the 3 WHOIS names, with the URL keyword count in place |
| TextFeatures.MergeNlp | backend/app/utils/feature_extraction.py:444-445 | merging the NLP dict keeps the 24 URL names in front, and the NLP keyword count replaces the URL one |
| TextFeatures.HybridWithoutText | backend/app/utils/feature_extraction.py:441-445 | when the given or fetched text is empty, hybrid extraction succeeds with the URL entries followed by the WHOIS entries, values included, and keeps the URL keyword count |
| TextFeatures.HybridWithText | backend/app/utils/feature_extraction.py:441-445 | with non-empty text, hybrid extraction fails exactly when tokenisation fails; otherwise the URL names come first, every name the NLP dict has holds its NLP value, every other name holds its URL/WHOIS value, and so "suspicious_keywords" holds the text count, not the URL count |
| TextFeatures.ExtractHybrid | backend/app/utils/feature_extraction.py:435-445 | hybrid extraction fails exactly when the effective text is non-empty and NLP extraction fails; with no text the keys are the 24 URL names then the 3 WHOIS names; with text they are followed by the NLP names not already present, in first-occurrence order |
| ModelLoader.AlignByNames | backend/app/utils/load_models.py:102-103 | the ordered vector has one entry per saved name |
| ModelLoader.Align | backend/app/utils/load_models.py:102-105 | with a non-empty name list the vector has its length; with no list or an empty one the vector is the dict's values in insertion order |
| ModelLoader.AlignEntries | backend/app/utils/load_models.py:102-103 | entry i is the value stored under names[i] when the dict has that key, else 0.0 |
| ModelLoader.AlignByOwnKeys | backend/app/utils/load_models.py:102-105 | ordering a dict by its own keys gives its values, so both branches agree when the saved names are the extractor's names |
| ModelLoader.AlignIgnoresExtraKeys | backend/app/utils/load_models.py:102-103 | keys absent from the saved list do not affect the vector |
| ModelLoader.MaxOf | backend/app/utils/load_models.py:111 | the confidence is at least every class probability and is one of them |
| ModelLoader.MaxOfIsProbability | backend/app/utils/load_models.py:111 | the maximum of probabilities in [0, 1] is in [0, 1] |
| ModelLoader.LabelFor | backend/app/utils/load_models.py:112 | "Phishing" iff the class is 1; "Legitimate" for every other class |
| ModelLoader.Classify | backend/app/utils/load_models.py:109-112 | a raising `predict`/`predict_proba`, or an empty probability vector, gives ("Error", 0.0); otherwise the label follows the class and the confidence is the maximal probability |
| ModelLoader.Prepare | backend/app/utils/load_models.py:106-108 | without a scaler the prepared vector is the aligned vector; with a scaler it is the scaler's result on the aligned vector, `None` when the scaler raises |
| ModelLoader.Predict | backend/app/utils/load_models.py:95-116 | no model gives ("Model not available", 0.0); failing extraction or scaling gives ("Error", 0.0); otherwise the prepared vector is classified |
| ModelLoader.PredictOutcomes | backend/app/utils/load_models.py:95-116 | every result has one of four labels, and both sentinels carry confidence 0.0 |
| ModelLoader.PredictConfidenceBounded | backend/app/utils/load_models.py:109-111 | with probabilities in [0, 1] the confidence is in [0, 1] |
| ModelLoader.NoModelIgnoresInput | backend/app/utils/load_models.py:97-98 | without a model the result does not depend on the input |
| ModelLoader.PredictUrl | backend/app/utils/load_models.py:95-116 | no model gives the sentinel; with a model, a failing scaler gives ("Error", 0.0) and otherwise the model classifies the prepared URL vector (the aligned features, scaled when a scaler is loaded); "Error" never comes from URL extraction |
| ModelLoader.PredictText | backend/app/utils/load_models.py:118-139 | no model gives ("Model not available", 0.0); with a model, a failing text extraction gives ("Error", 0.0), a failing scaler gives ("Error", 0.0), and otherwise the prepared text vector is classified |
| ModelLoader.PredictHybrid | backend/app/utils/load_models.py:141-162 | no model gives ("Model not available", 0.0); with a model, a failing hybrid extraction gives ("Error", 0.0), a failing scaler gives ("Error", 0.0), and otherwise the prepared hybrid vector is classified |
| ModelLoader.UrlVectorWithoutNames | backend/app/utils/load_models.py:104-105 | without saved names the URL model sees 24 values, with the keyword count at position 20 |
| LlmAnalyzer.FallbackVerdict | backend/app/utils/llm_analyzer.py:53-59 | the verdict is one of PHISHING, LEGITIMATE or UNKNOWN |
| LlmAnalyzer.FallbackVerdictPrecedence | backend/app/utils/llm_analyzer.py:53-59 | PHISHING iff a phishing word occurs case-insensitively; LEGITIMATE iff none does but a legitimate word does; UNKNOWN iff neither kind occurs |
| LlmAnalyzer.PercentFrom | backend/app/utils/llm_analyzer.py:66 | the search finds the leftmost position at which a digit run directly followed by '%' starts, or reports that there is none |
| LlmAnalyzer.PercentFromFinds | backend/app/utils/llm_analyzer.py:66 | conversely, the first position that starts a match is the one the search reports |
| LlmAnalyzer.FallbackConfidence | backend/app/utils/llm_analyzer.py:61-70 | the confidence is 0.5 without '%' or without a match, and otherwise the first matched number divided by 100 |
| LlmAnalyzer.NoPercentNoMatch | backend/app/utils/llm_analyzer.py:63-68 | text without '%' has no percentage match |
| LlmAnalyzer.UnclampedPercentage | backend/app/utils/llm_analyzer.py:66-68 | "risk 150%" gives confidence 1.5, so the confidence is not clamped to 1 |
| LlmAnalyzer.Truncate500 | backend/app/utils/llm_analyzer.py:75 | the explanation is the prefix of length min(length, 500) |
| LlmAnalyzer.FallbackParse | backend/app/utils/llm_analyzer.py:49-78 | every field is present: the fallback verdict, the fallback confidence, the truncated text and two empty lists |
| LlmAnalyzer.JsonCandidate | backend/app/utils/llm_analyzer.py:37-40 | when the first '{' precedes the last '}', the candidate is the slice between them inclusive, starting with '{' and ending with '}'; otherwise it is empty |
| LlmAnalyzer.Parse | backend/app/utils/llm_analyzer.py:33-47 | without both braces the reply is the fallback parse; with both it is the decoded candidate, or the fallback parse when decoding fails |
| LlmAnalyzer.ReversedBracesFallBack | backend/app/utils/llm_analyzer.py:37-47 | when the last '}' comes before the first '{', the empty slice fails to decode and the fallback parse is used |
| LlmAnalyzer.UrlBias | backend/app/utils/llm_analyzer.py:240-241 | only the prediction can change; a non-LEGITIMATE reply, and a LEGITIMATE one with confidence (0.5 when absent) of at least 0.9, is returned unchanged; a LEGITIMATE reply below 0.9 becomes PHISHING |
| LlmAnalyzer.UrlBiasIdempotent | backend/app/utils/llm_analyzer.py:240-241 | applying the bias twice is the same as once |
| LlmAnalyzer.UrlBiasOnlyFlipsToPhishing | backend/app/utils/llm_analyzer.py:240-241 | the only change the bias makes is LEGITIMATE to PHISHING |
| LlmAnalyzer.WithDefaults | backend/app/utils/llm_analyzer.py:243-249 | each missing field becomes its default ("UNKNOWN", 0.5, "No explanation available", empty lists) and each present field is passed through as is |
| LlmAnalyzer.WithDefaultsOfFullReply | backend/app/utils/llm_analyzer.py:243-249 | defaulting a reply that carries every field of a result gives back that result |
| LlmAnalyzer.WithDefaultsInjectiveOnFull | backend/app/utils/llm_analyzer.py:243-249 | two fully populated replies default to the same result iff they carry the same fields |
| LlmAnalyzer.FallbackResult | backend/app/utils/llm_analyzer.py:294-302 | UNKNOWN with confidence 0.0; the explanation is the fixed prefix followed by the message; no risk factors; exactly the two fixed recommendations |
| LlmAnalyzer.Analyze | backend/app/utils/llm_analyzer.py:229-252 | no LLM gives the "LLM not available" fallback; a raised invocation gives the "Analysis failed: " fallback with the message; a completion is the parsed reply with defaults, after the URL bias when the bias is requested |
| LlmAnalyzer.AnalyzeUrl | backend/app/utils/llm_analyzer.py:229-252 | a URL analysis never reports LEGITIMATE with confidence below 0.9; without an LLM, or on a raised invocation, it is the matching fallback result; a completion is the biased parsed reply with defaults |
| LlmAnalyzer.UrlBiasOverridesReply | backend/app/utils/llm_analyzer.py:234-241 | a decoded LEGITIMATE reply with confidence below 0.9 comes out as PHISHING with the reply's confidence |
| LlmAnalyzer.AnalyzeText | backend/app/utils/llm_analyzer.py:254-272 | no LLM gives the "LLM not available" fallback; a raised invocation gives the "Analysis failed: " fallback with the message; a completion is the parsed reply with defaults and no bias |
| LlmAnalyzer.AnalyzeHybrid | backend/app/utils/llm_analyzer.py:274-292 | the same three cases as text analysis: the two fallbacks, or the parsed reply with defaults and no bias |
| LlmAnalyzer.UrlAnalysisVersusUnbiased | backend/app/utils/llm_analyzer.py:229-272 | the URL analysis differs from the unbiased analysis of the same reply iff that one is LEGITIMATE below 0.9, and then only its prediction changes, to PHISHING |
| LlmAnalyzer.Combine | backend/app/utils/llm_analyzer.py:338-352 | PHISHING iff the ML label lower-cases to "phishing" or the LLM label upper-cases to "PHISHING", otherwise LEGITIMATE; LEGITIMATE carries exactly the average; agreement on phishing gives the larger of 0.9 and the average, and a single phishing vote the larger of 0.7 and the average |
| LlmAnalyzer.CombineConfidenceBounded | backend/app/utils/llm_analyzer.py:338-352 | with both confidences in [0, 1] the combined confidence is in [0, 1] |
| LlmAnalyzer.CombineAgreementRanksHigher | backend/app/utils/llm_analyzer.py:344-349 | for equal confidence sums, agreement on phishing never yields a lower confidence than any other PHISHING combination |
| LlmAnalyzer.CombineNeverUnknown | backend/app/utils/llm_analyzer.py:343-352 | the combination never yields UNKNOWN |
| LlmAnalyzer.UnavailableLlmHalvesConfidence | backend/app/utils/llm_analyzer.py:343-352 | with the LLM fallback result, a legitimate ML verdict gives LEGITIMATE with half the ML confidence, and a phishing one gives PHISHING with 0.7 |
| LlmAnalyzer.NothingAvailableSaysLegitimate | backend/app/utils/llm_analyzer.py:337-352 | with no URL model and no LLM the combined answer is LEGITIMATE with confidence 0.0 |
| LlmAnalyzer.FinalUrlAnalysis | backend/app/utils/llm_analyzer.py:330-352 | the answer is PHISHING iff the URL model says "Phishing" or the URL analysis says PHISHING; agreement gives the larger of 0.9 and the average confidence, a single phishing vote the larger of 0.7 and the average, and LEGITIMATE exactly the average |
| LlmAnalyzer.CombineLabelled | backend/app/utils/llm_analyzer.py:338-352 | for an ML result with one of the four labels, the combination rules hold with "Phishing" in place of the lower-case comparison |
| Analytics.CountPrediction | backend/app/routers/analytics.py:87-88 | a verdict count is at most the row count and is 0 iff no row carries exactly that verdict |
| Analytics.CountModel | backend/app/routers/analytics.py:97 | a model-type count is at most the row count and is 0 iff no row has that type |
| Analytics.TwoVerdictsAtMostTotal | backend/app/routers/analytics.py:84-88 | counts of two different verdicts add up to at most the total |
| Analytics.MeanConfidence | backend/app/routers/analytics.py:91-92 | the average is 0.0 for no rows, and otherwise average × rows equals the confidence sum |
| Analytics.Mean | backend/app/routers/analytics.py:91-92 | a mean of nothing is 0.0; otherwise mean × count equals the sum |
| Analytics.SumConfidenceBounded | backend/app/routers/analytics.py:91 | with confidences in [0, 1] the sum lies between 0 and the row count |
| Analytics.MeanConfidenceBounded | backend/app/routers/analytics.py:91-92 | with confidences in [0, 1] the average lies in [0, 1] |
| Analytics.Percentage | backend/app/routers/analytics.py:100 | the percentage is 0.0 for an empty total, otherwise part × 100 / total, and it lies in [0, 100] |
| Analytics.GetSummary | backend/app/routers/analytics.py:79-112 | the total is the row count; the two counts match exactly "Phishing" and "Legitimate" and add up to at most the total; the percentage is phishing × 100 / total and lies in [0, 100]; the average is the confidence sum over the total; with no rows the percentage and average are 0; `model_usage` has exactly the keys url, text and hybrid, each holding its count |
| Analytics.CountPredictionAppend | backend/app/routers/analytics.py:87-88 | the verdict count of two logs laid end to end is the sum of their counts |
| Analytics.CountModelAppend | backend/app/routers/analytics.py:97 | the model-type count of two logs laid end to end is the sum of their counts |
| Analytics.SumConfidenceAppend | backend/app/routers/analytics.py:91 | the confidence sum of two logs laid end to end is the sum of their sums |
| Analytics.SummaryCountsAdd | backend/app/routers/analytics.py:84-88 | the summary of two logs laid end to end has the sums of their totals, phishing counts and legitimate counts |
| Analytics.SummaryUsageAdds | backend/app/routers/analytics.py:95-98 | the usage per model type of two logs laid end to end is the sum of their usages |
| Analytics.SummaryMeanOfConcatenation | backend/app/routers/analytics.py:91-92 | the average of two logs laid end to end is their combined confidence sum over their combined row count |
| Analytics.UsageAccountsForEveryRow | backend/app/routers/analytics.py:95-98 | url + text + hybrid + rows of any other type equals the total |
| Analytics.UsageAtMostTotal | backend/app/routers/analytics.py:95-98 | the usage counts add up to at most the total |
| Analytics.OtherVerdictsUncounted | backend/app/routers/analytics.py:87-88 | a row whose verdict is neither exact string counts in the total but in neither verdict count |
| Analytics.WithinDayIffDayOf | backend/app/routers/analytics.py:130-136 | the window from the day's start to its last microsecond holds exactly the timestamps of that day |
| Analytics.Where | backend/app/routers/analytics.py:54-58 | a WHERE selection takes its rows from the log, each satisfying the condition, and misses no satisfying row; every satisfying row comes back as many times as the log holds it, and no other row does |
| Analytics.WhereAll | backend/app/routers/analytics.py:54-58 | a selection whose condition holds for every row returns the log itself, in order |
| Analytics.RowsOn | backend/app/routers/analytics.py:133-136 | the rows selected for a day are log rows inside the day's window, and every log row inside the window is selected |
| Analytics.StatsFor | backend/app/routers/analytics.py:138-144 | for each day, phishing + legitimate ≤ total, the average is the day's confidence sum over its total, and 0.0 on a day without rows |
| Analytics.StatsOfFetchedRows | backend/app/routers/analytics.py:133-144 | the day's statistics are exactly the row count, the "Phishing" and "Legitimate" counts and the mean confidence of the rows fetched for that day's window |
| Analytics.DayVerdictCountsRowsOfDay | backend/app/routers/analytics.py:133-140 | a day's verdict count counts exactly the rows inside that day's window carrying the verdict |
| Analytics.DaySumOfRowsOfDay | backend/app/routers/analytics.py:133-144 | a day's confidence sum adds up exactly the rows inside that day's window |
| Analytics.TwoVerdictsOnDayAtMostTotal | backend/app/routers/analytics.py:138-140 | on any day the counts of two different verdicts add up to at most the day's total |
| Analytics.DayTotalCountsRowsOfDay | backend/app/routers/analytics.py:133-138 | the day's total counts exactly the log rows inside that day's window |
| Analytics.GetDailyStats | backend/app/routers/analytics.py:114-157 | the request is rejected unless 1 ≤ days ≤ 30; otherwise there are exactly `days` entries, the i-th being the statistics of day today − days + 1 + i, so the last is today's, each respecting the per-day bounds |
| Analytics.DaysFrom | backend/app/routers/analytics.py:121-127 | the statistics of n consecutive days starting at a first day has n entries, entry i being that of the first day + i |
| Analytics.DailyStatsConsecutive | backend/app/routers/analytics.py:121-127 | each entry's day is the previous entry's day plus one |
| Analytics.RowsOfModel | backend/app/routers/analytics.py:195 | the rows of a model type each carry that type, and there are as many as the usage count |
| Analytics.RowsOfModelIsWhere | backend/app/routers/analytics.py:195 | the rows of a model type are exactly the `Where` selection on that type, so they come from the log and every row of that type comes back as often as the log holds it |
| Analytics.WhereCountsModel | backend/app/routers/analytics.py:195 | filtering on a model type keeps exactly as many rows as `CountModel` counts for it |
| Analytics.PhishingPlusRest | backend/app/routers/analytics.py:198-205 | "Phishing" rows plus all other rows make up every row |
| Analytics.StatsForModel | backend/app/routers/analytics.py:194-216 | the total is the type's row count; phishing counts the type's "Phishing" rows and legitimate every other row of the type, so they add up to the total; the percentage is phishing × 100 / total within [0, 100]; the average is the mean confidence of the type's rows; a type without rows gives all zeros |
| Analytics.GetModelPerformance | backend/app/routers/analytics.py:187-221 | the keys are exactly url, text and hybrid, each holding that type's statistics |
| Analytics.LegitimateCountsDiffer | backend/app/routers/analytics.py:198-205 | a single url row with verdict "Error" counts as legitimate in model performance but not in the summary |
| Analytics.FilterRows | backend/app/routers/analytics.py:54-58 | the filtered rows are log rows matching both optional filters, and every matching log row is kept, as many times as the log holds it |
| Analytics.NoFilterKeepsEveryRow | backend/app/routers/analytics.py:54-58 | with neither filter every row is kept |
| Analytics.FilterAll | backend/app/routers/analytics.py:54-58 | with neither filter the rows are the log in order |
| Analytics.InsertByTime | backend/app/routers/analytics.py:60 | inserting a row into a newest-first list keeps it newest first and adds exactly that row |
| Analytics.SortNewestFirst | backend/app/routers/analytics.py:60 | ORDER BY timestamp DESC gives a newest-first permutation of its input |
| Analytics.HeadIsNewest | backend/app/routers/analytics.py:60 | the first row of a newest-first list is at least as new as every later row |
| Analytics.Window | backend/app/routers/analytics.py:60 | OFFSET/LIMIT returns min(limit, rows − offset) rows, or none past the end, each the row `offset` places further on |
| Analytics.WindowOfRows | backend/app/routers/analytics.py:60 | a window draws its rows from its input and keeps newest-first order |
| Analytics.WindowMatches | backend/app/routers/analytics.py:54-60 | rows drawn from a permutation of filtered rows still match the filters |
| Analytics.GetHistory | backend/app/routers/analytics.py:42-77 | the request is rejected unless 1 ≤ limit ≤ 1000 and offset ≥ 0; otherwise at most `limit` rows, newest first, every one matching the filters and taken from the log |
| Analytics.GetHistoryIsWindow | backend/app/routers/analytics.py:51-60 | an accepted request returns the `offset`/`limit` window of the matching rows sorted newest first |
| Analytics.HistoryLength | backend/app/routers/analytics.py:60 | the history has min(limit, matching − offset) rows, or none when the offset passes the matching rows |

## Left out

- URL parsing, tokenisation and the stop-word corpus are inputs. The model
  does not relate the parsed components to the URL text.
- `word_tokenize` is applied to the lower-cased text, as in the source. The
  resulting tokens are whatever the tokenizer function returns.
- The TF-IDF top-50 selection (`argsort` over a sparse row) is left out. The
  stage's selected scores are an input.
- BERT inference is left out. The stage's embedding is an input.
- The model does not describe when a stage is loaded or when it raises. Each
  stage is an optional resource whose result is `None` when the stage raises.
- The HTTP page fetch, BeautifulSoup text extraction and the WHOIS network
  lookup are inputs. The same holds for the clock, including the subtraction
  that gives a domain's age.
- The WHOIS lookup's many record shapes reduce to three cases: no creation
  date, a usable date, and a value whose subtraction raises.
- `json.loads` is an abstract decoder into typed optional fields. The model
  does not cover replies whose fields have other JSON types, or top-level
  JSON that is not an object.
- The LangChain chain is left out. The model treats `invoke` as yielding the
  completion text, or raising. LangChain's `LLMChain.invoke` may instead
  return a dict of the chain's inputs and outputs. For the URL chain,
  `parse` then raises on that dict, so the analysis ends in the
  "Analysis failed: " fallback and never reaches the phishing bias
  (backend/app/utils/llm_analyzer.py:235-241). The model covers only the
  case where `invoke` yields text.
- The FastAPI query defaults (`limit=100`, `offset=0` for the history and
  `days=7` for the daily statistics, backend/app/routers/analytics.py:44-45
  and :116) are not modelled. The model takes every parameter explicitly.
- `is_available` and `get_available_models` are left out. They are HTTP
  probes of the LLM server.
- Artifact loading, the classifiers and the scalers are left out. They appear
  as functions into `Option` whose `None` stands for a raised exception.
- The `except` fallback of `final_url_analysis` is left out. In the model,
  `predict_url` and `analyze_url` already catch everything, so it cannot be
  reached.
- The top-phishing-URLs endpoint (backend/app/routers/analytics.py:159-185)
  is left out. It is a GROUP BY ranking whose tie order SQL does not fix.
- The other routers, `main.py`, the SQLAlchemy schema and session, and the
  training scripts are left out. They are I/O plumbing or offline training.
- Character classes are ASCII only. Python's Unicode `isdigit`, `islower`,
  `isupper`, `\d` and `lower()` are wider.
- Confidences, ratios and averages are exact `real`s. Float rounding and
  `float()` conversion are not modelled.
- NULL confidences in the log are not modelled. Every row carries a real
  confidence.
- Dates are day numbers and timestamps are integer microseconds. The
  `%Y-%m-%d` rendering of a date is not modelled.
- Analytics.SortNewestFirst: rows with equal timestamps keep their log order.
  SQL leaves the order of such ties unspecified.
- Analytics.GetHistory: its contract states bounds, order, filtering and
  provenance. Which rows the offset skips is stated by the lemma
  `Analytics.GetHistoryIsWindow`, which equates an accepted result with
  `Analytics.Window` of the sorted matching rows, and by
  `Analytics.HistoryLength`.
- UrlFeatures.KeywordHitsCountsDistinct: stated for any keyword list without
  repetitions. The model does not prove that the two concrete keyword lists
  have no repetitions; the bounds 22 and 17 hold regardless.
- TextFeatures.StopWordRatio: states the range and the 0 and 1 cases, not
  the quotient stop words / tokens itself. `TextFeatures.Ratio` states the
  quotient for the shared division.
- TextFeatures.SpecialCharRatio: states the range and the 0 cases, not the
  quotient special characters / length itself, for the same reason.
- Analytics.StatsFor: ties a day's counts to the log through
  `Analytics.StatsOfFetchedRows` rather than in its own contract.
- The label rule follows the code: "Phishing" iff the predicted class is 1.
  It is not a probability threshold.
- Source wiring: the hybrid extractor's NLP component never loads a TF-IDF
  vectorizer or a BERT model. The model keeps both stages as optional
  resources, so that wiring is one instance of it.

=== FILE: analytics.dfy ===
/**
 * The analytics endpoints as pure folds over the prediction log. The SQL
 * queries become filters and counts over a sequence of records in
 * insertion order, the request parameters are validated as the query
 * declarations demand, and the clock is an input: timestamps are whole
 * microseconds and days are day numbers, with `today` supplied.
 */
module Analytics {
  import opened Optional

  /** A `prediction_logs` row (the user agent column is never read here). */
  datatype LogRecord = LogRecord(
    id: int,
    url: Option<string>,
    text: Option<string>,
    prediction: string,
    confidence: real,
    modelType: string,
    timestamp: int,
    ipAddress: Option<string>)

  // ---------------------------------------------------------------------
  // Counting and averaging
  // ---------------------------------------------------------------------

  /** `...filter(PredictionLog.prediction == verdict).count()`. */
  function CountPrediction(log: seq<LogRecord>, verdict: string): (n: nat)
    ensures n <= |log|
    ensures n == 0 <==> forall i :: 0 <= i < |log| ==> log[i].prediction != verdict
  {
    if |log| == 0 then 0
    else (if log[0].prediction == verdict then 1 else 0) + CountPrediction(log[1..], verdict)
  }

  /** `...filter(PredictionLog.model_type == modelType).count()`. */
  function CountModel(log: seq<LogRecord>, modelType: string): (n: nat)
    ensures n <= |log|
    ensures n == 0 <==> forall i :: 0 <= i < |log| ==> log[i].modelType != modelType
  {
    if |log| == 0 then 0
    else (if log[0].modelType == modelType then 1 else 0) + CountModel(log[1..], modelType)
  }

  /** Rows whose model type is none of `types`. */
  function CountOtherModels(log: seq<LogRecord>, types: set<string>): (n: nat)
    ensures n <= |log|
  {
    if |log| == 0 then 0
    else (if log[0].modelType !in types then 1 else 0) + CountOtherModels(log[1..], types)
  }

  /** Rows counted under two different verdicts never overlap. */
  lemma {:induction false} TwoVerdictsAtMostTotal(log: seq<LogRecord>, a: string, b: string)
    requires a != b
    ensures CountPrediction(log, a) + CountPrediction(log, b) <= |log|
  {
    if |log| > 0 {
      TwoVerdictsAtMostTotal(log[1..], a, b);
    }
  }

  /** `sum(p.confidence for p in rows)`. */
  function SumConfidence(log: seq<LogRecord>): real
  {
    if |log| == 0 then 0.0 else log[0].confidence + SumConfidence(log[1..])
  }

  /** `m` is `sum / n` for a positive `n`, stated without division. */
  predicate IsMean(m: real, sum: real, n: nat)
  {
    n > 0 ==> m * n as real == sum
  }

  /** `p` is `part` as a percentage of a positive `whole`, stated without division. */
  predicate IsPercentage(p: real, part: nat, whole: nat)
  {
    whole > 0 ==> p * whole as real == part as real * 100.0
  }

  /** `sum / n`, 0.0 when there is nothing to average. */
  function Mean(sum: real, n: nat): (m: real)
    ensures n == 0 ==> m == 0.0
    ensures IsMean(m, sum, n)
  {
    if n == 0 then 0.0 else sum / n as real
  }

  /** The mean confidence, 0.0 for no rows (SQL `AVG` of nothing is NULL, read as 0.0). */
  function MeanConfidence(log: seq<LogRecord>): (m: real)
    ensures |log| == 0 ==> m == 0.0
    ensures |log| > 0 ==> m * |log| as real == SumConfidence(log)
    ensures IsMean(m, SumConfidence(log), |log|)
  {
    Mean(SumConfidence(log), |log|)
  }

  predicate ConfidencesAreProbabilities(log: seq<LogRecord>)
  {
    forall i :: 0 <= i < |log| ==> 0.0 <= log[i].confidence <= 1.0
  }

  lemma {:induction false} SumConfidenceBounded(log: seq<LogRecord>)
    requires ConfidencesAreProbabilities(log)
    ensures 0.0 <= SumConfidence(log) <= |log| as real
  {
    if |log| > 0 {
      assert ConfidencesAreProbabilities(log[1..]) by {
        forall i | 0 <= i < |log[1..]| ensures 0.0 <= log[1..][i].confidence <= 1.0 {
          assert log[1..][i] == log[i + 1];
        }
      }
      SumConfidenceBounded(log[1..]);
    }
  }

  /** With confidences in [0, 1] the mean is in [0, 1]. */
  lemma MeanConfidenceBounded(log: seq<LogRecord>)
    requires ConfidencesAreProbabilities(log)
    ensures 0.0 <= MeanConfidence(log) <= 1.0
  {
    SumConfidenceBounded(log);
  }

  /** `part / whole * 100`, 0.0 for an empty whole. */
  function Percentage(part: nat, whole: nat): (p: real)
    requires part <= whole
    ensures 0.0 <= p <= 100.0
    ensures whole == 0 ==> p == 0.0
    ensures whole > 0 ==> p * whole as real == part as real * 100.0
    ensures IsPercentage(p, part, whole)
  {
    if whole > 0 then
      var q := part as real / whole as real;
      assert q * whole as real == part as real;
      q * 100.0
    else 0.0
  }

  // ---------------------------------------------------------------------
  // Summary
  // ---------------------------------------------------------------------

  datatype Summary = Summary(
    total: nat, phishing: nat, legitimate: nat,
    phishingPercentage: real, avgConfidence: real, modelUsage: map<string, nat>)

  /**
   * `get_analytics_summary`: counts by exact verdict string, the mean
   * confidence, and usage counts for exactly the three model types.
   */
  function GetSummary(log: seq<LogRecord>): (s: Summary)
    ensures s.total == |log|
    ensures s.phishing == CountPrediction(log, "Phishing")
    ensures s.legitimate == CountPrediction(log, "Legitimate")
    ensures s.phishing + s.legitimate <= s.total
    ensures 0.0 <= s.phishingPercentage <= 100.0
    ensures s.total == 0 ==> s.phishingPercentage == 0.0 && s.avgConfidence == 0.0
    ensures IsPercentage(s.phishingPercentage, s.phishing, s.total)
    ensures s.avgConfidence == MeanConfidence(log)
    ensures IsMean(s.avgConfidence, SumConfidence(log), s.total)
    ensures s.modelUsage.Keys == {"url", "text", "hybrid"}
    ensures forall t :: t in s.modelUsage ==> s.modelUsage[t] == CountModel(log, t)
  {
    var phishing := CountPrediction(log, "Phishing");
    var legitimate := CountPrediction(log, "Legitimate");
    TwoVerdictsAtMostTotal(log, "Phishing", "Legitimate");
    Summary(|log|, phishing, legitimate, Percentage(phishing, |log|), MeanConfidence(log), ModelUsage(log))
  }

  /** Usage counts for exactly the three model types. */
  function ModelUsage(log: seq<LogRecord>): (u: map<string, nat>)
    ensures u.Keys == {"url", "text", "hybrid"}
    ensures forall t :: t in u ==> u[t] == CountModel(log, t)
  {
    map["url" := CountModel(log, "url"), "text" := CountModel(log, "text"), "hybrid" := CountModel(log, "hybrid")]
  }

  /**
   * Every row is counted under exactly one of the three model types or
   * under none of them (as "llm_*" rows are), so usage never exceeds the total.
   */
  lemma {:induction false} UsageAccountsForEveryRow(log: seq<LogRecord>)
    ensures CountModel(log, "url") + CountModel(log, "text") + CountModel(log, "hybrid")
          + CountOtherModels(log, {"url", "text", "hybrid"}) == |log|
  {
    if |log| > 0 {
      UsageAccountsForEveryRow(log[1..]);
    }
  }

  lemma {:induction false} CountPredictionAppend(a: seq<LogRecord>, b: seq<LogRecord>, verdict: string)
    ensures CountPrediction(a + b, verdict) == CountPrediction(a, verdict) + CountPrediction(b, verdict)
  {
    if |a| == 0 {
      assert a + b == b;
    } else {
      CountPredictionAppend(a[1..], b, verdict);
      assert (a + b)[1..] == a[1..] + b;
    }
  }

  lemma {:induction false} CountModelAppend(a: seq<LogRecord>, b: seq<LogRecord>, modelType: string)
    ensures CountModel(a + b, modelType) == CountModel(a, modelType) + CountModel(b, modelType)
  {
    if |a| == 0 {
      assert a + b == b;
    } else {
      CountModelAppend(a[1..], b, modelType);
      assert (a + b)[1..] == a[1..] + b;
    }
  }

  lemma {:induction false} SumConfidenceAppend(a: seq<LogRecord>, b: seq<LogRecord>)
    ensures SumConfidence(a + b) == SumConfidence(a) + SumConfidence(b)
  {
    if |a| == 0 {
      assert a + b == b;
    } else {
      SumConfidenceAppend(a[1..], b);
      assert (a + b)[1..] == a[1..] + b;
    }
  }

  /** The summary of two logs laid end to end adds up their row and verdict counts. */
  lemma SummaryCountsAdd(a: seq<LogRecord>, b: seq<LogRecord>)
    ensures var s, sa, sb := GetSummary(a + b), GetSummary(a), GetSummary(b);
      && s.total == sa.total + sb.total
      && s.phishing == sa.phishing + sb.phishing
      && s.legitimate == sa.legitimate + sb.legitimate
  {
    CountPredictionAppend(a, b, "Phishing");
    CountPredictionAppend(a, b, "Legitimate");
  }

  /** The summary of two logs laid end to end adds up their usage per model type. */
  lemma SummaryUsageAdds(a: seq<LogRecord>, b: seq<LogRecord>)
    ensures var s, sa, sb := GetSummary(a + b), GetSummary(a), GetSummary(b);
      forall t :: t in s.modelUsage ==> s.modelUsage[t] == sa.modelUsage[t] + sb.modelUsage[t]
  {
    var s, sa, sb := GetSummary(a + b), GetSummary(a), GetSummary(b);
    forall t | t in s.modelUsage
      ensures s.modelUsage[t] == sa.modelUsage[t] + sb.modelUsage[t]
    {
      CountModelAppend(a, b, t);
    }
  }

  /** The average of two logs laid end to end is the mean over both confidence sums. */
  lemma SummaryMeanOfConcatenation(a: seq<LogRecord>, b: seq<LogRecord>)
    ensures IsMean(GetSummary(a + b).avgConfidence, SumConfidence(a) + SumConfidence(b), |a| + |b|)
  {
    SumConfidenceAppend(a, b);
  }

  lemma UsageAtMostTotal(log: seq<LogRecord>)
    ensures var u := GetSummary(log).modelUsage;
      u["url"] + u["text"] + u["hybrid"] <= GetSummary(log).total
  {
    UsageAccountsForEveryRow(log);
  }

  /** Verdicts outside the two exact strings ("PHISHING", "Error", "UNKNOWN") count as neither. */
  lemma OtherVerdictsUncounted(r: LogRecord)
    requires r.prediction != "Phishing" && r.prediction != "Legitimate"
    ensures GetSummary([r]).phishing == 0 && GetSummary([r]).legitimate == 0 && GetSummary([r]).total == 1
  {
  }

  // ---------------------------------------------------------------------
  // Daily statistics
  // ---------------------------------------------------------------------

  /** The calendar day (days since the epoch) of a timestamp; a day is 86 400 000 000 microseconds. */
  function DayOf(timestamp: int): int
  {
    timestamp / 86_400_000_000
  }

  /** `day_start <= timestamp <= day_end`, the end being the day's last microsecond. */
  predicate WithinDay(timestamp: int, day: int)
  {
    day * 86_400_000_000 <= timestamp <= day * 86_400_000_000 + 86_399_999_999
  }

  /** The per-day window holds exactly the timestamps of that calendar day. */
  lemma WithinDayIffDayOf(timestamp: int, day: int)
    ensures WithinDay(timestamp, day) <==> DayOf(timestamp) == day
  {
    var q := timestamp / 86_400_000_000;
    assert q * 86_400_000_000 <= timestamp < q * 86_400_000_000 + 86_400_000_000;
    if q < day {
      assert q * 86_400_000_000 + 86_400_000_000 <= day * 86_400_000_000;
    }
    if q > day {
      assert day * 86_400_000_000 + 86_400_000_000 <= q * 86_400_000_000;
    }
  }

  /** Putting a row that passes `keep` in front of rows that all pass it keeps them all passing. */
  lemma PrependKeeps(x: LogRecord, rest: seq<LogRecord>, keep: LogRecord -> bool)
    requires keep(x) && forall i :: 0 <= i < |rest| ==> keep(rest[i])
    ensures forall i :: 0 <= i < |[x] + rest| ==> keep(([x] + rest)[i])
  {
    forall i | 0 < i < |[x] + rest| ensures keep(([x] + rest)[i]) {
      assert ([x] + rest)[i] == rest[i - 1];
    }
  }

  /**
   * The rows of `log` satisfying `keep`, in log order: a SQL `WHERE`. They
   * come from the log, all satisfy `keep`, and no satisfying row is missed.
   */
  function Where(log: seq<LogRecord>, keep: LogRecord -> bool): (rows: seq<LogRecord>)
    ensures |rows| <= |log|
    ensures forall i :: 0 <= i < |rows| ==> keep(rows[i])
    ensures multiset(rows) <= multiset(log)
    ensures forall i :: 0 <= i < |log| && keep(log[i]) ==> log[i] in rows
    ensures forall x :: multiset(rows)[x] == if keep(x) then multiset(log)[x] else 0
  {
    if |log| == 0 then []
    else
      var rest := Where(log[1..], keep);
      var rows := if keep(log[0]) then [log[0]] + rest else rest;
      PrependCounts(log, rest, keep);
      assert forall i :: 0 <= i < |rows| ==> keep(rows[i]) by {
        if keep(log[0]) {
          PrependKeeps(log[0], rest, keep);
        }
      }
      forall i | 0 <= i < |log| && keep(log[i]) ensures log[i] in rows {
        assert multiset(log)[log[i]] > 0;
      }
      rows
  }

  /** One step of `Where`: keeping or dropping the head keeps every row's multiplicity right. */
  lemma PrependCounts(log: seq<LogRecord>, rest: seq<LogRecord>, keep: LogRecord -> bool)
    requires |log| > 0
    requires forall x :: multiset(rest)[x] == if keep(x) then multiset(log[1..])[x] else 0
    ensures var rows := if keep(log[0]) then [log[0]] + rest else rest;
      forall x :: multiset(rows)[x] == if keep(x) then multiset(log)[x] else 0
  {
    assert log == [log[0]] + log[1..];
    assert multiset(log) == multiset{log[0]} + multiset(log[1..]);
    if keep(log[0]) {
      assert multiset([log[0]] + rest) == multiset{log[0]} + multiset(rest);
    }
  }

  /** The rows logged on `day`, in log order. */
  function RowsOn(log: seq<LogRecord>, day: int): (rows: seq<LogRecord>)
    ensures |rows| <= |log|
    ensures forall i :: 0 <= i < |rows| ==> WithinDay(rows[i].timestamp, day)
    ensures multiset(rows) <= multiset(log)
    ensures forall i :: 0 <= i < |log| && WithinDay(log[i].timestamp, day) ==> log[i] in rows
  {
    Where(log, (r: LogRecord) => WithinDay(r.timestamp, day))
  }

  datatype DayStats = DayStats(day: int, total: nat, phishing: nat, legitimate: nat, avgConfidence: real)

  function StatsFor(log: seq<LogRecord>, day: int): (s: DayStats)
    ensures s.day == day
    ensures s.phishing + s.legitimate <= s.total
    ensures s.total == 0 ==> s.avgConfidence == 0.0
    ensures IsMean(s.avgConfidence, SumConfidenceOnDay(log, day), s.total)
  {
    TwoVerdictsOnDayAtMostTotal(log, day, "Phishing", "Legitimate");
    var total := CountOnDay(log, day);
    DayStats(day, total, CountOnDayAs(log, day, "Phishing"), CountOnDayAs(log, day, "Legitimate"),
             Mean(SumConfidenceOnDay(log, day), total))
  }

  /**
   * The statistics the endpoint computes from the rows it fetched for one
   * day: their number, the two exact verdict counts and the mean confidence.
   */
  function RowStats(day: int, rows: seq<LogRecord>): DayStats
  {
    DayStats(day, |rows|, CountPrediction(rows, "Phishing"), CountPrediction(rows, "Legitimate"), MeanConfidence(rows))
  }

  /**
   * Counting the rows fetched for a day's window gives the day's statistics:
   * the total, both verdict counts and the mean over the rows of that
   * calendar day.
   */
  lemma StatsOfFetchedRows(log: seq<LogRecord>, day: int)
    ensures RowStats(day, RowsOn(log, day)) == StatsFor(log, day)
  {
    DayTotalCountsRowsOfDay(log, day);
    DayVerdictCountsRowsOfDay(log, day, "Phishing");
    DayVerdictCountsRowsOfDay(log, day, "Legitimate");
    DaySumOfRowsOfDay(log, day);
  }

  /** The statistics of the `n` consecutive days starting at `first`, oldest first. */
  function DaysFrom(log: seq<LogRecord>, first: int, n: nat): (s: seq<DayStats>)
    ensures |s| == n
    ensures forall i :: 0 <= i < n ==> s[i] == StatsFor(log, first + i)
    decreases n
  {
    if n == 0 then []
    else
      var rest := DaysFrom(log, first + 1, n - 1);
      var s := [StatsFor(log, first)] + rest;
      assert forall i :: 1 <= i < n ==> s[i] == rest[i - 1];
      s
  }

  /**
   * `get_daily_stats`: one entry per day for the `days` days ending today,
   * oldest first; `days` must lie in 1..30.
   */
  function GetDailyStats(log: seq<LogRecord>, today: int, days: int): (r: Result<seq<DayStats>>)
    ensures r.Ok? <==> 1 <= days <= 30
    ensures r.Ok? ==> |r.value| == days
    ensures r.Ok? ==> forall i :: 0 <= i < |r.value| ==> r.value[i].day == today - days + 1 + i
    ensures r.Ok? ==> r.value[|r.value| - 1].day == today
    ensures r.Ok? ==> forall i :: 0 <= i < |r.value| ==> r.value[i] == StatsFor(log, today - days + 1 + i)
    ensures r.Ok? ==> forall i :: 0 <= i < |r.value| ==>
      r.value[i].phishing + r.value[i].legitimate <= r.value[i].total
      && (r.value[i].total == 0 ==> r.value[i].avgConfidence == 0.0)
  {
    if 1 <= days <= 30 then Ok(DaysFrom(log, today - days + 1, days))
    else Invalid("days must be between 1 and 30")
  }

  /** Consecutive entries are consecutive days. */
  lemma DailyStatsConsecutive(log: seq<LogRecord>, today: int, days: int, i: int)
    requires GetDailyStats(log, today, days).Ok?
    requires 0 <= i < days - 1
    ensures GetDailyStats(log, today, days).value[i + 1].day == GetDailyStats(log, today, days).value[i].day + 1
  {
  }

  /** A day's total counts exactly the rows whose timestamp falls on that calendar day. */
  lemma {:induction false} DayTotalCountsRowsOfDay(log: seq<LogRecord>, day: int)
    ensures |RowsOn(log, day)| == CountOnDay(log, day)
  {
    if |log| > 0 {
      DayTotalCountsRowsOfDay(log[1..], day);
      WithinDayIffDayOf(log[0].timestamp, day);
    }
  }

  /** A day's verdict count counts exactly the rows of that calendar day carrying the verdict. */
  lemma {:induction false} DayVerdictCountsRowsOfDay(log: seq<LogRecord>, day: int, verdict: string)
    ensures CountPrediction(RowsOn(log, day), verdict) == CountOnDayAs(log, day, verdict)
  {
    if |log| > 0 {
      DayVerdictCountsRowsOfDay(log[1..], day, verdict);
      WithinDayIffDayOf(log[0].timestamp, day);
      var rest := RowsOn(log[1..], day);
      if WithinDay(log[0].timestamp, day) {
        assert ([log[0]] + rest)[1..] == rest;
      }
    }
  }

  /** A day's confidence sum adds up exactly the rows of that calendar day. */
  lemma {:induction false} DaySumOfRowsOfDay(log: seq<LogRecord>, day: int)
    ensures SumConfidence(RowsOn(log, day)) == SumConfidenceOnDay(log, day)
  {
    if |log| > 0 {
      DaySumOfRowsOfDay(log[1..], day);
      WithinDayIffDayOf(log[0].timestamp, day);
      var rest := RowsOn(log[1..], day);
      if WithinDay(log[0].timestamp, day) {
        assert ([log[0]] + rest)[1..] == rest;
      }
    }
  }

  /** The sum of the confidences of the rows on calendar day `day`. */
  function SumConfidenceOnDay(log: seq<LogRecord>, day: int): real
  {
    if |log| == 0 then 0.0
    else
      var here := if DayOf(log[0].timestamp) == day then log[0].confidence else 0.0;
      here + SumConfidenceOnDay(log[1..], day)
  }

  /** Rows of one day counted under two different verdicts never overlap. */
  lemma {:induction false} TwoVerdictsOnDayAtMostTotal(log: seq<LogRecord>, day: int, a: string, b: string)
    requires a != b
    ensures CountOnDayAs(log, day, a) + CountOnDayAs(log, day, b) <= CountOnDay(log, day)
  {
    if |log| > 0 {
      TwoVerdictsOnDayAtMostTotal(log[1..], day, a, b);
    }
  }

  /** The number of rows on calendar day `day` whose verdict is `verdict`. */
  function CountOnDayAs(log: seq<LogRecord>, day: int, verdict: string): nat
  {
    if |log| == 0 then 0
    else
      var here := if DayOf(log[0].timestamp) == day && log[0].prediction == verdict then 1 else 0;
      here + CountOnDayAs(log[1..], day, verdict)
  }

  /** The number of rows whose timestamp's calendar day is `day`. */
  function CountOnDay(log: seq<LogRecord>, day: int): nat
  {
    if |log| == 0 then 0
    else (if DayOf(log[0].timestamp) == day then 1 else 0) + CountOnDay(log[1..], day)
  }

  // ---------------------------------------------------------------------
  // Model performance
  // ---------------------------------------------------------------------

  datatype ModelStats = ModelStats(
    total: nat, phishing: nat, legitimate: nat, phishingPercentage: real, avgConfidence: real)

  /** The rows of one model type, in log order. */
  function RowsOfModel(log: seq<LogRecord>, modelType: string): (rows: seq<LogRecord>)
    ensures |rows| == CountModel(log, modelType)
    ensures forall i :: 0 <= i < |rows| ==> rows[i].modelType == modelType
  {
    if |log| == 0 then []
    else
      var rest := RowsOfModel(log[1..], modelType);
      if log[0].modelType == modelType then [log[0]] + rest else rest
  }

  /**
   * The rows of one model type are a `Where` on that type, so they come from
   * the log, and every row of that type comes back as often as the log holds it.
   */
  lemma {:induction false} RowsOfModelIsWhere(log: seq<LogRecord>, keep: LogRecord -> bool, modelType: string)
    requires forall r :: keep(r) == (r.modelType == modelType)
    ensures RowsOfModel(log, modelType) == Where(log, keep)
  {
    if |log| > 0 {
      RowsOfModelIsWhere(log[1..], keep, modelType);
    }
  }

  /** Keeping the rows of one model type keeps as many as `CountModel` counts. */
  lemma {:induction false} WhereCountsModel(log: seq<LogRecord>, keep: LogRecord -> bool, modelType: string)
    requires forall r :: keep(r) == (r.modelType == modelType)
    ensures |Where(log, keep)| == CountModel(log, modelType)
  {
    if |log| > 0 {
      WhereCountsModel(log[1..], keep, modelType);
    }
  }

  /** Rows of one type whose verdict is anything but "Phishing". */
  function CountNotPhishing(log: seq<LogRecord>): (n: nat)
    ensures n <= |log|
  {
    if |log| == 0 then 0
    else (if log[0].prediction != "Phishing" then 1 else 0) + CountNotPhishing(log[1..])
  }

  lemma {:induction false} PhishingPlusRest(log: seq<LogRecord>)
    ensures CountPrediction(log, "Phishing") + CountNotPhishing(log) == |log|
  {
    if |log| > 0 {
      PhishingPlusRest(log[1..]);
    }
  }

  /** The statistics of one model type; an unused type gets all zeros. */
  function StatsForModel(log: seq<LogRecord>, modelType: string): (s: ModelStats)
    ensures s.total == CountModel(log, modelType)
    ensures s.phishing + s.legitimate == s.total
    ensures s.legitimate == CountNotPhishing(RowsOfModel(log, modelType))
    ensures s.phishing == CountPrediction(RowsOfModel(log, modelType), "Phishing")
    ensures 0.0 <= s.phishingPercentage <= 100.0
    ensures IsPercentage(s.phishingPercentage, s.phishing, s.total)
    ensures s.avgConfidence == MeanConfidence(RowsOfModel(log, modelType))
    ensures IsMean(s.avgConfidence, SumConfidence(RowsOfModel(log, modelType)), s.total)
    ensures s.total == 0 ==> s == ModelStats(0, 0, 0, 0.0, 0.0)
  {
    var rows := RowsOfModel(log, modelType);
    PhishingPlusRest(rows);
    if |rows| > 0 then
      var phishing := CountPrediction(rows, "Phishing");
      ModelStats(|rows|, phishing, |rows| - phishing, Percentage(phishing, |rows|), MeanConfidence(rows))
    else ModelStats(0, 0, 0, 0.0, 0.0)
  }

  /** `get_model_performance`: exactly the three model types. */
  function GetModelPerformance(log: seq<LogRecord>): (m: map<string, ModelStats>)
    ensures m.Keys == {"url", "text", "hybrid"}
    ensures forall t :: t in m ==> m[t] == StatsForModel(log, t)
  {
    PerformanceMap(StatsForModel(log, "url"), StatsForModel(log, "text"), StatsForModel(log, "hybrid"))
  }

  /** The response dict of `get_model_performance`, one entry per model type. */
  function PerformanceMap(u: ModelStats, t: ModelStats, h: ModelStats): (m: map<string, ModelStats>)
    ensures m.Keys == {"url", "text", "hybrid"}
    ensures m["url"] == u && m["text"] == t && m["hybrid"] == h
  {
    var m := map["url" := u, "text" := t, "hybrid" := h];
    assert m.Keys == {"url", "text", "hybrid"};
    m
  }

  /**
   * The two endpoints disagree on "legitimate": performance counts every
   * non-"Phishing" row, the summary only exact "Legitimate" rows.
   */
  lemma LegitimateCountsDiffer(r: LogRecord)
    requires r.modelType == "url" && r.prediction == "Error"
    ensures GetSummary([r]).legitimate == 0
    ensures GetModelPerformance([r])["url"].legitimate == 1
  {
    assert [r][1..] == [];
    assert RowsOfModel([r], "url") == [r];
  }

  // ---------------------------------------------------------------------
  // History
  // ---------------------------------------------------------------------

  /** `if model_type:` / `if prediction:`: an absent or empty filter matches everything. */
  predicate PassesFilter(value: string, filter: Option<string>)
  {
    filter.None? || filter.value == "" || value == filter.value
  }

  predicate Matches(r: LogRecord, modelType: Option<string>, prediction: Option<string>)
  {
    PassesFilter(r.modelType, modelType) && PassesFilter(r.prediction, prediction)
  }

  function FilterRows(log: seq<LogRecord>, modelType: Option<string>, prediction: Option<string>): (rows: seq<LogRecord>)
    ensures forall i :: 0 <= i < |rows| ==> Matches(rows[i], modelType, prediction)
    ensures multiset(rows) <= multiset(log)
    ensures forall i :: 0 <= i < |log| && Matches(log[i], modelType, prediction) ==> log[i] in rows
    ensures forall x :: multiset(rows)[x] == if Matches(x, modelType, prediction) then multiset(log)[x] else 0
  {
    Where(log, (r: LogRecord) => Matches(r, modelType, prediction))
  }

  predicate NewestFirst(s: seq<LogRecord>)
  {
    forall i, j :: 0 <= i < j < |s| ==> s[i].timestamp >= s[j].timestamp
  }

  /** In a newest-first sequence the head is at least as recent as every later row. */
  lemma HeadIsNewest(s: seq<LogRecord>, y: LogRecord)
    requires NewestFirst(s) && |s| > 0 && y in s[1..]
    ensures s[0].timestamp >= y.timestamp
  {
    var j :| 0 <= j < |s[1..]| && s[1..][j] == y;
    assert s[j + 1] == y;
  }

  /** Places `x` after every row at least as recent, so equal timestamps keep their log order. */
  function InsertByTime(x: LogRecord, s: seq<LogRecord>): (r: seq<LogRecord>)
    requires NewestFirst(s)
    ensures NewestFirst(r)
    ensures multiset(r) == multiset(s) + multiset{x}
    ensures |r| == |s| + 1
    ensures forall k :: 0 <= k < |r| ==> r[k] == x || r[k] in s
  {
    if |s| == 0 then [x]
    else if s[0].timestamp >= x.timestamp then
      var rest := InsertByTime(x, s[1..]);
      forall k | 0 <= k < |rest| ensures s[0].timestamp >= rest[k].timestamp {
        if rest[k] != x {
          HeadIsNewest(s, rest[k]);
        }
      }
      NewestFirstCons(s[0], rest);
      assert s == [s[0]] + s[1..];
      [s[0]] + rest
    else
      forall k | 0 <= k < |s| ensures x.timestamp >= s[k].timestamp {
        if k > 0 {
          HeadIsNewest(s, s[k]);
        }
      }
      NewestFirstCons(x, s);
      [x] + s
  }

  /** A row at least as recent as every row of a newest-first list can go in front of it. */
  lemma NewestFirstCons(h: LogRecord, t: seq<LogRecord>)
    requires NewestFirst(t)
    requires forall k :: 0 <= k < |t| ==> h.timestamp >= t[k].timestamp
    ensures NewestFirst([h] + t)
  {
    var r := [h] + t;
    forall i, j | 0 <= i < j < |r| ensures r[i].timestamp >= r[j].timestamp {
      assert r[j] == t[j - 1];
      if i > 0 {
        assert r[i] == t[i - 1];
      }
    }
  }

  /** `ORDER BY timestamp DESC`, ties in log order. */
  function SortNewestFirst(s: seq<LogRecord>): (r: seq<LogRecord>)
    ensures NewestFirst(r)
    ensures multiset(r) == multiset(s)
    ensures |r| == |s|
  {
    if |s| == 0 then []
    else
      var init := s[..|s| - 1];
      assert s == init + [s[|s| - 1]];
      InsertByTime(s[|s| - 1], SortNewestFirst(init))
  }

  /** `OFFSET offset LIMIT limit`. */
  function Window(rows: seq<LogRecord>, offset: nat, limit: nat): (w: seq<LogRecord>)
    ensures |w| == if offset >= |rows| then 0 else if |rows| - offset < limit then |rows| - offset else limit
    ensures forall i :: 0 <= i < |w| ==> w[i] == rows[offset + i]
  {
    if offset >= |rows| then []
    else if |rows| - offset < limit then rows[offset..]
    else rows[offset..offset + limit]
  }

  /** A window is a contiguous run of the rows: it keeps their order and takes nothing new. */
  lemma WindowOfRows(rows: seq<LogRecord>, offset: nat, limit: nat)
    ensures multiset(Window(rows, offset, limit)) <= multiset(rows)
    ensures NewestFirst(rows) ==> NewestFirst(Window(rows, offset, limit))
  {
    var w := Window(rows, offset, limit);
    if offset < |rows| {
      assert rows == rows[..offset] + (w + rows[offset + |w|..]);
    }
  }

  /** Rows of a sequence whose rows all match still match after a reordering and a window. */
  lemma WindowMatches(rows: seq<LogRecord>, sorted: seq<LogRecord>, w: seq<LogRecord>,
                      modelType: Option<string>, prediction: Option<string>)
    requires forall i :: 0 <= i < |rows| ==> Matches(rows[i], modelType, prediction)
    requires multiset(sorted) == multiset(rows) && multiset(w) <= multiset(sorted)
    ensures forall i :: 0 <= i < |w| ==> Matches(w[i], modelType, prediction)
  {
    forall i | 0 <= i < |w| ensures Matches(w[i], modelType, prediction) {
      assert w[i] in multiset(w);
      assert w[i] in multiset(rows);
      var j :| 0 <= j < |rows| && rows[j] == w[i];
    }
  }

  /**
   * `get_prediction_history`: the matching rows newest first, `offset`
   * skipped, at most `limit` returned; `limit` must lie in 1..1000 and
   * `offset` must not be negative.
   */
  function GetHistory(log: seq<LogRecord>, limit: int, offset: int,
                      modelType: Option<string>, prediction: Option<string>): (r: Result<seq<LogRecord>>)
    ensures r.Ok? <==> 1 <= limit <= 1000 && offset >= 0
    ensures r.Ok? ==> |r.value| <= limit
    ensures r.Ok? ==> NewestFirst(r.value)
    ensures r.Ok? ==> forall i :: 0 <= i < |r.value| ==> Matches(r.value[i], modelType, prediction)
    ensures r.Ok? ==> multiset(r.value) <= multiset(log)
  {
    if 1 <= limit <= 1000 && offset >= 0 then
      var rows := FilterRows(log, modelType, prediction);
      var sorted := SortNewestFirst(rows);
      var w := Window(sorted, offset, limit);
      WindowOfRows(sorted, offset, limit);
      WindowMatches(rows, sorted, w, modelType, prediction);
      Ok(w)
    else Invalid("limit must be in 1..1000 and offset non-negative")
  }

  /**
   * Which rows an accepted request returns: the `offset`/`limit` window of
   * the matching rows sorted newest first.
   */
  lemma GetHistoryIsWindow(log: seq<LogRecord>, limit: int, offset: int, modelType: Option<string>, prediction: Option<string>)
    requires 1 <= limit <= 1000 && offset >= 0
    ensures GetHistory(log, limit, offset, modelType, prediction)
      == Ok(Window(SortNewestFirst(FilterRows(log, modelType, prediction)), offset, limit))
  {
  }

  /** The history length is the number of matching rows past the offset, capped at the limit. */
  lemma HistoryLength(log: seq<LogRecord>, limit: int, offset: int, modelType: Option<string>, prediction: Option<string>)
    requires 1 <= limit <= 1000 && offset >= 0
    ensures var n := |FilterRows(log, modelType, prediction)|;
      |GetHistory(log, limit, offset, modelType, prediction).value|
        == if offset >= n then 0 else if n - offset < limit then n - offset else limit
  {
  }

  /** Without filters every row of the log is a candidate. */
  lemma NoFilterKeepsEveryRow(log: seq<LogRecord>)
    ensures multiset(FilterRows(log, None, None)) == multiset(log)
  {
    FilterAll(log);
  }

  lemma FilterAll(log: seq<LogRecord>)
    ensures FilterRows(log, None, None) == log
  {
    WhereAll(log, (r: LogRecord) => Matches(r, None, None));
  }

  /** A filter that keeps every row returns the log itself. */
  lemma {:induction false} WhereAll(log: seq<LogRecord>, keep: LogRecord -> bool)
    requires forall r :: keep(r)
    ensures Where(log, keep) == log
  {
    if |log| > 0 {
      WhereAll(log[1..], keep);
      assert log == [log[0]] + log[1..];
    }
  }
}

=== FILE: feature_map.dfy ===
/**
 * A feature dictionary as Python keeps it: an insertion-ordered sequence of
 * (name, value) pairs with distinct names. Assigning an existing name
 * replaces its value in place; a new name is appended. `list(d.values())`
 * therefore depends on the order in which the extractors assigned names.
 */
module FeatureMap {
  import opened Optional

  type Dict = seq<(string, real)>

  function Keys(d: Dict): (ks: seq<string>)
    ensures |ks| == |d|
  {
    seq(|d|, i requires 0 <= i < |d| => d[i].0)
  }

  /** `list(d.values())`: the values in insertion order. */
  function Values(d: Dict): (vs: seq<real>)
    ensures |vs| == |d|
  {
    seq(|d|, i requires 0 <= i < |d| => d[i].1)
  }

  /** No name occurs twice, as in every Python dict. */
  predicate UniqueKeys(d: Dict)
  {
    forall i, j :: 0 <= i < j < |d| ==> d[i].0 != d[j].0
  }

  /** `d.get(k)`: the value stored under `k`, if any. */
  function Get(d: Dict, k: string): (r: Option<real>)
    ensures r.Some? <==> k in Keys(d)
    ensures r.Some? ==> exists i :: 0 <= i < |d| && d[i] == (k, r.value)
  {
    if |d| == 0 then None
    else if d[0].0 == k then
      assert Keys(d)[0] == k;
      Some(d[0].1)
    else
      var r := Get(d[1..], k);
      assert Keys(d) == [d[0].0] + Keys(d[1..]);
      assert r.Some? ==> exists i :: 0 <= i < |d| && d[i] == (k, r.value) by {
        if r.Some? {
          var i :| 0 <= i < |d[1..]| && d[1..][i] == (k, r.value);
          assert d[i + 1] == (k, r.value);
        }
      }
      r
  }

  /** With distinct names, the entry at index `i` is what `Get` finds for its name. */
  lemma {:induction false} GetAt(d: Dict, i: int)
    requires UniqueKeys(d)
    requires 0 <= i < |d|
    ensures Get(d, d[i].0) == Some(d[i].1)
  {
    if i > 0 {
      GetAt(d[1..], i - 1);
    }
  }

  /** `d[k] = v`: an existing name keeps its position, a new one is appended. */
  function Set(d: Dict, k: string, v: real): (r: Dict)
    ensures k in Keys(d) ==> Keys(r) == Keys(d)
    ensures k !in Keys(d) ==> Keys(r) == Keys(d) + [k]
  {
    if |d| == 0 then [(k, v)]
    else if d[0].0 == k then
      assert Keys(d)[0] == k;
      assert Keys([(k, v)] + d[1..]) == Keys(d);
      [(k, v)] + d[1..]
    else
      var rest := Set(d[1..], k, v);
      assert Keys(d) == [d[0].0] + Keys(d[1..]);
      assert Keys([d[0]] + rest) == [d[0].0] + Keys(rest);
      [d[0]] + rest
  }

  /** After `d[k] = v`, `k` maps to `v` and every other name keeps its value. */
  lemma {:induction false} SetGet(d: Dict, k: string, v: real, k': string)
    ensures Get(Set(d, k, v), k') == if k' == k then Some(v) else Get(d, k')
  {
    if |d| > 0 && d[0].0 != k {
      var rest := Set(d[1..], k, v);
      var r := [d[0]] + rest;
      assert r[0] == d[0] && r[1..] == rest;
      SetGet(d[1..], k, v, k');
    }
  }

  /** Assignment keeps names distinct. */
  lemma {:induction false} SetUnique(d: Dict, k: string, v: real)
    requires UniqueKeys(d)
    ensures UniqueKeys(Set(d, k, v))
  {
    if |d| > 0 && d[0].0 != k {
      var rest := Set(d[1..], k, v);
      SetUnique(d[1..], k, v);
      assert Keys(d) == [d[0].0] + Keys(d[1..]);
      assert d[0].0 !in Keys(d[1..]);
      forall i | 0 <= i < |rest| ensures rest[i].0 != d[0].0 {
        assert Keys(rest)[i] == rest[i].0;
      }
    }
  }

  /** The names of `es` that are not yet among `ks`, each once, in the order they first occur. */
  function NewNames(ks: seq<string>, es: seq<string>): seq<string>
    decreases |es|
  {
    if |es| == 0 then []
    else if es[0] in ks then NewNames(ks, es[1..])
    else [es[0]] + NewNames(ks + [es[0]], es[1..])
  }

  /**
   * `d.update(e)`: the entries of `e` assigned into `d` one by one, in order.
   * The names of `d` keep their positions at the front and distinct names
   * stay distinct.
   */
  function Update(d: Dict, e: Dict): (r: Dict)
    ensures |d| <= |r| && Keys(r)[..|d|] == Keys(d)
    ensures UniqueKeys(d) ==> UniqueKeys(r)
    decreases |e|
  {
    if |e| == 0 then d
    else
      var d1 := Set(d, e[0].0, e[0].1);
      var r := Update(d1, e[1..]);
      assert Keys(r)[..|d|] == Keys(r)[..|d1|][..|d|];
      assert UniqueKeys(d) ==> UniqueKeys(d1) by {
        if UniqueKeys(d) { SetUnique(d, e[0].0, e[0].1); }
      }
      r
  }

  /**
   * After `d.update(e)` every name of `e` carries its value from `e`, every
   * other name keeps its value from `d`.
   */
  lemma {:induction false} UpdateGet(d: Dict, e: Dict, k: string)
    requires UniqueKeys(e)
    ensures Get(Update(d, e), k) == if k in Keys(e) then Get(e, k) else Get(d, k)
    decreases |e|
  {
    if |e| > 0 {
      var d1 := Set(d, e[0].0, e[0].1);
      assert Keys(e) == [e[0].0] + Keys(e[1..]);
      SetGet(d, e[0].0, e[0].1, k);
      UpdateGet(d1, e[1..], k);
      if k == e[0].0 {
        assert forall j :: 0 <= j < |e[1..]| ==> Keys(e[1..])[j] != k by {
          forall j | 0 <= j < |e[1..]| ensures Keys(e[1..])[j] != k {
            assert e[0].0 != e[j + 1].0;
          }
        }
      }
    }
  }

  /** `UpdateGet` for every name at once. */
  lemma UpdateGetAll(d: Dict, e: Dict)
    requires UniqueKeys(e)
    ensures forall k :: Get(Update(d, e), k) == if k in Keys(e) then Get(e, k) else Get(d, k)
  {
    forall k ensures Get(Update(d, e), k) == if k in Keys(e) then Get(e, k) else Get(d, k) {
      UpdateGet(d, e, k);
    }
  }

  /**
   * The names after `d.update(e)`: those of `d`, then the names of `e` that
   * `d` lacks, in their order in `e`.
   */
  lemma {:induction false} UpdateKeys(d: Dict, e: Dict)
    ensures Keys(Update(d, e)) == Keys(d) + NewNames(Keys(d), Keys(e))
    decreases |e|
  {
    if |e| > 0 {
      var k := e[0].0;
      var d1 := Set(d, k, e[0].1);
      var rest := Keys(e[1..]);
      UpdateKeys(d1, e[1..]);
      assert Keys(Update(d, e)) == Keys(d1) + NewNames(Keys(d1), rest);
      assert Keys(e)[0] == k && Keys(e)[1..] == rest;
      if k in Keys(d) {
        assert NewNames(Keys(d), Keys(e)) == NewNames(Keys(d), rest);
      } else {
        assert NewNames(Keys(d), Keys(e)) == [k] + NewNames(Keys(d) + [k], rest);
        assert Keys(d1) + NewNames(Keys(d1), rest) == Keys(d) + ([k] + NewNames(Keys(d) + [k], rest));
      }
    }
  }

  /** When the names of `e` are new to `d`, `d.update(e)` appends `e` to `d`. */
  lemma {:induction false} UpdateDisjoint(d: Dict, e: Dict)
    requires UniqueKeys(e)
    requires forall i :: 0 <= i < |e| ==> e[i].0 !in Keys(d)
    ensures Update(d, e) == d + e
    decreases |e|
  {
    if |e| > 0 {
      var d1 := Set(d, e[0].0, e[0].1);
      SetFresh(d, e[0].0, e[0].1);
      assert d1 == d + [e[0]];
      var e' := e[1..];
      assert Keys(d1) == Keys(d) + [e[0].0];
      forall i | 0 <= i < |e'| ensures e'[i].0 !in Keys(d1) {
        assert e'[i] == e[i + 1];
        assert e[i + 1].0 != e[0].0;
      }
      UpdateDisjoint(d1, e');
      AppendFirst(d, e);
    }
  }

  lemma AppendFirst<T>(a: seq<T>, b: seq<T>)
    requires |b| > 0
    ensures (a + [b[0]]) + b[1..] == a + b
  {
    assert b == [b[0]] + b[1..];
  }

  /** Assigning a name not yet present appends it. */
  lemma {:induction false} SetFresh(d: Dict, k: string, v: real)
    requires k !in Keys(d)
    ensures Set(d, k, v) == d + [(k, v)]
  {
    if |d| > 0 {
      assert Keys(d) == [d[0].0] + Keys(d[1..]);
      SetFresh(d[1..], k, v);
    }
  }

  /** Names distinct across `a + b` are distinct within each part and between the parts. */
  lemma UniqueParts(a: Dict, b: Dict)
    requires UniqueKeys(a + b)
    ensures UniqueKeys(a) && UniqueKeys(b)
    ensures forall i :: 0 <= i < |b| ==> b[i].0 !in Keys(a)
  {
    forall i | 0 <= i < |b| ensures b[i].0 !in Keys(a) {
      forall j | 0 <= j < |a| ensures Keys(a)[j] != b[i].0 {
        assert (a + b)[j] == a[j];
        assert (a + b)[|a| + i] == b[i];
      }
    }
    forall i, j | 0 <= i < j < |a| ensures a[i].0 != a[j].0 {
      assert (a + b)[i] == a[i] && (a + b)[j] == a[j];
    }
    forall i, j | 0 <= i < j < |b| ensures b[i].0 != b[j].0 {
      assert (a + b)[|a| + i] == b[i] && (a + b)[|a| + j] == b[j];
    }
  }

  /** Every name of `d` starts with `prefix`. */
  predicate AllKeysStartWith(d: Dict, prefix: string)
  {
    forall i :: 0 <= i < |d| ==> |prefix| <= |d[i].0| && d[i].0[..|prefix|] == prefix
  }
}

=== FILE: llm_analyzer.dfy ===
/**
 * `PhishingAnalysisParser` and the deterministic parts of
 * `LLMPhishingAnalyzer`: the tolerant reply parser with its keyword
 * fallback, the URL phishing bias, result defaulting, the fixed fallback
 * result, and the ML + LLM combination of `final_url_analysis`.
 *
 * The Ollama model, the LangChain chain and `json.loads` are not modelled:
 * the chain's outcome is an `Invocation` value and JSON decoding is a
 * function from the candidate string to an optional `Reply`.
 */
module LlmAnalyzer {
  import opened Optional
  import opened Strings
  import ModelLoader
  import UrlFeatures

  /**
   * A decoded reply dict: each field is `None` when the key is absent, so
   * that `result.get(key, default)` can fall back.
   */
  datatype Reply = Reply(
    prediction: Option<string>,
    confidence: Option<real>,
    explanation: Option<string>,
    riskFactors: Option<seq<string>>,
    recommendations: Option<seq<string>>)

  /** `LLMAnalysisResult`. */
  datatype AnalysisResult = AnalysisResult(
    prediction: string,
    confidence: real,
    explanation: string,
    riskFactors: seq<string>,
    recommendations: seq<string>)

  // ---------------------------------------------------------------------
  // Fallback parsing
  // ---------------------------------------------------------------------

  const PhishingWords: seq<string> := ["phishing", "suspicious", "malicious", "dangerous"]
  const LegitimateWords: seq<string> := ["legitimate", "safe", "clean", "normal"]

  /** `any(word in s for word in words)`. */
  predicate AnyOccurs(words: seq<string>, s: string)
  {
    exists i :: 0 <= i < |words| && Contains(s, words[i])
  }

  /** The keyword verdict: phishing words first, then legitimate words, else unknown. */
  function FallbackVerdict(text: string): (v: string)
    ensures v in {"PHISHING", "LEGITIMATE", "UNKNOWN"}
  {
    var lower := Lower(text);
    if AnyOccurs(PhishingWords, lower) then "PHISHING"
    else if AnyOccurs(LegitimateWords, lower) then "LEGITIMATE"
    else "UNKNOWN"
  }

  /**
   * The verdict is phishing exactly when a phishing word occurs, whatever
   * else occurs; legitimate exactly when only legitimate words occur.
   */
  lemma FallbackVerdictPrecedence(text: string)
    ensures FallbackVerdict(text) == "PHISHING" <==> AnyOccurs(PhishingWords, Lower(text))
    ensures FallbackVerdict(text) == "LEGITIMATE"
        <==> !AnyOccurs(PhishingWords, Lower(text)) && AnyOccurs(LegitimateWords, Lower(text))
    ensures FallbackVerdict(text) == "UNKNOWN"
        <==> !AnyOccurs(PhishingWords, Lower(text)) && !AnyOccurs(LegitimateWords, Lower(text))
  {
  }

  /**
   * A match of the regular expression `(\d+)%` starting at `i`: a digit at
   * `i` whose maximal digit run is followed by '%'. Backtracking cannot find
   * a shorter run, since a shorter run is followed by a digit.
   */
  predicate PercentAt(s: string, i: int)
  {
    0 <= i < |s| && IsDigit(s[i])
    && i + LeadingDigits(s[i..]) < |s| && s[i + LeadingDigits(s[i..])] == '%'
  }

  /** The start of the leftmost `(\d+)%` match at or after `from`. */
  function PercentFrom(s: string, from: nat): (r: Option<nat>)
    ensures r.Some? ==> from <= r.value && PercentAt(s, r.value)
    ensures r.Some? ==> forall j :: from <= j < r.value ==> !PercentAt(s, j)
    ensures r.None? ==> forall j :: from <= j < |s| ==> !PercentAt(s, j)
    decreases |s| - from
  {
    if from >= |s| then None
    else if PercentAt(s, from) then Some(from)
    else PercentFrom(s, from + 1)
  }

  /** `re.findall(r'(\d+)%', s)[0]` as a number, if there is a match. */
  function FirstPercent(s: string): (r: Option<nat>)
  {
    match PercentFrom(s, 0)
    case None => None
    case Some(i) =>
      var run := s[i..][..LeadingDigits(s[i..])];
      Some(DigitsValue(run))
  }

  /** The confidence the fallback reads: the first percentage over 100, else 0.5. */
  function FallbackConfidence(text: string): (c: real)
    ensures '%' !in text ==> c == 0.5
    ensures FirstPercent(text).None? ==> c == 0.5
    ensures FirstPercent(text).Some? ==> c == FirstPercent(text).value as real / 100.0
  {
    if '%' in text then
      match FirstPercent(text)
      case Some(n) => n as real / 100.0
      case None => 0.5
    else
      assert FirstPercent(text).None? by {
        NoPercentNoMatch(text);
      }
      0.5
  }

  /** Without a '%' character there is no `(\d+)%` match. */
  lemma NoPercentNoMatch(s: string)
    requires '%' !in s
    ensures PercentFrom(s, 0).None?
  {
  }

  /** `text[:500]`. */
  function Truncate500(text: string): (e: string)
    ensures |e| == if |text| < 500 then |text| else 500
    ensures e <= text
  {
    if |text| <= 500 then text else text[..500]
  }

  /** `_fallback_parse`: every field present, the lists empty. */
  function FallbackParse(text: string): (r: Reply)
    ensures r.prediction == Some(FallbackVerdict(text))
    ensures r.confidence == Some(FallbackConfidence(text))
    ensures r.explanation == Some(Truncate500(text))
    ensures r.riskFactors == Some([]) && r.recommendations == Some([])
  {
    Reply(Some(FallbackVerdict(text)), Some(FallbackConfidence(text)), Some(Truncate500(text)), Some([]), Some([]))
  }

  /** The confidence is not clamped: "150%" reads as 1.5. */
  lemma UnclampedPercentage()
    ensures FallbackParse("risk 150%").confidence == Some(1.5)
  {
    var s := "risk 150%";
    PercentInRisk();
    PercentFromFinds(s, 0, 5);
    assert '%' in s by { assert s[8] == '%'; }
  }

  /** "risk 150%": the first match starts at the '1' and its digit run reads 150. */
  lemma PercentInRisk()
    ensures var s := "risk 150%";
      && PercentAt(s, 5) && (forall j :: 0 <= j < 5 ==> !PercentAt(s, j))
      && DigitsValue(s[5..][..LeadingDigits(s[5..])]) == 150
  {
    var s := "risk 150%";
    assert s[5..] == "150%";
    assert LeadingDigits("%") == 0;
    assert LeadingDigits("0%") == 1;
    assert LeadingDigits("50%") == 2;
    assert LeadingDigits("150%") == 3;
    assert PercentAt(s, 5);
    forall j | 0 <= j < 5 ensures !PercentAt(s, j) {
      assert !IsDigit(s[j]);
    }
    assert s[5..][..3] == "150";
    assert DigitsValue("1") == 1;
    assert DigitsValue("15") == 15;
    assert DigitsValue("150") == 150;
  }

  /** The search reports the first position at or after `from` that starts a match. */
  lemma {:induction false} PercentFromFinds(s: string, from: nat, i: nat)
    requires from <= i && PercentAt(s, i)
    requires forall j :: from <= j < i ==> !PercentAt(s, j)
    ensures PercentFrom(s, from) == Some(i)
    decreases i - from
  {
    if from < i {
      PercentFromFinds(s, from + 1, i);
    }
  }

  // ---------------------------------------------------------------------
  // The tolerant parser
  // ---------------------------------------------------------------------

  /**
   * `text[text.find("{"):text.rfind("}") + 1]`: from the first '{' to the
   * last '}' inclusive, or "" when that '}' comes before the '{'.
   */
  function JsonCandidate(text: string): (c: string)
    requires '{' in text && '}' in text
    ensures Find(text, '{') <= RFind(text, '}') ==>
      && |c| >= 2 && c[0] == '{' && c[|c| - 1] == '}'
      && text[Find(text, '{')..RFind(text, '}') + 1] == c
      && '{' !in text[..Find(text, '{')] && '}' !in text[RFind(text, '}') + 1..]
    ensures Find(text, '{') > RFind(text, '}') ==> c == ""
  {
    var start := Find(text, '{');
    var end := RFind(text, '}') + 1;
    if start <= end then text[start..end] else ""
  }

  /**
   * `PhishingAnalysisParser.parse`: the JSON candidate when both braces
   * occur and it decodes, the keyword fallback otherwise. `decode` is
   * `json.loads`, `None` when it raises.
   */
  function Parse(text: string, decode: string -> Option<Reply>): (r: Reply)
    ensures !('{' in text && '}' in text) ==> r == FallbackParse(text)
    ensures '{' in text && '}' in text ==>
      r == decode(JsonCandidate(text)).GetOr(FallbackParse(text))
  {
    if '{' in text && '}' in text then
      match decode(JsonCandidate(text))
      case Some(reply) => reply
      case None => FallbackParse(text)
    else FallbackParse(text)
  }

  /** When the last '}' precedes the first '{' the candidate is empty, which never decodes. */
  lemma ReversedBracesFallBack(text: string, decode: string -> Option<Reply>)
    requires decode("").None?
    requires '{' in text && '}' in text && Find(text, '{') > RFind(text, '}')
    ensures Parse(text, decode) == FallbackParse(text)
  {
  }

  // ---------------------------------------------------------------------
  // Results
  // ---------------------------------------------------------------------

  /** The URL bias: a "LEGITIMATE" verdict below 0.9 confidence (0.5 when missing) becomes "PHISHING". */
  function UrlBias(r: Reply): (b: Reply)
    ensures b.confidence == r.confidence && b.explanation == r.explanation
    ensures b.riskFactors == r.riskFactors && b.recommendations == r.recommendations
    ensures b.prediction == Some("LEGITIMATE") ==> b.confidence.GetOr(0.5) >= 0.9
    ensures r.prediction != Some("LEGITIMATE") ==> b == r
    ensures r.prediction == Some("LEGITIMATE") && r.confidence.GetOr(0.5) >= 0.9 ==> b == r
    ensures r.prediction == Some("LEGITIMATE") && r.confidence.GetOr(0.5) < 0.9 ==> b.prediction == Some("PHISHING")
  {
    if r.prediction == Some("LEGITIMATE") && r.confidence.GetOr(0.5) < 0.9 then
      r.(prediction := Some("PHISHING"))
    else r
  }

  /** Applying the bias twice changes nothing more. */
  lemma UrlBiasIdempotent(r: Reply)
    ensures UrlBias(UrlBias(r)) == UrlBias(r)
  {
  }

  /** The bias only ever turns a verdict into "PHISHING". */
  lemma UrlBiasOnlyFlipsToPhishing(r: Reply)
    ensures UrlBias(r) != r ==> r.prediction == Some("LEGITIMATE") && UrlBias(r).prediction == Some("PHISHING")
  {
  }

  const NoExplanation: string := "No explanation available"

  /** `LLMAnalysisResult(...)` built with `result.get(key, default)` for each field. */
  function WithDefaults(r: Reply): (a: AnalysisResult)
    ensures r.prediction.None? ==> a.prediction == "UNKNOWN"
    ensures r.confidence.None? ==> a.confidence == 0.5
    ensures r.explanation.None? ==> a.explanation == NoExplanation
    ensures r.riskFactors.None? ==> a.riskFactors == []
    ensures r.recommendations.None? ==> a.recommendations == []
    ensures r.prediction.Some? ==> a.prediction == r.prediction.value
    ensures r.confidence.Some? ==> a.confidence == r.confidence.value
    ensures r.explanation.Some? ==> a.explanation == r.explanation.value
    ensures r.riskFactors.Some? ==> a.riskFactors == r.riskFactors.value
    ensures r.recommendations.Some? ==> a.recommendations == r.recommendations.value
  {
    AnalysisResult(
      r.prediction.GetOr("UNKNOWN"),
      r.confidence.GetOr(0.5),
      r.explanation.GetOr(NoExplanation),
      r.riskFactors.GetOr([]),
      r.recommendations.GetOr([]))
  }

  /** A reply carrying every field of `a`. */
  function FullReply(a: AnalysisResult): Reply
  {
    Reply(Some(a.prediction), Some(a.confidence), Some(a.explanation), Some(a.riskFactors), Some(a.recommendations))
  }

  /** Defaulting a reply that has every field gives back exactly those fields. */
  lemma WithDefaultsOfFullReply(a: AnalysisResult)
    ensures WithDefaults(FullReply(a)) == a
  {
  }

  /** Defaulting depends on the reply only through its fields: distinct full replies stay distinct. */
  lemma WithDefaultsInjectiveOnFull(a: AnalysisResult, b: AnalysisResult)
    ensures WithDefaults(FullReply(a)) == WithDefaults(FullReply(b)) <==> a == b
  {
    WithDefaultsOfFullReply(a);
    WithDefaultsOfFullReply(b);
  }

  const UnavailablePrefix: string := "LLM analysis unavailable: "

  /** `_fallback_result`: an unknown verdict with zero confidence and two fixed recommendations. */
  function FallbackResult(message: string): (a: AnalysisResult)
    ensures a.prediction == "UNKNOWN" && a.confidence == 0.0
    ensures a.explanation == UnavailablePrefix + message
    ensures a.explanation[|UnavailablePrefix|..] == message
    ensures a.riskFactors == []
    ensures a.recommendations == ["Use traditional ML analysis", "Check LLM service status"]
  {
    AnalysisResult("UNKNOWN", 0.0, UnavailablePrefix + message, [],
      ["Use traditional ML analysis", "Check LLM service status"])
  }

  /** What running the chain gave: the completion text, or the message of the exception it raised. */
  datatype Invocation = Completed(output: string) | Raised(message: string)

  /**
   * The LLM analyzer's connection: `configured` is false when `OllamaLLM`
   * could not be constructed; `decode` is `json.loads`.
   */
  datatype Llm = Llm(configured: bool, decode: string -> Option<Reply>)

  /** The shared frame of the three `analyze_*` methods; `bias` is set for URLs only. */
  function Analyze(llm: Llm, inv: Invocation, bias: bool): (a: AnalysisResult)
    ensures !llm.configured ==> a == FallbackResult("LLM not available")
    ensures llm.configured && inv.Raised? ==> a == FallbackResult("Analysis failed: " + inv.message)
    ensures llm.configured && inv.Completed? && !bias ==> a == WithDefaults(Parse(inv.output, llm.decode))
    ensures llm.configured && inv.Completed? && bias ==> a == WithDefaults(UrlBias(Parse(inv.output, llm.decode)))
  {
    if !llm.configured then FallbackResult("LLM not available")
    else
      match inv
      case Raised(e) => FallbackResult("Analysis failed: " + e)
      case Completed(out) =>
        var parsed := Parse(out, llm.decode);
        WithDefaults(if bias then UrlBias(parsed) else parsed)
  }

  /** `analyze_url`. */
  function AnalyzeUrl(llm: Llm, inv: Invocation): (a: AnalysisResult)
    ensures a.prediction == "LEGITIMATE" ==> a.confidence >= 0.9
    ensures !llm.configured ==> a == FallbackResult("LLM not available")
    ensures llm.configured && inv.Raised? ==> a == FallbackResult("Analysis failed: " + inv.message)
    ensures llm.configured && inv.Completed? ==> a == WithDefaults(UrlBias(Parse(inv.output, llm.decode)))
  {
    var a := Analyze(llm, inv, true);
    assert a.prediction == "LEGITIMATE" ==> a.confidence >= 0.9 by {
      if llm.configured && inv.Completed? {
        var b := UrlBias(Parse(inv.output, llm.decode));
        assert a == WithDefaults(b);
      }
    }
    a
  }

  /** `analyze_text`. */
  function AnalyzeText(llm: Llm, inv: Invocation): (a: AnalysisResult)
    ensures !llm.configured ==> a == FallbackResult("LLM not available")
    ensures llm.configured && inv.Raised? ==> a == FallbackResult("Analysis failed: " + inv.message)
    ensures llm.configured && inv.Completed? ==> a == WithDefaults(Parse(inv.output, llm.decode))
  {
    Analyze(llm, inv, false)
  }

  /** `analyze_hybrid`. */
  function AnalyzeHybrid(llm: Llm, inv: Invocation): (a: AnalysisResult)
    ensures !llm.configured ==> a == FallbackResult("LLM not available")
    ensures llm.configured && inv.Raised? ==> a == FallbackResult("Analysis failed: " + inv.message)
    ensures llm.configured && inv.Completed? ==> a == WithDefaults(Parse(inv.output, llm.decode))
  {
    Analyze(llm, inv, false)
  }

  /**
   * The URL analysis differs from the unbiased analysis of the same
   * completion exactly when the latter is "LEGITIMATE" below 0.9, and then
   * only in saying "PHISHING".
   */
  lemma UrlAnalysisVersusUnbiased(llm: Llm, inv: Invocation)
    ensures var u, t := AnalyzeUrl(llm, inv), AnalyzeText(llm, inv);
      && (u != t <==> t.prediction == "LEGITIMATE" && t.confidence < 0.9)
      && (u != t ==> u == t.(prediction := "PHISHING"))
  {
    if llm.configured && inv.Completed? {
      var r := Parse(inv.output, llm.decode);
      var t := WithDefaults(r);
      assert t.prediction == "LEGITIMATE" <==> r.prediction == Some("LEGITIMATE");
    }
  }

  /** A URL reply whose JSON says "LEGITIMATE" with less than 0.9 confidence is reported as phishing. */
  lemma UrlBiasOverridesReply(llm: Llm, output: string, reply: Reply)
    requires llm.configured && '{' in output && '}' in output
    requires llm.decode(JsonCandidate(output)) == Some(reply)
    requires reply.prediction == Some("LEGITIMATE") && reply.confidence.GetOr(0.5) < 0.9
    ensures AnalyzeUrl(llm, Completed(output)).prediction == "PHISHING"
    ensures AnalyzeUrl(llm, Completed(output)).confidence == reply.confidence.GetOr(0.5)
  {
  }

  // ---------------------------------------------------------------------
  // ML + LLM combination
  // ---------------------------------------------------------------------

  function Max(a: real, b: real): real
  {
    if a >= b then a else b
  }

  /**
   * The combination step of `final_url_analysis`: phishing when either side
   * says so (the ML label compared lower-cased, the LLM one upper-cased),
   * with a confidence floor of 0.9 when both do and 0.7 when one does;
   * otherwise legitimate with the mean confidence.
   */
  function Combine(ml: ModelLoader.Prediction, llm: AnalysisResult): (r: (string, real))
    ensures r.0 == "PHISHING" <==> Lower(ml.verdict) == "phishing" || Upper(llm.prediction) == "PHISHING"
    ensures r.0 == "LEGITIMATE" <==> !(Lower(ml.verdict) == "phishing" || Upper(llm.prediction) == "PHISHING")
    ensures r.1 >= (ml.confidence + llm.confidence) / 2.0
    ensures Lower(ml.verdict) == "phishing" && Upper(llm.prediction) == "PHISHING" ==> r.1 >= 0.9
    ensures Lower(ml.verdict) == "phishing" || Upper(llm.prediction) == "PHISHING" ==> r.1 >= 0.7
    ensures r.0 == "LEGITIMATE" ==> r.1 == (ml.confidence + llm.confidence) / 2.0
    ensures Lower(ml.verdict) == "phishing" && Upper(llm.prediction) == "PHISHING" ==>
      r.1 == 0.9 || r.1 == (ml.confidence + llm.confidence) / 2.0
    ensures (Lower(ml.verdict) == "phishing") != (Upper(llm.prediction) == "PHISHING") ==>
      r.1 == 0.7 || r.1 == (ml.confidence + llm.confidence) / 2.0
  {
    var mlPhishing := Lower(ml.verdict) == "phishing";
    var llmPhishing := Upper(llm.prediction) == "PHISHING";
    var avg := (ml.confidence + llm.confidence) / 2.0;
    if mlPhishing && llmPhishing then ("PHISHING", Max(0.9, avg))
    else if mlPhishing || llmPhishing then ("PHISHING", Max(0.7, avg))
    else ("LEGITIMATE", avg)
  }

  /** Two confidences in [0, 1] combine into a confidence in [0, 1]. */
  lemma CombineConfidenceBounded(ml: ModelLoader.Prediction, llm: AnalysisResult)
    requires 0.0 <= ml.confidence <= 1.0 && 0.0 <= llm.confidence <= 1.0
    ensures 0.0 <= Combine(ml, llm).1 <= 1.0
  {
  }

  /** Agreement on phishing never gives less confidence than a lone phishing vote on the same average. */
  lemma CombineAgreementRanksHigher(ml1: ModelLoader.Prediction, llm1: AnalysisResult,
                                    ml2: ModelLoader.Prediction, llm2: AnalysisResult)
    requires ml1.confidence + llm1.confidence == ml2.confidence + llm2.confidence
    requires Lower(ml1.verdict) == "phishing" && Upper(llm1.prediction) == "PHISHING"
    requires Combine(ml2, llm2).0 == "PHISHING"
    ensures Combine(ml1, llm1).1 >= Combine(ml2, llm2).1
  {
  }

  /** The combination never answers "UNKNOWN", whatever the inputs. */
  lemma CombineNeverUnknown(ml: ModelLoader.Prediction, llm: AnalysisResult)
    ensures Combine(ml, llm).0 != "UNKNOWN"
  {
  }

  /**
   * When the LLM is unavailable its zero confidence halves a legitimate ML
   * confidence, and a phishing ML verdict is floored at 0.7.
   */
  lemma UnavailableLlmHalvesConfidence(ml: ModelLoader.Prediction, message: string)
    requires 0.0 <= ml.confidence <= 1.0
    ensures ml.verdict == "Legitimate" ==> Combine(ml, FallbackResult(message)) == ("LEGITIMATE", ml.confidence / 2.0)
    ensures ml.verdict == "Phishing" ==> Combine(ml, FallbackResult(message)) == ("PHISHING", 0.7)
  {
    assert Upper("UNKNOWN") == "UNKNOWN";
    assert Lower("Legitimate") == "legitimate";
    assert Lower("Phishing") == "phishing";
  }

  /** With no URL model and no LLM the combined answer is legitimate with zero confidence. */
  lemma NothingAvailableSaysLegitimate(message: string)
    ensures Combine(ModelLoader.ModelNotAvailable, FallbackResult(message)) == ("LEGITIMATE", 0.0)
  {
    assert Upper("UNKNOWN") == "UNKNOWN";
    assert Lower("Model not available") != "phishing" by {
      assert Lower("Model not available")[0] == 'm';
    }
  }

  /** `final_url_analysis`: the URL model's prediction combined with the biased LLM analysis. */
  function FinalUrlAnalysis(a: ModelLoader.Artifacts, url: string, parsed: Option<UrlFeatures.UrlParts>,
                            llm: Llm, inv: Invocation): (r: (string, real))
    ensures r.0 == "PHISHING" || r.0 == "LEGITIMATE"
    ensures var ml, l := ModelLoader.PredictUrl(a, url, parsed), AnalyzeUrl(llm, inv);
      && (r.0 == "PHISHING" <==> ml.verdict == "Phishing" || Upper(l.prediction) == "PHISHING")
      && (ml.verdict == "Phishing" && Upper(l.prediction) == "PHISHING" ==>
            r.1 == Max(0.9, (ml.confidence + l.confidence) / 2.0))
      && ((ml.verdict == "Phishing") != (Upper(l.prediction) == "PHISHING") ==>
            r.1 == Max(0.7, (ml.confidence + l.confidence) / 2.0))
      && (r.0 == "LEGITIMATE" ==> r.1 == (ml.confidence + l.confidence) / 2.0)
  {
    var ml := ModelLoader.PredictUrl(a, url, parsed);
    var l := AnalyzeUrl(llm, inv);
    CombineLabelled(ml, l);
    Combine(ml, l)
  }

  /** `Combine` on a prediction that carries one of the four labels, phrased on the label itself. */
  lemma CombineLabelled(ml: ModelLoader.Prediction, l: AnalysisResult)
    requires ml.verdict in {"Phishing", "Legitimate", "Error", "Model not available"}
    ensures var r, avg := Combine(ml, l), (ml.confidence + l.confidence) / 2.0;
      && (r.0 == "PHISHING" <==> ml.verdict == "Phishing" || Upper(l.prediction) == "PHISHING")
      && (ml.verdict == "Phishing" && Upper(l.prediction) == "PHISHING" ==> r.1 == Max(0.9, avg))
      && ((ml.verdict == "Phishing") != (Upper(l.prediction) == "PHISHING") ==> r.1 == Max(0.7, avg))
      && (r.0 == "LEGITIMATE" ==> r.1 == avg)
  {
    assert Lower("Phishing") == "phishing";
  }

}

=== FILE: model_loader.dfy ===
/**
 * `ModelLoader`: aligning a feature dict to the name list saved with a
 * model, turning the classifier's output into a verdict and a confidence, and
 * the two sentinel results.
 *
 * The classifier, the scaler and the saved name list are loaded from disk
 * by joblib; here they are an `Artifacts` value whose fields are `None` when
 * the file was absent. Each foreign call yields `None` when it raises.
 */
module ModelLoader {
  import opened Optional
  import opened FeatureMap
  import UrlFeatures
  import TextFeatures

  // ---------------------------------------------------------------------
  // Feature-vector alignment
  // ---------------------------------------------------------------------

  /** `[raw.get(name, 0.0) for name in names]`. */
  function AlignByNames(raw: Dict, names: seq<string>): (v: seq<real>)
    ensures |v| == |names|
  {
    seq(|names|, i requires 0 <= i < |names| => Get(raw, names[i]).GetOr(0.0))
  }

  /**
   * The vector handed to the classifier: ordered by the saved names when the
   * list is present and non-empty, else the dict's values in insertion order.
   */
  function Align(raw: Dict, names: Option<seq<string>>): (v: seq<real>)
    ensures names.Some? && |names.value| > 0 ==> |v| == |names.value|
    ensures names.None? || |names.value| == 0 ==> v == Values(raw)
  {
    if names.Some? && |names.value| > 0 then AlignByNames(raw, names.value) else Values(raw)
  }

  /**
   * Entry `i` of an aligned vector is the value stored under `names[i]` when
   * the dict has that name, and 0.0 when it does not.
   */
  lemma AlignEntries(raw: Dict, names: seq<string>, i: int)
    requires |names| > 0 && 0 <= i < |names|
    ensures names[i] in Keys(raw) ==> exists j :: 0 <= j < |raw| && raw[j] == (names[i], Align(raw, Some(names))[i])
    ensures names[i] !in Keys(raw) ==> Align(raw, Some(names))[i] == 0.0
  {
  }

  /** Aligning a dict by its own names in order gives back its values. */
  lemma AlignByOwnKeys(raw: Dict)
    requires UniqueKeys(raw) && |raw| > 0
    ensures Align(raw, Some(Keys(raw))) == Values(raw)
  {
    forall i | 0 <= i < |raw| ensures Align(raw, Some(Keys(raw)))[i] == Values(raw)[i] {
      GetAt(raw, i);
    }
  }

  /** Names the saved list does not mention are dropped: adding them leaves the vector unchanged. */
  lemma AlignIgnoresExtraKeys(raw: Dict, extra: Dict, names: seq<string>)
    requires |names| > 0 && UniqueKeys(extra)
    requires forall i :: 0 <= i < |extra| ==> extra[i].0 !in names
    ensures Align(Update(raw, extra), Some(names)) == Align(raw, Some(names))
  {
    forall i | 0 <= i < |names| ensures Get(Update(raw, extra), names[i]) == Get(raw, names[i]) {
      UpdateGet(raw, extra, names[i]);
      forall j | 0 <= j < |extra| ensures Keys(extra)[j] != names[i] {
        assert extra[j].0 !in names;
      }
    }
  }

  // ---------------------------------------------------------------------
  // Classification
  // ---------------------------------------------------------------------

  /** `max(p)` of a non-empty probability vector. */
  function MaxOf(p: seq<real>): (m: real)
    requires |p| > 0
    ensures forall i :: 0 <= i < |p| ==> p[i] <= m
    ensures m in p
  {
    if |p| == 1 then p[0]
    else
      var rest := MaxOf(p[1..]);
      if p[0] >= rest then p[0] else rest
  }

  /** The maximum of probabilities is itself a probability. */
  lemma MaxOfIsProbability(p: seq<real>)
    requires |p| > 0
    requires forall i :: 0 <= i < |p| ==> 0.0 <= p[i] <= 1.0
    ensures 0.0 <= MaxOf(p) <= 1.0
  {
    var i :| 0 <= i < |p| && p[i] == MaxOf(p);
  }

  /** The verdict for a predicted class: only class 1 is phishing. */
  function LabelFor(cls: int): (s: string)
    ensures s == "Phishing" <==> cls == 1
    ensures s == "Legitimate" <==> cls != 1
  {
    if cls == 1 then "Phishing" else "Legitimate"
  }

  /** A classifier's verdict and confidence, or one of the two sentinels. */
  datatype Prediction = Prediction(verdict: string, confidence: real)

  const ModelNotAvailable: Prediction := Prediction("Model not available", 0.0)
  const Failed: Prediction := Prediction("Error", 0.0)

  /**
   * A fitted scikit-learn classifier: `predict` yields the class of a
   * one-row vector and `predictProba` its class probabilities.
   */
  datatype Classifier = Classifier(
    predict: seq<real> -> Option<int>,
    predictProba: seq<real> -> Option<seq<real>>)

  /** What `_load_models` found for one feature type. */
  datatype Artifacts = Artifacts(
    model: Option<Classifier>,
    scaler: Option<seq<real> -> Option<seq<real>>>,
    names: Option<seq<string>>)

  /** Classifying a prepared vector: any failure, including `max` of no probabilities, is the error sentinel. */
  function Classify(m: Classifier, v: seq<real>): (r: Prediction)
    ensures m.predict(v).None? || m.predictProba(v).None? ==> r == Failed
    ensures m.predictProba(v).Some? && |m.predictProba(v).value| == 0 ==> r == Failed
    ensures m.predict(v).Some? && m.predictProba(v).Some? && |m.predictProba(v).value| > 0 ==>
      var p := m.predictProba(v).value;
      && (r.verdict == "Phishing" <==> m.predict(v).value == 1)
      && (r.verdict == "Legitimate" <==> m.predict(v).value != 1)
      && r.confidence in p
      && (forall i :: 0 <= i < |p| ==> p[i] <= r.confidence)
  {
    match (m.predict(v), m.predictProba(v))
    case (Some(cls), Some(p)) =>
      if |p| == 0 then Failed else Prediction(LabelFor(cls), MaxOf(p))
    case _ => Failed
  }

  /** The aligned vector, passed through the scaler when one is loaded. */
  function Prepare(a: Artifacts, raw: Dict): (v: Option<seq<real>>)
    ensures a.scaler.None? ==> v == Some(Align(raw, a.names))
    ensures a.scaler.Some? ==> v == a.scaler.value(Align(raw, a.names))
  {
    var aligned := Align(raw, a.names);
    if a.scaler.Some? then a.scaler.value(aligned) else Some(aligned)
  }

  /**
   * The shared body of `predict_url`, `predict_text` and `predict_hybrid`.
   * `raw` is the extractor's dict, `None` when extraction raised.
   */
  function Predict(a: Artifacts, raw: Option<Dict>): (r: Prediction)
    ensures a.model.None? ==> r == ModelNotAvailable
    ensures a.model.Some? && raw.None? ==> r == Failed
    ensures a.model.Some? && raw.Some? && Prepare(a, raw.value).None? ==> r == Failed
    ensures a.model.Some? && raw.Some? && Prepare(a, raw.value).Some? ==>
      r == Classify(a.model.value, Prepare(a, raw.value).value)
  {
    if a.model.None? then ModelNotAvailable
    else if raw.None? then Failed
    else
      match Prepare(a, raw.value)
      case None => Failed
      case Some(v) => Classify(a.model.value, v)
  }

  /**
   * Every prediction is one of four labels; only a real classification
   * carries a non-zero confidence, and with probabilities in [0, 1] the
   * confidence is one too.
   */
  lemma PredictOutcomes(a: Artifacts, raw: Option<Dict>)
    ensures var r := Predict(a, raw);
      && r.verdict in {"Phishing", "Legitimate", "Error", "Model not available"}
      && (r.verdict == "Error" || r.verdict == "Model not available" ==> r.confidence == 0.0)
  {
  }

  lemma PredictConfidenceBounded(m: Classifier, v: seq<real>)
    requires m.predictProba(v).Some?
    requires forall i :: 0 <= i < |m.predictProba(v).value| ==> 0.0 <= m.predictProba(v).value[i] <= 1.0
    ensures 0.0 <= Classify(m, v).confidence <= 1.0
  {
    var p := m.predictProba(v).value;
    if m.predict(v).Some? && |p| > 0 {
      MaxOfIsProbability(p);
    }
  }

  /** Without a model the result does not depend on what extraction would give. */
  lemma NoModelIgnoresInput(a: Artifacts, raw1: Option<Dict>, raw2: Option<Dict>)
    requires a.model.None?
    ensures Predict(a, raw1) == Predict(a, raw2) == ModelNotAvailable
  {
  }

  // ---------------------------------------------------------------------
  // The three entry points
  // ---------------------------------------------------------------------

  /** `predict_url`: URL feature extraction never raises, so only the model's stages can fail. */
  function PredictUrl(a: Artifacts, url: string, parsed: Option<UrlFeatures.UrlParts>): (r: Prediction)
    ensures r.verdict in {"Phishing", "Legitimate", "Error", "Model not available"}
    ensures a.model.None? ==> r == ModelNotAvailable
    ensures a.model.Some? && a.scaler.None? ==>
      r == Classify(a.model.value, Align(UrlFeatures.ExtractFeatures(url, parsed), a.names))
    ensures a.model.Some? && r == Failed ==>
      a.scaler.Some? || a.model.value.predict(Align(UrlFeatures.ExtractFeatures(url, parsed), a.names)).None?
      || a.model.value.predictProba(Align(UrlFeatures.ExtractFeatures(url, parsed), a.names)).None?
      || |a.model.value.predictProba(Align(UrlFeatures.ExtractFeatures(url, parsed), a.names)).value| == 0
    ensures a.model.Some? ==>
      var v := Prepare(a, UrlFeatures.ExtractFeatures(url, parsed));
      r == if v.None? then Failed else Classify(a.model.value, v.value)
  {
    var d := UrlFeatures.ExtractFeatures(url, parsed);
    PredictOnDict(a, d);
    PredictOutcomes(a, Some(d));
    Predict(a, Some(d))
  }

  /** What `Predict` does with a dict that extraction did produce. */
  lemma PredictOnDict(a: Artifacts, d: Dict)
    ensures a.model.Some? && a.scaler.None? ==>
      Predict(a, Some(d)) == Classify(a.model.value, Align(d, a.names))
    ensures a.model.Some? && Predict(a, Some(d)) == Failed ==>
      a.scaler.Some? || a.model.value.predict(Align(d, a.names)).None?
      || a.model.value.predictProba(Align(d, a.names)).None?
      || |a.model.value.predictProba(Align(d, a.names)).value| == 0
    ensures a.model.Some? ==>
      var v := Prepare(a, d);
      Predict(a, Some(d)) == if v.None? then Failed else Classify(a.model.value, v.value)
  {
  }

  /** `predict_text`. */
  function PredictText(a: Artifacts, res: TextFeatures.NlpResources, text: string): (r: Prediction)
    ensures a.model.None? ==> r == ModelNotAvailable
    ensures a.model.Some? && TextFeatures.ExtractNlp(res, text).None? ==> r == Failed
    ensures a.model.Some? && TextFeatures.ExtractNlp(res, text).Some? ==>
      var v := Prepare(a, TextFeatures.ExtractNlp(res, text).value);
      r == if v.None? then Failed else Classify(a.model.value, v.value)
  {
    Predict(a, TextFeatures.ExtractNlp(res, text))
  }

  /** `predict_hybrid`; `fetched` is the page text fetched when no text is given. */
  function PredictHybrid(a: Artifacts, url: string, parsed: Option<UrlFeatures.UrlParts>,
                         lookup: string -> TextFeatures.WhoisLookup, text: Option<string>, fetched: string,
                         res: TextFeatures.NlpResources): (r: Prediction)
    ensures a.model.None? ==> r == ModelNotAvailable
    ensures a.model.Some? && TextFeatures.ExtractHybrid(url, parsed, lookup, text, fetched, res).None? ==> r == Failed
    ensures a.model.Some? && TextFeatures.ExtractHybrid(url, parsed, lookup, text, fetched, res).Some? ==>
      var v := Prepare(a, TextFeatures.ExtractHybrid(url, parsed, lookup, text, fetched, res).value);
      r == if v.None? then Failed else Classify(a.model.value, v.value)
  {
    Predict(a, TextFeatures.ExtractHybrid(url, parsed, lookup, text, fetched, res))
  }

  /**
   * Without a saved name list the URL model sees the 24 URL features in
   * extraction order, the keyword count at position 20.
   */
  lemma UrlVectorWithoutNames(url: string, parsed: Option<UrlFeatures.UrlParts>)
    ensures var v := Align(UrlFeatures.ExtractFeatures(url, parsed), None);
      && |v| == 24
      && v[20] == UrlFeatures.ExtractSuspicious(url).suspiciousKeywords as real
  {
    var g := UrlFeatures.ExtractGroups(url, parsed);
    var d := UrlFeatures.GroupsConcat(g);
    var pre := UrlFeatures.BasicDict(g.basic) + UrlFeatures.DomainDict(g.domain)
             + UrlFeatures.PathDict(g.path) + UrlFeatures.QueryDict(g.query);
    var last := UrlFeatures.SuspiciousDict(g.suspicious);
    assert |pre| == 20 && |last| == 4 && d == pre + last;
    assert last[0].1 == g.suspicious.suspiciousKeywords as real;
    assert d[20] == last[0];
    assert Values(d)[20] == d[20].1;
  }
}

=== FILE: optional.dfy ===
/** Failure-carrying wrappers shared by every module of the model. */
module Optional {

  /** A value that may be absent: a missing dict key, a parser that raised. */
  datatype Option<+T> = None | Some(value: T) {

    /** The carried value, or `default` when there is none (Python's `d.get(k, default)`). */
    function GetOr(default: T): (r: T)
      ensures Some? ==> r == value
      ensures None? ==> r == default
    {
      match this
      case Some(v) => v
      case None => default
    }
  }

  /** The outcome of an endpoint that validates its query parameters before running. */
  datatype Result<+T> = Ok(value: T) | Invalid(reason: string)
}

=== FILE: strings.dfy ===
/**
 * The string vocabulary of the extractors: ASCII character classes and case
 * mapping, character counts, Python's `in` on strings, and `str.split` with a
 * one-character separator together with its inverse `str.join`.
 *
 * Python's `isdigit`, `islower`, `isupper`, `lower`, `upper` and regex `\d`
 * follow Unicode; this model restricts them to ASCII.
 */
module Strings {

  predicate IsDigit(c: char) { '0' <= c <= '9' }
  predicate IsLowerLetter(c: char) { 'a' <= c <= 'z' }
  predicate IsUpperLetter(c: char) { 'A' <= c <= 'Z' }

  function LowerChar(c: char): char
  {
    if IsUpperLetter(c) then (c as int + 32) as char else c
  }

  function UpperChar(c: char): char
  {
    if IsLowerLetter(c) then (c as int - 32) as char else c
  }

  /** `str.lower()`: same length, letters folded one by one. */
  function Lower(s: string): (r: string)
    ensures |r| == |s|
    ensures forall i :: 0 <= i < |s| ==> r[i] == LowerChar(s[i])
  {
    seq(|s|, i requires 0 <= i < |s| => LowerChar(s[i]))
  }

  /** `str.upper()`. */
  function Upper(s: string): (r: string)
    ensures |r| == |s|
    ensures forall i :: 0 <= i < |s| ==> r[i] == UpperChar(s[i])
  {
    seq(|s|, i requires 0 <= i < |s| => UpperChar(s[i]))
  }

  /** Lower-casing neither creates nor removes a character that is not a letter. */
  lemma LowerKeeps(s: string, c: char)
    requires !IsUpperLetter(c) && !IsLowerLetter(c)
    ensures c in s <==> c in Lower(s)
  {
    if c in s {
      var i :| 0 <= i < |s| && s[i] == c;
      assert Lower(s)[i] == c;
    }
    if c in Lower(s) {
      var i :| 0 <= i < |s| && Lower(s)[i] == c;
      assert s[i] == c;
    }
  }

  /** `sum(p(c) for c in s)`: the number of characters of `s` satisfying `p`. */
  function CountIf(s: string, p: char -> bool): (n: nat)
    ensures n <= |s|
    ensures n == 0 <==> forall i :: 0 <= i < |s| ==> !p(s[i])
  {
    if |s| == 0 then 0
    else (if p(s[0]) then 1 else 0) + CountIf(s[1..], p)
  }

  /** `s.count(c)` for a one-character argument. */
  function CountChar(s: string, c: char): (n: nat)
    ensures n <= |s|
    ensures n == 0 <==> c !in s
  {
    if |s| == 0 then 0
    else (if s[0] == c then 1 else 0) + CountChar(s[1..], c)
  }

  /** Counting one character never exceeds counting a class that contains it. */
  lemma {:induction false} CountCharAtMostCountIf(s: string, c: char, p: char -> bool)
    requires p(c)
    ensures CountChar(s, c) <= CountIf(s, p)
  {
    if |s| > 0 {
      CountCharAtMostCountIf(s[1..], c, p);
    }
  }

  lemma {:induction false} CountCharAppend(a: string, b: string, c: char)
    ensures CountChar(a + b, c) == CountChar(a, c) + CountChar(b, c)
  {
    if |a| == 0 {
      assert a + b == b;
    } else {
      assert (a + b)[1..] == a[1..] + b;
      CountCharAppend(a[1..], b, c);
    }
  }

  /** Lower-casing keeps the count of every character that is not a letter. */
  lemma {:induction false} CountCharLower(s: string, c: char)
    requires !IsUpperLetter(c) && !IsLowerLetter(c)
    ensures CountChar(Lower(s), c) == CountChar(s, c)
  {
    if |s| > 0 {
      assert Lower(s)[1..] == Lower(s[1..]);
      CountCharLower(s[1..], c);
    }
  }

  predicate OccursAt(s: string, p: string, i: int)
  {
    0 <= i && i + |p| <= |s| && s[i..i + |p|] == p
  }

  /** Python's `p in s` for strings: `p` is a substring of `s`. */
  predicate Contains(s: string, p: string)
  {
    exists i | 0 <= i <= |s| - |p| :: OccursAt(s, p, i)
  }

  /** Python's `s.endswith(suffix)`. */
  predicate EndsWith(s: string, suffix: string)
  {
    |suffix| <= |s| && s[|s| - |suffix|..] == suffix
  }

  /** Python's `s.find(c)`: the first index holding `c`, or -1. */
  function Find(s: string, c: char): (r: int)
    ensures -1 <= r < |s|
    ensures r == -1 <==> c !in s
    ensures r >= 0 ==> s[r] == c && c !in s[..r]
  {
    if |s| == 0 then -1
    else if s[0] == c then 0
    else
      var k := Find(s[1..], c);
      assert s[1..][..if k < 0 then 0 else k] == s[1..1 + if k < 0 then 0 else k];
      if k < 0 then -1 else k + 1
  }

  /** Python's `s.rfind(c)`: the last index holding `c`, or -1. */
  function RFind(s: string, c: char): (r: int)
    ensures -1 <= r < |s|
    ensures r == -1 <==> c !in s
    ensures r >= 0 ==> s[r] == c && c !in s[r + 1..]
  {
    if |s| == 0 then -1
    else if s[|s| - 1] == c then |s| - 1
    else
      var k := RFind(s[..|s| - 1], c);
      assert k >= 0 ==> s[k + 1..] == s[..|s| - 1][k + 1..] + [s[|s| - 1]];
      k
  }

  /** Every character of `s` is an ASCII digit. */
  predicate AllDigits(s: string)
  {
    forall i :: 0 <= i < |s| ==> IsDigit(s[i])
  }

  /** The maximal run of ASCII digits at the start of `s`. */
  function LeadingDigits(s: string): (n: nat)
    ensures n <= |s|
    ensures AllDigits(s[..n])
    ensures n < |s| ==> !IsDigit(s[n])
  {
    if |s| == 0 || !IsDigit(s[0]) then 0
    else
      var n := LeadingDigits(s[1..]);
      assert s[..n + 1] == [s[0]] + s[1..][..n];
      n + 1
  }

  function DigitChar(d: nat): (c: char)
    requires d < 10
    ensures IsDigit(c) && c as int - '0' as int == d
  {
    "0123456789"[d]
  }

  /** `str(n)` for a natural number: decimal digits, no leading zero. */
  function NatToString(n: nat): (r: string)
    ensures |r| >= 1 && AllDigits(r)
    ensures n < 10 <==> |r| == 1
    ensures r[|r| - 1] == DigitChar(n % 10)
  {
    if n < 10 then [DigitChar(n)] else NatToString(n / 10) + [DigitChar(n % 10)]
  }

  /** `int(s)` for a string of ASCII digits (leading zeros allowed). */
  function DigitsValue(s: string): (n: nat)
    requires AllDigits(s)
  {
    if |s| == 0 then 0
    else DigitsValue(s[..|s| - 1]) * 10 + (s[|s| - 1] as int - '0' as int)
  }

  /** Reading back what `str` printed gives the number: `int(str(n)) == n`. */
  lemma {:induction false} DigitsValueOfNatToString(n: nat)
    ensures DigitsValue(NatToString(n)) == n
  {
    var s := NatToString(n);
    if n < 10 {
      assert s[..0] == "";
    } else {
      assert s[..|s| - 1] == NatToString(n / 10);
      DigitsValueOfNatToString(n / 10);
    }
  }

  /**
   * Python's `s.split(sep)` for a one-character separator: the pieces between
   * consecutive separators, one more piece than there are separators.
   */
  function Split(s: string, sep: char): (r: seq<string>)
    ensures |r| == CountChar(s, sep) + 1
    ensures forall i :: 0 <= i < |r| ==> sep !in r[i]
  {
    if |s| == 0 then [""]
    else
      var rest := Split(s[1..], sep);
      if s[0] == sep then [""] + rest
      else [[s[0]] + rest[0]] + rest[1..]
  }

  /** Python's `sep.join(parts)`. */
  function Join(parts: seq<string>, sep: char): string
  {
    if |parts| == 0 then ""
    else if |parts| == 1 then parts[0]
    else parts[0] + [sep] + Join(parts[1..], sep)
  }

  /** Splitting and re-joining on the same separator gives back the string. */
  lemma {:induction false} JoinSplit(s: string, sep: char)
    ensures Join(Split(s, sep), sep) == s
  {
    if |s| > 0 {
      var rest := Split(s[1..], sep);
      JoinSplit(s[1..], sep);
      if s[0] == sep {
        assert Split(s, sep) == [""] + rest;
        assert ([""] + rest)[1..] == rest;
      } else {
        var r := Split(s, sep);
        assert r == [[s[0]] + rest[0]] + rest[1..];
        if |rest| == 1 {
          assert r == [[s[0]] + rest[0]];
        } else {
          assert r[1..] == rest[1..];
          assert Join(rest, sep) == rest[0] + [sep] + Join(rest[1..], sep);
        }
      }
    }
  }

  /** A string without the separator splits into itself alone. */
  lemma {:induction false} SplitNoSep(s: string, sep: char)
    requires sep !in s
    ensures Split(s, sep) == [s]
  {
    if |s| > 0 {
      SplitNoSep(s[1..], sep);
      assert [s[0]] + s[1..] == s;
    }
  }

  /** One step of `Split`: the first character either closes a piece or extends the first piece. */
  lemma SplitCons(c: char, t: string, sep: char)
    ensures var rt := Split(t, sep);
      Split([c] + t, sep) == if c == sep then [""] + rt else [[c] + rt[0]] + rt[1..]
  {
    assert ([c] + t)[1..] == t;
  }

  /** The step of `SplitCons` commutes with appending further pieces. */
  lemma ConsAppend(c: char, sep: char, ra: seq<string>, rb: seq<string>)
    requires |ra| > 0
    ensures var r := ra + rb;
      (if c == sep then [""] + r else [[c] + r[0]] + r[1..])
      == (if c == sep then [""] + ra else [[c] + ra[0]] + ra[1..]) + rb
  {
    if c != sep {
      assert (ra + rb)[0] == ra[0] && (ra + rb)[1..] == ra[1..] + rb;
    }
  }

  /** A separator in the middle of a string splits it into the pieces of each side. */
  lemma {:induction false} SplitAround(a: string, b: string, sep: char)
    ensures Split(a + [sep] + b, sep) == Split(a, sep) + Split(b, sep)
  {
    if |a| == 0 {
      assert a + [sep] + b == [sep] + b;
      SplitCons(sep, b, sep);
    } else {
      var c, a' := a[0], a[1..];
      var t := a' + [sep] + b;
      assert a == [c] + a';
      assert a + [sep] + b == [c] + t;
      SplitAround(a', b, sep);
      SplitCons(c, t, sep);
      SplitCons(c, a', sep);
      ConsAppend(c, sep, Split(a', sep), Split(b, sep));
    }
  }

  /** Cutting at a separator: the pieces before it followed by the pieces after it. */
  lemma SplitAt(s: string, k: int, sep: char)
    requires 0 <= k < |s| && s[k] == sep
    ensures Split(s, sep) == Split(s[..k], sep) + Split(s[k + 1..], sep)
  {
    assert s == s[..k] + [sep] + s[k + 1..];
    SplitAround(s[..k], s[k + 1..], sep);
  }

  /** Joining separator-free pieces and splitting again gives back the pieces. */
  lemma {:induction false} SplitJoin(parts: seq<string>, sep: char)
    requires |parts| > 0
    requires forall i :: 0 <= i < |parts| ==> sep !in parts[i]
    ensures Split(Join(parts, sep), sep) == parts
  {
    if |parts| == 1 {
      SplitNoSep(parts[0], sep);
    } else {
      SplitJoin(parts[1..], sep);
      SplitNoSep(parts[0], sep);
      SplitAround(parts[0], Join(parts[1..], sep), sep);
      assert [parts[0]] + parts[1..] == parts;
    }
  }
}

=== FILE: text_features.dfy ===
/**
 * Text-side features (`NLPFeatureExtractor`), the WHOIS feature dict
 * (`WHOISFeatureExtractor`) and the hybrid merge (`HybridFeatureExtractor`).
 *
 * NLTK's `word_tokenize`, the English stop-word corpus, the TF-IDF
 * vectorizer and the BERT encoder are not modelled: the caller supplies
 * them as an `NlpResources` value. The WHOIS lookup and the HTTP page fetch
 * are likewise inputs.
 */
module TextFeatures {
  import opened Optional
  import opened Strings
  import opened FeatureMap
  import UrlFeatures

  const TextKeywords: seq<string> := [
    "urgent", "immediate", "verify", "confirm", "account", "security",
    "suspended", "locked", "expired", "update", "click", "here",
    "phishing", "scam", "fraud", "fake", "suspicious"
  ]

  // ---------------------------------------------------------------------
  // Basic text features
  // ---------------------------------------------------------------------

  /** `sum(len(word) for word in words)`. */
  function TotalLength(words: seq<string>): nat
  {
    if |words| == 0 then 0 else |words[0]| + TotalLength(words[1..])
  }

  /** `sum(1 for word in words if word in stop_words)`. */
  function StopCount(words: seq<string>, stopWords: set<string>): (n: nat)
    ensures n <= |words|
    ensures n == |words| <==> forall i :: 0 <= i < |words| ==> words[i] in stopWords
  {
    if |words| == 0 then 0
    else
      var rest := StopCount(words[1..], stopWords);
      assert (forall i :: 0 <= i < |words| ==> words[i] in stopWords) <==>
             words[0] in stopWords && (forall i :: 0 <= i < |words[1..]| ==> words[1..][i] in stopWords) by {
        if words[0] in stopWords && (forall i :: 0 <= i < |words[1..]| ==> words[1..][i] in stopWords) {
          forall i | 0 <= i < |words| ensures words[i] in stopWords {
            if i > 0 {
              assert words[i] == words[1..][i - 1];
            }
          }
        }
      }
      (if words[0] in stopWords then 1 else 0) + rest
  }

  /** `part / whole` for counts with `part <= whole`, as Python's true division. */
  function Ratio(part: nat, whole: nat): (r: real)
    requires 0 < whole && part <= whole
    ensures 0.0 <= r <= 1.0
    ensures r == 0.0 <==> part == 0
    ensures r == 1.0 <==> part == whole
    ensures r * whole as real == part as real
  {
    var r := part as real / whole as real;
    assert r * whole as real == part as real;
    r
  }

  /** `stop_word_ratio`: the share of tokens that are stop words, 0 without tokens. */
  function StopWordRatio(words: seq<string>, stopWords: set<string>): (r: real)
    ensures 0.0 <= r <= 1.0
    ensures |words| == 0 ==> r == 0.0
    ensures |words| > 0 ==> (r == 1.0 <==> forall i :: 0 <= i < |words| ==> words[i] in stopWords)
  {
    if |words| > 0 then Ratio(StopCount(words, stopWords), |words|) else 0.0
  }

  /** `special_char_ratio`: the share of characters from the special set, 0 for "". */
  function SpecialCharRatio(text: string): (r: real)
    ensures 0.0 <= r <= 1.0
    ensures |text| == 0 ==> r == 0.0
    ensures |text| > 0 ==> (r == 0.0 <==> forall i :: 0 <= i < |text| ==> !UrlFeatures.IsSpecial(text[i]))
  {
    if |text| > 0 then Ratio(CountIf(text, UrlFeatures.IsSpecial), |text|) else 0.0
  }

  /** `avg_word_length`: the mean token length, 0 without tokens. */
  function AvgWordLength(words: seq<string>): (r: real)
    ensures r >= 0.0
    ensures |words| == 0 ==> r == 0.0
    ensures |words| > 0 ==> r * |words| as real == TotalLength(words) as real
  {
    if |words| > 0 then TotalLength(words) as real / |words| as real else 0.0
  }

  datatype TextBasicFeatures = TextBasicFeatures(
    textLength: nat, wordCount: nat, avgWordLength: real,
    stopWordRatio: real, specialCharRatio: real, suspiciousKeywords: nat)

  /**
   * `_extract_basic_text_features`. `words` is what `word_tokenize` returns
   * for the lower-cased text.
   */
  function ExtractTextBasic(text: string, words: seq<string>, stopWords: set<string>): (f: TextBasicFeatures)
    ensures f.textLength == |text| && f.wordCount == |words|
    ensures f.avgWordLength == AvgWordLength(words)
    ensures f.stopWordRatio == StopWordRatio(words, stopWords)
    ensures f.specialCharRatio == SpecialCharRatio(text)
    ensures f.suspiciousKeywords == UrlFeatures.KeywordHits(TextKeywords, Lower(text))
    ensures |words| == 0 ==> f.avgWordLength == 0.0 && f.stopWordRatio == 0.0
    ensures |text| == 0 ==> f.specialCharRatio == 0.0 && f.suspiciousKeywords == 0
    ensures 0.0 <= f.stopWordRatio <= 1.0 && 0.0 <= f.specialCharRatio <= 1.0
    ensures f.avgWordLength >= 0.0
    ensures f.suspiciousKeywords <= |TextKeywords|
  {
    assert |text| == 0 ==> UrlFeatures.KeywordHits(TextKeywords, Lower(text)) == 0 by {
      if |text| == 0 { NoKeywordInEmpty(TextKeywords, Lower(text)); }
    }
    var avg := AvgWordLength(words);
    var stop := StopWordRatio(words, stopWords);
    var special := SpecialCharRatio(text);
    TextBasicFeatures(|text|, |words|, avg, stop, special, UrlFeatures.KeywordHits(TextKeywords, Lower(text)))
  }

  /** The empty text contains no non-empty keyword. */
  lemma NoKeywordInEmpty(keywords: seq<string>, s: string)
    requires |s| == 0
    requires forall i :: 0 <= i < |keywords| ==> |keywords[i]| > 0
    ensures UrlFeatures.KeywordHits(keywords, s) == 0
  {
    forall i | 0 <= i < |keywords| ensures !Contains(s, keywords[i]) {
      assert |keywords[i]| > 0;
    }
  }

  const TextBasicNames: seq<string> := [
    "text_length", "word_count", "avg_word_length", "stop_word_ratio",
    "special_char_ratio", "suspicious_keywords"
  ]

  function TextBasicDict(f: TextBasicFeatures): Dict
  {
    [ ("text_length", f.textLength as real),
      ("word_count", f.wordCount as real),
      ("avg_word_length", f.avgWordLength),
      ("stop_word_ratio", f.stopWordRatio),
      ("special_char_ratio", f.specialCharRatio),
      ("suspicious_keywords", f.suspiciousKeywords as real) ]
  }

  // ---------------------------------------------------------------------
  // Indexed feature groups (TF-IDF and BERT)
  // ---------------------------------------------------------------------

  /** Distinct numbers print differently, so `f'{prefix}{i}'` names never collide. */
  lemma {:induction false} NatToStringInjective(a: nat, b: nat)
    requires NatToString(a) == NatToString(b)
    ensures a == b
    decreases a
  {
    if a >= 10 && b >= 10 {
      var sa := NatToString(a);
      assert sa[..|sa| - 1] == NatToString(a / 10);
      assert NatToString(b)[..|sa| - 1] == NatToString(b / 10);
      NatToStringInjective(a / 10, b / 10);
    }
  }

  /** The name a positional value is stored under. */
  function IndexedName(prefix: string, i: nat): string
  {
    prefix + NatToString(i)
  }

  lemma IndexedNameInjective(prefix: string, i: nat, j: nat)
    requires IndexedName(prefix, i) == IndexedName(prefix, j)
    ensures i == j
  {
    assert IndexedName(prefix, i)[|prefix|..] == NatToString(i);
    assert IndexedName(prefix, j)[|prefix|..] == NatToString(j);
    NatToStringInjective(i, j);
  }

  predicate HasPrefix(k: string, prefix: string)
  {
    |prefix| <= |k| && k[..|prefix|] == prefix
  }

  /**
   * `for i, v in enumerate(values): features[f'{prefix}{i}'] = v`, as the
   * sequence of assignments it performs.
   */
  function IndexedDict(prefix: string, values: seq<real>): Dict
    decreases |values|
  {
    if |values| == 0 then []
    else
      var last := |values| - 1;
      Set(IndexedDict(prefix, values[..last]), IndexedName(prefix, last), values[last])
  }

  /** The group the assignments should build: value `i` under name `prefix + str(i)`, in index order. */
  function Pairs(prefix: string, values: seq<real>): (d: Dict)
    ensures |d| == |values|
  {
    seq(|values|, i requires 0 <= i < |values| => (IndexedName(prefix, i), values[i]))
  }

  lemma PairsSnoc(prefix: string, values: seq<real>)
    requires |values| > 0
    ensures Pairs(prefix, values)
         == Pairs(prefix, values[..|values| - 1]) + [(IndexedName(prefix, |values| - 1), values[|values| - 1])]
  {
  }

  /** The assignments never overwrite one another: the group is exactly the indexed pairs. */
  lemma {:induction false} IndexedDictPairs(prefix: string, values: seq<real>)
    ensures IndexedDict(prefix, values) == Pairs(prefix, values)
    decreases |values|
  {
    if |values| > 0 {
      var last := |values| - 1;
      var init := values[..last];
      var prev := IndexedDict(prefix, init);
      var name := IndexedName(prefix, last);
      assert IndexedDict(prefix, values) == Set(prev, name, values[last]);
      IndexedDictPairs(prefix, init);
      FreshIndexedName(prefix, init);
      SetFresh(prev, name, values[last]);
      PairsSnoc(prefix, values);
    }
  }

  /** The name for index `n` is new to a group holding the names for indexes below `n`. */
  lemma FreshIndexedName(prefix: string, vs: seq<real>)
    ensures IndexedName(prefix, |vs|) !in Keys(Pairs(prefix, vs))
  {
    var prev := Pairs(prefix, vs);
    forall i | 0 <= i < |prev| ensures Keys(prev)[i] != IndexedName(prefix, |vs|) {
      if Keys(prev)[i] == IndexedName(prefix, |vs|) {
        IndexedNameInjective(prefix, i, |vs|);
      }
    }
  }

  /** Every name of an indexed group starts with its prefix, and no two coincide. */
  lemma IndexedDictShape(prefix: string, values: seq<real>)
    ensures var d := IndexedDict(prefix, values);
      && UniqueKeys(d)
      && forall i :: 0 <= i < |d| ==> HasPrefix(d[i].0, prefix)
  {
    var d := IndexedDict(prefix, values);
    IndexedDictPairs(prefix, values);
    forall i, j | 0 <= i < j < |d| ensures d[i].0 != d[j].0 {
      if d[i].0 == d[j].0 {
        IndexedNameInjective(prefix, i, j);
      }
    }
    forall i | 0 <= i < |d| ensures HasPrefix(d[i].0, prefix) {
      assert d[i].0[..|prefix|] == prefix;
    }
  }

  /** A name without the prefix is not among the names of a prefixed group. */
  lemma NotInPrefixed(d: Dict, prefix: string, k: string)
    requires forall i :: 0 <= i < |d| ==> HasPrefix(d[i].0, prefix)
    requires !HasPrefix(k, prefix)
    ensures k !in Keys(d)
  {
    forall i | 0 <= i < |d| ensures Keys(d)[i] != k {
      assert HasPrefix(d[i].0, prefix);
    }
  }

  /**
   * `_extract_tfidf_features`. `top` holds the selected TF-IDF scores in
   * selection order; `None` stands for the vectorizer raising, which leaves
   * the group empty.
   */
  function TfidfDict(top: Option<seq<real>>): (d: Dict)
    ensures UniqueKeys(d)
    ensures "suspicious_keywords" !in Keys(d)
    ensures top.None? ==> d == []
    ensures top.Some? ==> |d| == |top.value|
    ensures top.Some? ==> forall i :: 0 <= i < |d| ==> d[i] == (IndexedName("tfidf_", i), top.value[i])
  {
    if top.None? then []
    else
      var d := IndexedDict("tfidf_", top.value);
      IndexedDictShape("tfidf_", top.value);
      IndexedDictPairs("tfidf_", top.value);
      assert !HasPrefix("suspicious_keywords", "tfidf_") by {
        assert "suspicious_keywords"[0] != "tfidf_"[0];
      }
      NotInPrefixed(d, "tfidf_", "suspicious_keywords");
      d
  }

  /**
   * `_extract_bert_features`: the first (at most) ten dimensions of the mean
   * embedding; `None` stands for the encoder raising, which leaves the group
   * empty.
   */
  function BertDict(embedding: Option<seq<real>>): (d: Dict)
    ensures UniqueKeys(d)
    ensures "suspicious_keywords" !in Keys(d)
    ensures embedding.None? ==> d == []
    ensures embedding.Some? ==> |d| == if |embedding.value| < 10 then |embedding.value| else 10
    ensures embedding.Some? ==> forall i :: 0 <= i < |d| ==> d[i] == (IndexedName("bert_", i), embedding.value[i])
  {
    if embedding.None? then []
    else
      var e := embedding.value;
      var n := if |e| < 10 then |e| else 10;
      var d := IndexedDict("bert_", e[..n]);
      IndexedDictShape("bert_", e[..n]);
      IndexedDictPairs("bert_", e[..n]);
      assert !HasPrefix("suspicious_keywords", "bert_") by {
        assert "suspicious_keywords"[0] != "bert_"[0];
      }
      NotInPrefixed(d, "bert_", "suspicious_keywords");
      d
  }

  // ---------------------------------------------------------------------
  // NLP extraction with its optional stages
  // ---------------------------------------------------------------------

  /**
   * What the NLP extractor works with. `tokenize` is `word_tokenize`; `None`
   * stands for it raising. `tfidf` is present when a vectorizer was loaded
   * and yields the selected top scores for a text; `bert` is present when a
   * BERT tokenizer and model were loaded and yields the mean embedding. Each
   * stage yields `None` when it raises.
   */
  datatype NlpResources = NlpResources(
    stopWords: set<string>,
    tokenize: string -> Option<seq<string>>,
    tfidf: Option<string -> Option<seq<real>>>,
    bert: Option<string -> Option<seq<real>>>)

  /** `features.update(group)` when the stage is enabled, nothing otherwise. */
  function AddStage(d: Dict, group: Option<Dict>): Dict
  {
    if group.Some? then Update(d, group.value) else d
  }

  /** The six basic names in order, distinct, and the keyword count stored under its name. */
  lemma BasicDictFacts(f: TextBasicFeatures)
    ensures Update([], TextBasicDict(f)) == TextBasicDict(f)
    ensures Keys(TextBasicDict(f)) == TextBasicNames && UniqueKeys(TextBasicDict(f))
    ensures Get(TextBasicDict(f), "suspicious_keywords") == Some(f.suspiciousKeywords as real)
  {
    var b := TextBasicDict(f);
    assert Keys(b) == TextBasicNames;
    assert UniqueKeys(b);
    UpdateDisjoint([], b);
    assert [] + b == b;
    GetAt(b, 5);
  }

  /**
   * A stage whose names avoid "suspicious_keywords" keeps the basic names in
   * front, the names distinct and the keyword count.
   */
  lemma AddStageKeeps(d: Dict, group: Option<Dict>, kw: real)
    requires UniqueKeys(d) && |d| >= 6 && Keys(d)[..6] == TextBasicNames
    requires Get(d, "suspicious_keywords") == Some(kw)
    requires group.Some? ==> UniqueKeys(group.value) && "suspicious_keywords" !in Keys(group.value)
    ensures var u := AddStage(d, group);
      && UniqueKeys(u) && |u| >= 6 && Keys(u)[..6] == TextBasicNames
      && Get(u, "suspicious_keywords") == Some(kw)
  {
    if group.Some? {
      var u := Update(d, group.value);
      assert Keys(u)[..6] == Keys(u)[..|d|][..6];
      UpdateGet(d, group.value, "suspicious_keywords");
    }
  }

  function TfidfStage(res: NlpResources, text: string): (g: Option<Dict>)
    ensures g.Some? ==> UniqueKeys(g.value) && "suspicious_keywords" !in Keys(g.value)
  {
    if res.tfidf.Some? then Some(TfidfDict(res.tfidf.value(text))) else None
  }

  function BertStage(res: NlpResources, text: string): (g: Option<Dict>)
    ensures g.Some? ==> UniqueKeys(g.value) && "suspicious_keywords" !in Keys(g.value)
  {
    if res.bert.Some? then Some(BertDict(res.bert.value(text))) else None
  }

  /** The entries an enabled stage contributes; a stage that is not loaded contributes none. */
  function StageEntries(stage: Option<string -> Option<seq<real>>>, text: string, group: Option<seq<real>> -> Dict): Dict
  {
    if stage.Some? then group(stage.value(text)) else []
  }

  /** `k` does not start with `p` when they differ at a position of `p`. */
  lemma DifferAt(k: string, p: string, j: nat)
    requires j < |p| && (j >= |k| || k[j] != p[j])
    ensures !HasPrefix(k, p)
  {
    if |p| <= |k| {
      assert k[..|p|][j] == k[j];
    }
  }

  /** No basic name starts with "tfidf_" or "bert_". */
  lemma BasicNamesUnprefixed()
    ensures forall i :: 0 <= i < |TextBasicNames| ==>
      !HasPrefix(TextBasicNames[i], "tfidf_") && !HasPrefix(TextBasicNames[i], "bert_")
  {
    DifferAt("text_length", "tfidf_", 1);
    DifferAt("word_count", "tfidf_", 0);
    DifferAt("avg_word_length", "tfidf_", 0);
    DifferAt("stop_word_ratio", "tfidf_", 0);
    DifferAt("special_char_ratio", "tfidf_", 0);
    DifferAt("suspicious_keywords", "tfidf_", 0);
    DifferAt("text_length", "bert_", 0);
    DifferAt("word_count", "bert_", 0);
    DifferAt("avg_word_length", "bert_", 0);
    DifferAt("stop_word_ratio", "bert_", 0);
    DifferAt("special_char_ratio", "bert_", 0);
    DifferAt("suspicious_keywords", "bert_", 0);
  }

  lemma TfidfNamesPrefixed(top: Option<seq<real>>)
    ensures forall i :: 0 <= i < |TfidfDict(top)| ==> HasPrefix(TfidfDict(top)[i].0, "tfidf_")
  {
    if top.Some? {
      IndexedDictShape("tfidf_", top.value);
    }
  }

  lemma BertNamesPrefixed(embedding: Option<seq<real>>)
    ensures forall i :: 0 <= i < |BertDict(embedding)| ==> HasPrefix(BertDict(embedding)[i].0, "bert_")
  {
    if embedding.Some? {
      var e := embedding.value;
      var n := if |e| < 10 then |e| else 10;
      IndexedDictShape("bert_", e[..n]);
    }
  }

  /** Names carrying `prefix` are new to a dict none of whose names carries it. */
  lemma PrefixedNamesFresh(d: Dict, e: Dict, prefix: string)
    requires forall i :: 0 <= i < |d| ==> !HasPrefix(d[i].0, prefix)
    requires forall i :: 0 <= i < |e| ==> HasPrefix(e[i].0, prefix)
    ensures forall i :: 0 <= i < |e| ==> e[i].0 !in Keys(d)
  {
    forall i | 0 <= i < |e| ensures e[i].0 !in Keys(d) {
      forall j | 0 <= j < |d| ensures Keys(d)[j] != e[i].0 {
        assert Keys(d)[j] == d[j].0;
      }
    }
  }

  /** A group whose names all carry `prefix` is appended unchanged to a dict whose names do not. */
  lemma AppendPrefixed(d: Dict, e: Dict, prefix: string)
    requires UniqueKeys(e)
    requires forall i :: 0 <= i < |d| ==> !HasPrefix(d[i].0, prefix)
    requires forall i :: 0 <= i < |e| ==> HasPrefix(e[i].0, prefix)
    ensures Update(d, e) == d + e
  {
    PrefixedNamesFresh(d, e, prefix);
    UpdateDisjoint(d, e);
  }

  /** Names starting with "tfidf_" do not start with "bert_". */
  lemma TfidfNamesNotBert(t: Dict)
    requires forall i :: 0 <= i < |t| ==> HasPrefix(t[i].0, "tfidf_")
    ensures forall i :: 0 <= i < |t| ==> !HasPrefix(t[i].0, "bert_")
  {
    forall i | 0 <= i < |t| ensures !HasPrefix(t[i].0, "bert_") {
      assert t[i].0[..6][0] == t[i].0[0];
      DifferAt(t[i].0, "bert_", 0);
    }
  }

  /** The TF-IDF group, when enabled, is appended unchanged after the basic group. */
  lemma BasicThenTfidf(f: TextBasicFeatures, res: NlpResources, text: string)
    ensures AddStage(Update([], TextBasicDict(f)), TfidfStage(res, text))
         == TextBasicDict(f) + StageEntries(res.tfidf, text, TfidfDict)
    ensures var d := TextBasicDict(f) + StageEntries(res.tfidf, text, TfidfDict);
      forall i :: 0 <= i < |d| ==> !HasPrefix(d[i].0, "bert_")
  {
    var b := TextBasicDict(f);
    var t := StageEntries(res.tfidf, text, TfidfDict);
    BasicDictFacts(f);
    BasicNamesUnprefixed();
    assert forall i :: 0 <= i < |b| ==> b[i].0 == TextBasicNames[i] by {
      forall i | 0 <= i < |b| ensures b[i].0 == TextBasicNames[i] {
        assert Keys(b)[i] == b[i].0;
      }
    }
    TfidfNamesPrefixed(if res.tfidf.Some? then res.tfidf.value(text) else None);
    assert forall i :: 0 <= i < |t| ==> HasPrefix(t[i].0, "tfidf_");
    if res.tfidf.Some? {
      AppendPrefixed(b, t, "tfidf_");
    }
    TfidfNamesNotBert(t);
    var d2 := b + t;
    forall i | 0 <= i < |d2| ensures !HasPrefix(d2[i].0, "bert_") {
      if i >= |b| {
        assert d2[i] == t[i - |b|];
      }
    }
  }

  /**
   * The stages' names never clash with the basic names or with each other,
   * so each enabled stage is appended unchanged after the basic group.
   */
  lemma NlpLayout(f: TextBasicFeatures, res: NlpResources, text: string)
    ensures AddStage(AddStage(Update([], TextBasicDict(f)), TfidfStage(res, text)), BertStage(res, text))
         == TextBasicDict(f) + StageEntries(res.tfidf, text, TfidfDict) + StageEntries(res.bert, text, BertDict)
  {
    var d2 := TextBasicDict(f) + StageEntries(res.tfidf, text, TfidfDict);
    var g := StageEntries(res.bert, text, BertDict);
    BasicThenTfidf(f, res, text);
    if res.bert.Some? {
      BertNamesPrefixed(res.bert.value(text));
      AppendPrefixed(d2, g, "bert_");
    }
  }

  /**
   * `NLPFeatureExtractor.extract_features`: the six basic features, then the
   * TF-IDF group when a vectorizer is loaded, then the BERT group when BERT
   * is loaded. `None` when tokenisation raises.
   */
  function ExtractNlp(res: NlpResources, text: string): (r: Option<Dict>)
    ensures r.Some? <==> res.tokenize(Lower(text)).Some?
    ensures r.Some? ==> UniqueKeys(r.value)
    ensures r.Some? ==> |r.value| >= 6 && Keys(r.value)[..6] == TextBasicNames
    ensures r.Some? ==>
      Get(r.value, "suspicious_keywords") == Some(UrlFeatures.KeywordHits(TextKeywords, Lower(text)) as real)
    ensures r.Some? && res.tfidf.None? && res.bert.None? ==> Keys(r.value) == TextBasicNames
    ensures r.Some? ==>
      r.value == TextBasicDict(ExtractTextBasic(text, res.tokenize(Lower(text)).value, res.stopWords))
        + StageEntries(res.tfidf, text, TfidfDict) + StageEntries(res.bert, text, BertDict)
  {
    match res.tokenize(Lower(text))
    case None => None
    case Some(words) =>
      var f := ExtractTextBasic(text, words, res.stopWords);
      var kw := f.suspiciousKeywords as real;
      var d1 := Update([], TextBasicDict(f));
      BasicDictFacts(f);
      var d2 := AddStage(d1, TfidfStage(res, text));
      AddStageKeeps(d1, TfidfStage(res, text), kw);
      var d3 := AddStage(d2, BertStage(res, text));
      AddStageKeeps(d2, BertStage(res, text), kw);
      NlpLayout(f, res, text);
      Some(d3)
  }

  // ---------------------------------------------------------------------
  // WHOIS features
  // ---------------------------------------------------------------------

  /** The creation date the WHOIS record reports, as the extractor sees it. */
  datatype CreationDate =
    | NoCreationDate                 // a falsy `creation_date`
    | CreatedDaysAgo(days: int)      // `(datetime.now() - creation_date).days`
    | UnusableDate                   // the age computation raised

  /** The outcome of `whois.whois(domain)`: it raised, or it produced a record. */
  datatype WhoisLookup =
    | LookupFailed
    | WhoisRecord(creation: CreationDate, hasRegistrar: bool, hasCountry: bool)

  const WhoisNames: seq<string> := ["domain_age_days", "has_registrar", "has_country"]

  /** The domain queried: the lower-cased network location without one leading "www.". */
  function WhoisDomain(netloc: string): (domain: string)
    ensures var l := Lower(netloc);
      if HasPrefix(l, "www.") then l == "www." + domain else domain == l
  {
    var l := Lower(netloc);
    if HasPrefix(l, "www.") then
      assert l == l[..4] + l[4..];
      l[4..]
    else l
  }

  /**
   * `WHOISFeatureExtractor.extract_features`: always the same three names;
   * any exception, from URL parsing, the lookup or the age computation,
   * zeroes all three. `parsed` is `urlparse(url)`, `None` when it raises.
   */
  function WhoisFeatures(parsed: Option<UrlFeatures.UrlParts>, lookup: string -> WhoisLookup): (d: Dict)
    ensures Keys(d) == WhoisNames
    ensures parsed.None? ==> Values(d) == [0.0, 0.0, 0.0]
    ensures parsed.Some? ==> var w := lookup(WhoisDomain(parsed.value.netloc));
      && (w.LookupFailed? || w.creation.UnusableDate? ==> Values(d) == [0.0, 0.0, 0.0])
      && (w.WhoisRecord? && w.creation.CreatedDaysAgo? ==> d[0].1 == w.creation.days as real)
      && (w.WhoisRecord? && w.creation.NoCreationDate? ==> d[0].1 == 0.0)
      && (w.WhoisRecord? && !w.creation.UnusableDate? ==>
            d[1].1 == UrlFeatures.Flag(w.hasRegistrar) && d[2].1 == UrlFeatures.Flag(w.hasCountry))
  {
    var zeros := [("domain_age_days", 0.0), ("has_registrar", 0.0), ("has_country", 0.0)];
    if parsed.None? then zeros
    else
      match lookup(WhoisDomain(parsed.value.netloc))
      case LookupFailed => zeros
      case WhoisRecord(creation, registrar, country) =>
        match creation
        case UnusableDate => zeros
        case NoCreationDate =>
          [("domain_age_days", 0.0), ("has_registrar", UrlFeatures.Flag(registrar)), ("has_country", UrlFeatures.Flag(country))]
        case CreatedDaysAgo(days) =>
          [("domain_age_days", days as real), ("has_registrar", UrlFeatures.Flag(registrar)), ("has_country", UrlFeatures.Flag(country))]
  }

  // ---------------------------------------------------------------------
  // Hybrid merge
  // ---------------------------------------------------------------------

  /** The text the hybrid extractor analyses: the given one, or the fetched page when none was given. */
  function EffectiveText(text: Option<string>, fetched: string): string
  {
    if text.None? then fetched else text.value
  }

  /** `features.update(url_features)` then `features.update(whois_features)` into an empty dict. */
  function MergeUrlWhois(u: Dict, w: Dict): Dict
  {
    Update(Update([], u), w)
  }

  /**
   * `HybridFeatureExtractor.extract_features`: URL features, then WHOIS
   * features, then NLP features when the effective text is non-empty.
   * `fetched` is what `extract_text_from_url` returns for the URL; `None`
   * when the NLP extractor raises, which the hybrid extractor does not catch.
   */
  function ExtractHybrid(url: string, parsed: Option<UrlFeatures.UrlParts>, lookup: string -> WhoisLookup,
                         text: Option<string>, fetched: string, res: NlpResources): (r: Option<Dict>)
    ensures var t := EffectiveText(text, fetched);
      r.None? <==> t != "" && ExtractNlp(res, t).None?
    ensures EffectiveText(text, fetched) == "" ==> Keys(r.value) == UrlFeatures.UrlFeatureNames + WhoisNames
    ensures var t := EffectiveText(text, fetched);
      t != "" && r.Some? ==>
        Keys(r.value) == UrlFeatures.UrlFeatureNames + WhoisNames
          + NewNames(UrlFeatures.UrlFeatureNames + WhoisNames, Keys(ExtractNlp(res, t).value))
  {
    var u := UrlFeatures.ExtractFeatures(url, parsed);
    var w := WhoisFeatures(parsed, lookup);
    UrlFeatures.UrlFeatureKeysFixed(url, parsed);
    HybridBase(u, w);
    var base := MergeUrlWhois(u, w);
    var t := EffectiveText(text, fetched);
    if t == "" then Some(base)
    else
      match ExtractNlp(res, t)
      case None => None
      case Some(nlp) =>
        UpdateKeys(base, nlp);
        Some(Update(base, nlp))
  }

  /** No WHOIS name is a URL feature name. */
  lemma WhoisNamesFresh()
    ensures forall i :: 0 <= i < |WhoisNames| ==> WhoisNames[i] !in UrlFeatures.UrlFeatureNames
  {
  }

  /** Merging two groups with disjoint names into an empty dict lays them end to end. */
  lemma MergeDisjoint(u: Dict, w: Dict)
    requires UniqueKeys(u) && UniqueKeys(w)
    requires forall i :: 0 <= i < |w| ==> w[i].0 !in Keys(u)
    ensures MergeUrlWhois(u, w) == u + w
    ensures UniqueKeys(u + w)
  {
    UpdateDisjoint([], u);
    assert [] + u == u;
    UpdateDisjoint(u, w);
    forall i, j | 0 <= i < j < |u + w| ensures (u + w)[i].0 != (u + w)[j].0 {
      if j >= |u| && i < |u| {
        assert (u + w)[j] == w[j - |u|];
        assert Keys(u)[i] == u[i].0;
      }
    }
  }

  /** URL then WHOIS: the URL names followed by the WHOIS names, the URL keyword count kept. */
  lemma HybridBase(u: Dict, w: Dict)
    requires Keys(u) == UrlFeatures.UrlFeatureNames && UniqueKeys(u)
    requires Keys(w) == WhoisNames
    ensures Keys(MergeUrlWhois(u, w)) == UrlFeatures.UrlFeatureNames + WhoisNames
    ensures Get(MergeUrlWhois(u, w), "suspicious_keywords") == Get(u, "suspicious_keywords")
    ensures MergeUrlWhois(u, w) == u + w
  {
    WhoisNamesFresh();
    assert UniqueKeys(w) by {
      forall i, j | 0 <= i < j < |w| ensures w[i].0 != w[j].0 {
        assert Keys(w)[i] == w[i].0 && Keys(w)[j] == w[j].0;
      }
    }
    forall i | 0 <= i < |w| ensures w[i].0 !in Keys(u) {
      assert Keys(w)[i] == w[i].0;
    }
    MergeDisjoint(u, w);
    assert Keys(u + w) == Keys(u) + Keys(w);
    UpdateDisjoint([], u);
    assert [] + u == u;
    UpdateGet(u, w, "suspicious_keywords");
    assert "suspicious_keywords" !in Keys(w) by {
      assert WhoisNames[0] != "suspicious_keywords";
      assert WhoisNames[1] != "suspicious_keywords";
      assert WhoisNames[2] != "suspicious_keywords";
    }
  }

  /** Adding the NLP group keeps the front names and lets the text keyword count win. */
  lemma MergeNlp(base: Dict, nlp: Dict, kw: real)
    requires |base| >= 24 && Keys(base)[..24] == UrlFeatures.UrlFeatureNames
    requires UniqueKeys(nlp) && Get(nlp, "suspicious_keywords") == Some(kw)
    ensures |Update(base, nlp)| >= 24
    ensures Keys(Update(base, nlp))[..24] == UrlFeatures.UrlFeatureNames
    ensures Get(Update(base, nlp), "suspicious_keywords") == Some(kw)
  {
    var r := Update(base, nlp);
    assert Keys(r)[..24] == Keys(r)[..|base|][..24];
    UpdateGet(base, nlp, "suspicious_keywords");
  }

  /**
   * With an empty effective text the hybrid dict is the URL names followed
   * by the WHOIS names, and "suspicious_keywords" keeps the URL count.
   */
  lemma HybridWithoutText(url: string, parsed: Option<UrlFeatures.UrlParts>, lookup: string -> WhoisLookup,
                          text: Option<string>, fetched: string, res: NlpResources)
    requires EffectiveText(text, fetched) == ""
    ensures var r := ExtractHybrid(url, parsed, lookup, text, fetched, res);
      && r.Some?
      && Keys(r.value) == UrlFeatures.UrlFeatureNames + WhoisNames
      && Get(r.value, "suspicious_keywords") == Some(UrlFeatures.ExtractSuspicious(url).suspiciousKeywords as real)
      && r == Some(UrlFeatures.ExtractFeatures(url, parsed) + WhoisFeatures(parsed, lookup))
  {
    var u := UrlFeatures.ExtractFeatures(url, parsed);
    UrlFeatures.UrlFeatureKeysFixed(url, parsed);
    UrlFeatures.UrlKeywordEntry(url, parsed);
    HybridBase(u, WhoisFeatures(parsed, lookup));
  }

  /**
   * With a non-empty effective text the NLP features are merged last: the
   * dict exists exactly when tokenising succeeds, every URL name keeps its
   * position at the front, and the text keyword count replaces the URL one
   * under the shared name "suspicious_keywords".
   */
  lemma HybridWithText(url: string, parsed: Option<UrlFeatures.UrlParts>, lookup: string -> WhoisLookup,
                       text: Option<string>, fetched: string, res: NlpResources)
    requires EffectiveText(text, fetched) != ""
    ensures var r := ExtractHybrid(url, parsed, lookup, text, fetched, res);
      var t := EffectiveText(text, fetched);
      && (r.Some? <==> res.tokenize(Lower(t)).Some?)
      && (r.Some? ==> |r.value| >= 24 && Keys(r.value)[..24] == UrlFeatures.UrlFeatureNames)
      && (r.Some? ==> Get(r.value, "suspicious_keywords") == Some(UrlFeatures.KeywordHits(TextKeywords, Lower(t)) as real))
      && (r.Some? ==>
            var nlp, base := ExtractNlp(res, t).value, UrlFeatures.ExtractFeatures(url, parsed) + WhoisFeatures(parsed, lookup);
            forall k :: Get(r.value, k) == if k in Keys(nlp) then Get(nlp, k) else Get(base, k))
  {
    var u := UrlFeatures.ExtractFeatures(url, parsed);
    var w := WhoisFeatures(parsed, lookup);
    UrlFeatures.UrlFeatureKeysFixed(url, parsed);
    HybridBase(u, w);
    var base := MergeUrlWhois(u, w);
    var t := EffectiveText(text, fetched);
    var nlp := ExtractNlp(res, t);
    if nlp.Some? {
      assert Keys(base)[..24] == UrlFeatures.UrlFeatureNames;
      MergeNlp(base, nlp.value, UrlFeatures.KeywordHits(TextKeywords, Lower(t)) as real);
      UpdateGetAll(base, nlp.value);
    }
  }
}

=== FILE: url_features.dfy ===
/**
 * Lexical URL features (`URLFeatureExtractor`): 24 named numbers computed
 * from the URL string and from the components `urllib.parse.urlparse`
 * returns for it.
 *
 * `urlparse` is not modelled; its result is an input. `None` stands for
 * `urlparse` raising, in which case the domain, path and query groups fall
 * back to their zero defaults while the basic and pattern groups, which
 * never parse, are computed as usual.
 */
module UrlFeatures {
  import opened Optional
  import opened Strings
  import opened FeatureMap

  /** The components of `urlparse(url)` that the extractor reads. */
  datatype UrlParts = UrlParts(scheme: string, netloc: string, path: string, query: string)

  const SuspiciousKeywords: seq<string> := [
    "secure", "account", "update", "verify", "confirm", "login",
    "bank", "paypal", "amazon", "apple", "microsoft", "google",
    "facebook", "twitter", "instagram", "linkedin", "netflix",
    "suspicious", "phishing", "scam", "fraud", "fake"
  ]

  const SuspiciousTlds: seq<string> := [".tk", ".ml", ".ga", ".cf", ".click", ".download", ".review"]

  const Shorteners: seq<string> := ["bit.ly", "tinyurl", "goo.gl", "t.co", "ow.ly", "short.link"]

  const SpecialChars: string := "!@#$%^&*()+=[]{}|;:,.<>?"

  predicate IsSpecial(c: char) { c in SpecialChars }

  /** The feature value Python stores for a boolean test. */
  function Flag(b: bool): real { if b then 1.0 else 0.0 }

  // ---------------------------------------------------------------------
  // Keyword and substring counting
  // ---------------------------------------------------------------------

  /** `sum(1 for k in keywords if k in s)`: listed keywords occurring in `s`. */
  function KeywordHits(keywords: seq<string>, s: string): (n: nat)
    ensures n <= |keywords|
    ensures n == 0 <==> forall i :: 0 <= i < |keywords| ==> !Contains(s, keywords[i])
  {
    if |keywords| == 0 then 0
    else (if Contains(s, keywords[0]) then 1 else 0) + KeywordHits(keywords[1..], s)
  }

  predicate Distinct(ks: seq<string>)
  {
    forall i, j :: 0 <= i < j < |ks| ==> ks[i] != ks[j]
  }

  /** The listed keywords that occur in `s`, as a set. */
  function HitSet(keywords: seq<string>, s: string): set<string>
  {
    set k | k in keywords && Contains(s, k)
  }

  /**
   * For a list without repetitions the keyword count is the number of
   * distinct listed keywords present: each keyword counts at most once,
   * however often it occurs.
   */
  lemma {:induction false} KeywordHitsCountsDistinct(keywords: seq<string>, s: string)
    requires Distinct(keywords)
    ensures KeywordHits(keywords, s) == |HitSet(keywords, s)|
  {
    if |keywords| > 0 {
      var k, rest := keywords[0], keywords[1..];
      assert Distinct(rest) by {
        forall i, j | 0 <= i < j < |rest| ensures rest[i] != rest[j] {
          assert rest[i] == keywords[i + 1] && rest[j] == keywords[j + 1];
        }
      }
      KeywordHitsCountsDistinct(rest, s);
      assert k !in rest by {
        forall j | 0 <= j < |rest| ensures rest[j] != k {
          assert rest[j] == keywords[j + 1];
        }
      }
      HitSetCons(keywords, s);
      assert k !in HitSet(rest, s);
    }
  }

  /** The hit set of a list: the first keyword when it occurs, plus the hits of the rest. */
  lemma HitSetCons(keywords: seq<string>, s: string)
    requires |keywords| > 0
    ensures HitSet(keywords, s)
         == HitSet(keywords[1..], s) + (if Contains(s, keywords[0]) then {keywords[0]} else {})
  {
    assert keywords == [keywords[0]] + keywords[1..];
  }


  // ---------------------------------------------------------------------
  // Basic features: counts over the raw URL
  // ---------------------------------------------------------------------

  datatype BasicFeatures = BasicFeatures(
    urlLength: nat, numDots: nat, numHyphens: nat, numUnderscores: nat,
    numSlashes: nat, numDigits: nat, numSpecialChars: nat)

  /** `_extract_basic_features`: every count is bounded by the length, and '.' is special. */
  function ExtractBasic(url: string): (b: BasicFeatures)
    ensures b.urlLength == |url|
    ensures b.numDots <= b.urlLength && b.numHyphens <= b.urlLength
    ensures b.numUnderscores <= b.urlLength && b.numSlashes <= b.urlLength
    ensures b.numDigits <= b.urlLength && b.numSpecialChars <= b.urlLength
    ensures b.numDots <= b.numSpecialChars
    ensures b.numDigits == 0 <==> forall i :: 0 <= i < |url| ==> !IsDigit(url[i])
  {
    CountCharAtMostCountIf(url, '.', IsSpecial);
    BasicFeatures(
      |url|, CountChar(url, '.'), CountChar(url, '-'), CountChar(url, '_'),
      CountChar(url, '/'), CountIf(url, IsDigit), CountIf(url, IsSpecial))
  }

  function BasicDict(b: BasicFeatures): Dict
  {
    [ ("url_length", b.urlLength as real),
      ("num_dots", b.numDots as real),
      ("num_hyphens", b.numHyphens as real),
      ("num_underscores", b.numUnderscores as real),
      ("num_slashes", b.numSlashes as real),
      ("num_digits", b.numDigits as real),
      ("num_special_chars", b.numSpecialChars as real) ]
  }

  // ---------------------------------------------------------------------
  // Domain features
  // ---------------------------------------------------------------------

  /**
   * The regular expression `\d+(\.\d+){k}` matches all of `s`. The digit runs
   * are taken greedily: a shorter run would be followed by a digit, which
   * neither '.' nor the end of the string can match.
   */
  predicate DigitRuns(s: string, k: nat)
    decreases k
  {
    var n := LeadingDigits(s);
    n > 0 &&
    if k == 0 then n == |s|
    else n < |s| && s[n] == '.' && DigitRuns(s[n + 1..], k - 1)
  }

  /**
   * `re.match(r'^\d+\.\d+\.\d+\.\d+$', domain)`. Python's `$` also matches
   * just before a final newline.
   */
  predicate MatchesIpPattern(domain: string)
  {
    DigitRuns(domain, 3)
    || (|domain| > 0 && domain[|domain| - 1] == '\n' && DigitRuns(domain[..|domain| - 1], 3))
  }

  /** Every '.'-separated label of `s` is a non-empty run of digits, and there are `count` labels. */
  predicate DigitLabels(s: string, count: nat)
  {
    var labels := Split(s, '.');
    |labels| == count && AllDigitLabels(labels)
  }

  predicate AllDigitLabels(labels: seq<string>)
  {
    forall i :: 0 <= i < |labels| ==> |labels[i]| > 0 && AllDigits(labels[i])
  }

  lemma AllDigitLabelsCons(a: string, rest: seq<string>)
    ensures AllDigitLabels([a] + rest) <==> |a| > 0 && AllDigits(a) && AllDigitLabels(rest)
  {
    var l := [a] + rest;
    assert l[0] == a;
    if |a| > 0 && AllDigits(a) && AllDigitLabels(rest) {
      forall i | 0 < i < |l| ensures |l[i]| > 0 && AllDigits(l[i]) {
        assert l[i] == rest[i - 1];
      }
    }
    if AllDigitLabels(l) {
      forall i | 0 <= i < |rest| ensures |rest[i]| > 0 && AllDigits(rest[i]) {
        assert rest[i] == l[i + 1];
      }
    }
  }

  /** Splitting at the first separator: the first piece, then the pieces of the rest. */
  lemma {:induction false} SplitAtFirst(s: string, sep: char)
    requires sep in s
    ensures var f := Find(s, sep);
      Split(s, sep) == [s[..f]] + Split(s[f + 1..], sep)
  {
    var f := Find(s, sep);
    var a, b := s[..f], s[f + 1..];
    assert a + [sep] + b == s;
    SplitAround(a, b, sep);
    SplitNoSep(a, sep);
  }

  /**
   * The leading digit run never passes the first '.', and reaches it
   * exactly when everything before it is a digit or when the run stops at
   * a '.'.
   */
  lemma {:induction false} LeadingDigitsAtFirstDot(s: string)
    requires '.' in s
    ensures var n, f := LeadingDigits(s), Find(s, '.');
      && n <= f
      && (AllDigits(s[..f]) ==> n == f)
      && (n < |s| && s[n] == '.' ==> n == f)
  {
    var n, f := LeadingDigits(s), Find(s, '.');
    assert forall i :: 0 <= i < n ==> IsDigit(s[i]) by {
      forall i | 0 <= i < n ensures IsDigit(s[i]) {
        assert s[..n][i] == s[i];
      }
    }
    assert forall i :: 0 <= i < f ==> s[i] != '.' by {
      forall i | 0 <= i < f ensures s[i] != '.' {
        assert s[..f][i] == s[i];
        assert s[..f][i] in s[..f];
      }
    }
    if AllDigits(s[..f]) {
      forall i | 0 <= i < f ensures IsDigit(s[i]) {
        assert s[..f][i] == s[i];
      }
    }
  }

  /** The labels of a dotted string: the text before the first '.', then the labels of the rest. */
  lemma {:induction false} DigitLabelsAtFirstDot(s: string, k: nat)
    requires '.' in s
    ensures var f := Find(s, '.');
      DigitLabels(s, k + 1) <==> f > 0 && AllDigits(s[..f]) && DigitLabels(s[f + 1..], k)
  {
    var f := Find(s, '.');
    SplitAtFirst(s, '.');
    AllDigitLabelsCons(s[..f], Split(s[f + 1..], '.'));
  }

  /** Without a '.', the pattern with no dots matches exactly a non-empty digit string. */
  lemma DigitRunsNoDot(s: string, k: nat)
    requires '.' !in s
    ensures DigitRuns(s, k) <==> DigitLabels(s, k + 1)
  {
    var n := LeadingDigits(s);
    SplitNoSep(s, '.');
    assert n < |s| ==> s[n] in s;
    if k == 0 {
      assert [s][0] == s;
      assert DigitLabels(s, 1) <==> |s| > 0 && AllDigits(s);
      assert DigitRuns(s, 0) <==> n > 0 && n == |s|;
      assert AllDigits(s) ==> n == |s|;
      assert n == |s| ==> s[..n] == s;
    }
  }

  /** The greedy matcher agrees with the label-wise reading of the pattern. */
  lemma {:induction false} DigitRunsIffLabels(s: string, k: nat)
    ensures DigitRuns(s, k) <==> DigitLabels(s, k + 1)
    decreases k, 1
  {
    if '.' !in s {
      DigitRunsNoDot(s, k);
    } else {
      DigitLabelsAtFirstDot(s, k);
      DigitRunsAtFirstDot(s, k);
      DigitRunsIffLabelsTail(s[Find(s, '.') + 1..], k);
    }
  }

  /** The recursive step of `DigitRunsIffLabels`: `k - 1` more runs are `k` more labels. */
  lemma {:induction false} DigitRunsIffLabelsTail(rest: string, k: nat)
    ensures (k > 0 && DigitRuns(rest, k - 1)) <==> DigitLabels(rest, k)
    decreases k, 0
  {
    if k == 0 {
      assert |Split(rest, '.')| >= 1;
    } else {
      DigitRunsIffLabels(rest, k - 1);
    }
  }


  /** The matcher on a dotted string: digits up to the first '.', then `k - 1` more runs after it. */
  lemma DigitRunsAtFirstDot(s: string, k: nat)
    requires '.' in s
    ensures var f := Find(s, '.');
      DigitRuns(s, k) <==> k > 0 && f > 0 && AllDigits(s[..f]) && DigitRuns(s[f + 1..], k - 1)
  {
    var n, f := LeadingDigits(s), Find(s, '.');
    LeadingDigitsAtFirstDot(s);
    assert AllDigits(s[..f]) <==> n == f;
  }



  /** Applying `.lower()` does not change whether the pattern matches: no letter can occur in it. */
  lemma DigitRunsLower(s: string, k: nat)
    ensures DigitRuns(Lower(s), k) <==> DigitRuns(s, k)
  {
    var t := Lower(s);
    DigitRunsOnlyDigitsAndDots(s, k);
    DigitRunsOnlyDigitsAndDots(t, k);
    if DigitRuns(s, k) {
      forall i | 0 <= i < |t| ensures IsDigit(t[i]) || t[i] == '.' {
        assert t[i] == LowerChar(s[i]);
      }
      LowerKeepsDigitsAndDots(s);
    }
    if DigitRuns(t, k) {
      LowerKeepsDigitsAndDots(s);
    }
  }

  /** A string that lower-cases to digits and dots was digits and dots already. */
  lemma LowerKeepsDigitsAndDots(s: string)
    requires forall i :: 0 <= i < |s| ==> IsDigit(Lower(s)[i]) || Lower(s)[i] == '.'
    ensures Lower(s) == s
  {
    forall i | 0 <= i < |s| ensures Lower(s)[i] == s[i] {
      assert Lower(s)[i] == LowerChar(s[i]);
    }
  }

  /** The last piece of a split is everything after the last separator. */
  lemma LastPieceAfterLastSep(s: string, sep: char)
    ensures var r := Split(s, sep);
      r[|r| - 1] == s[RFind(s, sep) + 1..]
  {
    var k := RFind(s, sep);
    if k < 0 {
      SplitNoSep(s, sep);
      assert s[k + 1..] == s;
    } else {
      SplitAt(s, k, sep);
      SplitNoSep(s[k + 1..], sep);
    }
  }


  datatype DomainFeatures = DomainFeatures(
    domainLength: nat, numSubdomains: int, hasIp: bool, hasHttps: bool,
    tldLength: nat, suspiciousTld: bool)

  /** The values `_extract_domain_features` stores when parsing raised. */
  const DomainDefaults: DomainFeatures := DomainFeatures(0, 0, false, false, 0, false)

  /** `tld = domain.split('.')[-1] if '.' in domain else ''`. */
  function TopLevelLabel(domain: string): (tld: string)
    ensures '.' !in tld
    ensures '.' !in domain ==> tld == ""
    ensures '.' in domain ==> tld == domain[RFind(domain, '.') + 1..]
  {
    if '.' in domain then
      LastPieceAfterLastSep(domain, '.');
      var labels := Split(domain, '.');
      labels[|labels| - 1]
    else ""
  }

  /** `any(tld.endswith(t) for t in suspicious_tlds)`. */
  predicate HasSuspiciousSuffix(tld: string)
  {
    exists i | 0 <= i < |SuspiciousTlds| :: EndsWith(tld, SuspiciousTlds[i])
  }

  /** A string ending in a non-empty suffix contains the suffix's first character. */
  lemma EndsWithFirst(s: string, t: string)
    requires |t| > 0
    ensures EndsWith(s, t) ==> t[0] in s
  {
    if |t| <= |s| {
      var k := |s| - |t|;
      assert s[k..][0] == s[k];
      assert s[k] in s;
    }
  }

  /** A label without '.' never ends in one of the listed TLDs, each of which starts with '.'. */
  lemma NoSuspiciousSuffix(tld: string)
    requires '.' !in tld
    ensures !HasSuspiciousSuffix(tld)
  {
    forall i | 0 <= i < |SuspiciousTlds| ensures !EndsWith(tld, SuspiciousTlds[i]) {
      var t := SuspiciousTlds[i];
      assert t[0] == '.';
      EndsWithFirst(tld, t);
    }
  }

  /**
   * `_extract_domain_features`: lengths and flags over the lower-cased host.
   * The host name `suspicious_tld` tests is free of '.', so the flag is
   * never set.
   */
  function ExtractDomain(parsed: Option<UrlParts>): (f: DomainFeatures)
    ensures parsed.None? ==> f == DomainDefaults
    ensures !f.suspiciousTld
    ensures parsed.Some? ==>
      var host := parsed.value.netloc;
      && f.domainLength == |host|
      && f.numSubdomains == CountChar(host, '.') - 1
      && (f.hasIp <==> MatchesIpPattern(host))
      && (f.hasHttps <==> parsed.value.scheme == "https")
      && ('.' !in host ==> f.tldLength == 0)
      && ('.' in host ==> f.tldLength == |host| - 1 - RFind(host, '.'))
  {
    match parsed
    case None => DomainDefaults
    case Some(p) =>
      var domain := Lower(p.netloc);
      var tld := TopLevelLabel(domain);
      NoSuspiciousSuffix(tld);
      CountCharLower(p.netloc, '.');
      LowerKeeps(p.netloc, '.');
      IpPatternLower(p.netloc);
      RFindLower(p.netloc, '.');
      DomainFeatures(
        |domain|,
        |Split(domain, '.')| - 2,
        MatchesIpPattern(domain),
        p.scheme == "https",
        |tld|,
        HasSuspiciousSuffix(tld))
  }

  /** Lower-casing the host does not change whether it matches the IP pattern. */
  lemma {:induction false} IpPatternLower(host: string)
    ensures MatchesIpPattern(Lower(host)) <==> MatchesIpPattern(host)
  {
    DigitRunsLower(host, 3);
    if |host| > 0 {
      assert Lower(host)[..|host| - 1] == Lower(host[..|host| - 1]);
      DigitRunsLower(host[..|host| - 1], 3);
    }
  }

  /** The IP pattern holds of four digit labels, and of four digit labels and a newline. */
  lemma {:induction false} IpPatternIffLabels(host: string)
    ensures MatchesIpPattern(host) <==>
      (DigitLabels(host, 4) || (|host| > 0 && host[|host| - 1] == '\n' && DigitLabels(host[..|host| - 1], 4)))
  {
    DigitRunsIffLabels(host, 3);
    if |host| > 0 {
      DigitRunsIffLabels(host[..|host| - 1], 3);
    }
  }

  lemma {:induction false} RFindLower(s: string, c: char)
    requires !IsUpperLetter(c) && !IsLowerLetter(c)
    ensures RFind(Lower(s), c) == RFind(s, c)
  {
    if |s| > 0 {
      assert Lower(s)[..|s| - 1] == Lower(s[..|s| - 1]);
      RFindLower(s[..|s| - 1], c);
    }
  }

  function DomainDict(d: DomainFeatures): Dict
  {
    [ ("domain_length", d.domainLength as real),
      ("num_subdomains", d.numSubdomains as real),
      ("has_ip", Flag(d.hasIp)),
      ("has_https", Flag(d.hasHttps)),
      ("tld_length", d.tldLength as real),
      ("suspicious_tld", Flag(d.suspiciousTld)) ]
  }

  // ---------------------------------------------------------------------
  // Path and query features
  // ---------------------------------------------------------------------

  /** `len([d for d in pieces if d])`. */
  function NonEmptyCount(pieces: seq<string>): (n: nat)
    ensures n <= |pieces|
  {
    if |pieces| == 0 then 0
    else (if |pieces[0]| > 0 then 1 else 0) + NonEmptyCount(pieces[1..])
  }

  /** A path has no directory segment exactly when it is made of separators only. */
  lemma {:induction false} NoSegmentsIffOnlySeparators(s: string, sep: char)
    ensures NonEmptyCount(Split(s, sep)) == 0 <==> forall i :: 0 <= i < |s| ==> s[i] == sep
  {
    if |s| > 0 {
      NoSegmentsIffOnlySeparators(s[1..], sep);
      var rest := Split(s[1..], sep);
      if s[0] == sep {
        assert Split(s, sep)[1..] == rest;
        assert (forall i :: 0 <= i < |s| ==> s[i] == sep) <==> (forall i :: 0 <= i < |s[1..]| ==> s[1..][i] == sep) by {
          if forall i :: 0 <= i < |s[1..]| ==> s[1..][i] == sep {
            forall i | 0 <= i < |s| ensures s[i] == sep {
              if i > 0 { assert s[i] == s[1..][i - 1]; }
            }
          }
        }
      }
    }
  }

  /**
   * The number of directory names in `s`: the positions holding a
   * non-separator that is the last character or is followed by a separator.
   */
  function SegmentEnds(s: string, sep: char): nat
  {
    if |s| == 0 then 0
    else (if s[0] != sep && (|s| == 1 || s[1] == sep) then 1 else 0) + SegmentEnds(s[1..], sep)
  }

  /** Counting the non-empty pieces of a split counts the ends of the separator-free runs. */
  lemma {:induction false} NonEmptyPiecesAreSegmentEnds(s: string, sep: char)
    ensures NonEmptyCount(Split(s, sep)) == SegmentEnds(s, sep)
  {
    if |s| > 0 {
      NonEmptyPiecesAreSegmentEnds(s[1..], sep);
      var rest := Split(s[1..], sep);
      if s[0] != sep {
        assert |rest[0]| > 0 <==> |s| > 1 && s[1] != sep by {
          if |s| > 1 { assert s[1..][0] == s[1]; }
        }
        assert NonEmptyCount(rest) == (if |rest[0]| > 0 then 1 else 0) + NonEmptyCount(rest[1..]);
      }
    }
  }

  datatype PathFeatures = PathFeatures(
    pathLength: nat, numDirectories: nat, hasFileExtension: bool, suspiciousPathKeywords: nat)

  const PathDefaults: PathFeatures := PathFeatures(0, 0, false, 0)

  /**
   * `_extract_path_features`: the number of non-empty '/'-segments, whether
   * the text after the last '/' holds a '.', and the keyword count of the
   * lower-cased path.
   */
  function ExtractPath(parsed: Option<UrlParts>): (f: PathFeatures)
    ensures parsed.None? ==> f == PathDefaults
    ensures f.suspiciousPathKeywords <= |SuspiciousKeywords|
    ensures parsed.Some? ==>
      var path := parsed.value.path;
      && f.pathLength == |path|
      && f.numDirectories == SegmentEnds(path, '/')
      && f.numDirectories <= CountChar(path, '/') + 1
      && (f.numDirectories == 0 <==> forall i :: 0 <= i < |path| ==> path[i] == '/')
      && (f.hasFileExtension <==> '.' in path[RFind(path, '/') + 1..])
      && f.suspiciousPathKeywords == KeywordHits(SuspiciousKeywords, Lower(path))
  {
    match parsed
    case None => PathDefaults
    case Some(p) =>
      var segments := Split(p.path, '/');
      PathSegmentFacts(p.path);
      NonEmptyPiecesAreSegmentEnds(p.path, '/');
      PathFeatures(
        |p.path|,
        NonEmptyCount(segments),
        '.' in segments[|segments| - 1],
        KeywordHits(SuspiciousKeywords, Lower(p.path)))
  }

  lemma PathSegmentFacts(path: string)
    ensures var segments := Split(path, '/');
      && NonEmptyCount(segments) <= CountChar(path, '/') + 1
      && (NonEmptyCount(segments) == 0 <==> forall i :: 0 <= i < |path| ==> path[i] == '/')
      && segments[|segments| - 1] == path[RFind(path, '/') + 1..]
  {
    NoSegmentsIffOnlySeparators(path, '/');
    LastPieceAfterLastSep(path, '/');
  }

  function PathDict(f: PathFeatures): Dict
  {
    [ ("path_length", f.pathLength as real),
      ("num_directories", f.numDirectories as real),
      ("has_file_extension", Flag(f.hasFileExtension)),
      ("suspicious_path_keywords", f.suspiciousPathKeywords as real) ]
  }

  datatype QueryFeatures = QueryFeatures(queryLength: nat, numParams: nat, suspiciousQueryKeywords: nat)

  const QueryDefaults: QueryFeatures := QueryFeatures(0, 0, 0)

  /** `_extract_query_features`: no parameters for an empty query, else one more than the '&'s. */
  function ExtractQuery(parsed: Option<UrlParts>): (f: QueryFeatures)
    ensures parsed.None? ==> f == QueryDefaults
    ensures f.suspiciousQueryKeywords <= |SuspiciousKeywords|
    ensures parsed.Some? ==>
      var query := parsed.value.query;
      && f.queryLength == |query|
      && (query == "" ==> f.numParams == 0)
      && (query != "" ==> f.numParams == CountChar(query, '&') + 1)
      && f.suspiciousQueryKeywords == KeywordHits(SuspiciousKeywords, Lower(query))
  {
    match parsed
    case None => QueryDefaults
    case Some(p) =>
      QueryFeatures(
        |p.query|,
        if p.query != "" then |Split(p.query, '&')| else 0,
        KeywordHits(SuspiciousKeywords, Lower(p.query)))
  }

  function QueryDict(f: QueryFeatures): Dict
  {
    [ ("query_length", f.queryLength as real),
      ("num_params", f.numParams as real),
      ("suspicious_query_keywords", f.suspiciousQueryKeywords as real) ]
  }

  // ---------------------------------------------------------------------
  // Suspicious patterns
  // ---------------------------------------------------------------------

  /** Position `i` starts a run of three equal characters other than a newline. */
  predicate RunOfThreeAt(s: string, i: int)
  {
    0 <= i && i + 2 < |s| && s[i] != '\n' && s[i + 1] == s[i] && s[i + 2] == s[i]
  }

  /** `re.search(r'(.)\1{2,}', s)`: `.` matches any character except a newline. */
  function RepeatSearch(s: string): (found: bool)
    ensures found <==> exists i :: RunOfThreeAt(s, i)
  {
    if |s| < 3 then
      assert forall i :: !RunOfThreeAt(s, i);
      false
    else if RunOfThreeAt(s, 0) then true
    else
      var r := RepeatSearch(s[1..]);
      assert forall j :: RunOfThreeAt(s[1..], j) <==> RunOfThreeAt(s, j + 1);
      assert r ==> exists i :: RunOfThreeAt(s, i) by {
        if r {
          var j :| RunOfThreeAt(s[1..], j);
          assert RunOfThreeAt(s, j + 1);
        }
      }
      assert (exists i :: RunOfThreeAt(s, i)) ==> r by {
        if exists i :: RunOfThreeAt(s, i) {
          var i :| RunOfThreeAt(s, i);
          assert RunOfThreeAt(s[1..], i - 1);
        }
      }
      r
  }

  datatype SuspiciousFeatures = SuspiciousFeatures(
    suspiciousKeywords: nat, isShortened: bool, hasRepeatedChars: bool, hasMixedCase: bool)

  /** `_extract_suspicious_features`: keyword and shortener matches are case-insensitive. */
  function ExtractSuspicious(url: string): (f: SuspiciousFeatures)
    ensures f.suspiciousKeywords == KeywordHits(SuspiciousKeywords, Lower(url))
    ensures f.suspiciousKeywords == 0 <==>
      forall i :: 0 <= i < |SuspiciousKeywords| ==> !Contains(Lower(url), SuspiciousKeywords[i])
    ensures f.suspiciousKeywords <= |SuspiciousKeywords|
    ensures f.isShortened <==> exists i :: 0 <= i < |Shorteners| && Contains(Lower(url), Shorteners[i])
    ensures f.hasRepeatedChars <==> exists i :: RunOfThreeAt(url, i)
    ensures f.hasMixedCase <==>
      (exists i :: 0 <= i < |url| && IsLowerLetter(url[i])) && (exists j :: 0 <= j < |url| && IsUpperLetter(url[j]))
  {
    var lower := Lower(url);
    SuspiciousFeatures(
      KeywordHits(SuspiciousKeywords, lower),
      KeywordHits(Shorteners, lower) > 0,
      RepeatSearch(url),
      CountIf(url, IsLowerLetter) > 0 && CountIf(url, IsUpperLetter) > 0)
  }

  function SuspiciousDict(f: SuspiciousFeatures): Dict
  {
    [ ("suspicious_keywords", f.suspiciousKeywords as real),
      ("is_shortened", Flag(f.isShortened)),
      ("has_repeated_chars", Flag(f.hasRepeatedChars)),
      ("has_mixed_case", Flag(f.hasMixedCase)) ]
  }

  // ---------------------------------------------------------------------
  // The whole extractor
  // ---------------------------------------------------------------------

  datatype UrlFeatureSet = UrlFeatureSet(
    basic: BasicFeatures, domain: DomainFeatures, path: PathFeatures,
    query: QueryFeatures, suspicious: SuspiciousFeatures)

  function ExtractGroups(url: string, parsed: Option<UrlParts>): UrlFeatureSet
  {
    UrlFeatureSet(ExtractBasic(url), ExtractDomain(parsed), ExtractPath(parsed),
                  ExtractQuery(parsed), ExtractSuspicious(url))
  }

  /**
   * `URLFeatureExtractor.extract_features`: the five groups merged into one
   * dict, in order. The source merges them with five `update` calls on an
   * empty dict; `MergeIsConcat` shows that this is their concatenation, the
   * form used here.
   */
  function ExtractFeatures(url: string, parsed: Option<UrlParts>): (d: Dict)
    ensures var g := ExtractGroups(url, parsed);
      d == Update(Update(Update(Update(Update([], BasicDict(g.basic)), DomainDict(g.domain)),
        PathDict(g.path)), QueryDict(g.query)), SuspiciousDict(g.suspicious))
  {
    MergeIsConcat(ExtractGroups(url, parsed));
    GroupsConcat(ExtractGroups(url, parsed))
  }

  const UrlFeatureNames: seq<string> := [
    "url_length", "num_dots", "num_hyphens", "num_underscores", "num_slashes",
    "num_digits", "num_special_chars",
    "domain_length", "num_subdomains", "has_ip", "has_https", "tld_length", "suspicious_tld",
    "path_length", "num_directories", "has_file_extension", "suspicious_path_keywords",
    "query_length", "num_params", "suspicious_query_keywords",
    "suspicious_keywords", "is_shortened", "has_repeated_chars", "has_mixed_case"
  ]

  /** The five group dicts laid end to end. */
  function GroupsConcat(g: UrlFeatureSet): Dict
  {
    BasicDict(g.basic) + DomainDict(g.domain) + PathDict(g.path) + QueryDict(g.query) + SuspiciousDict(g.suspicious)
  }

  lemma GroupsConcatKeys(g: UrlFeatureSet)
    ensures Keys(GroupsConcat(g)) == UrlFeatureNames
    ensures UniqueKeys(GroupsConcat(g))
  {
    var d := GroupsConcat(g);
    assert Keys(d) == UrlFeatureNames;
    UrlFeatureNamesDistinct();
    forall i, j | 0 <= i < j < |d| ensures d[i].0 != d[j].0 {
      assert d[i].0 == Keys(d)[i] && d[j].0 == Keys(d)[j];
    }
  }

  lemma UrlFeatureNamesDistinct()
    ensures forall i, j :: 0 <= i < j < |UrlFeatureNames| ==> UrlFeatureNames[i] != UrlFeatureNames[j]
  {
  }

  /** The groups have pairwise distinct names, so merging them is concatenation. */
  lemma MergeIsConcat(g: UrlFeatureSet)
    ensures Update(Update(Update(Update(Update([], BasicDict(g.basic)), DomainDict(g.domain)),
      PathDict(g.path)), QueryDict(g.query)), SuspiciousDict(g.suspicious)) == GroupsConcat(g)
  {
    var b, d, p, q, s := BasicDict(g.basic), DomainDict(g.domain), PathDict(g.path), QueryDict(g.query), SuspiciousDict(g.suspicious);
    GroupsConcatKeys(g);
    assert GroupsConcat(g) == b + d + p + q + s;
    UniqueParts(b + d + p + q, s);
    UniqueParts(b + d + p, q);
    UniqueParts(b + d, p);
    UniqueParts(b, d);
    UpdateDisjoint([], b);
    assert [] + b == b;
    UpdateDisjoint(b, d);
    UpdateDisjoint(b + d, p);
    UpdateDisjoint(b + d + p, q);
    UpdateDisjoint(b + d + p + q, s);
  }

  /**
   * The URL feature dict always has the same 24 names in the same order,
   * whatever the URL and whether or not parsing raised; the exception
   * defaults reuse exactly the names of the normal path.
   */
  lemma UrlFeatureKeysFixed(url: string, parsed: Option<UrlParts>)
    ensures Keys(ExtractFeatures(url, parsed)) == UrlFeatureNames
    ensures UniqueKeys(ExtractFeatures(url, parsed))
    ensures |ExtractFeatures(url, parsed)| == 24
  {
    GroupsConcatKeys(ExtractGroups(url, parsed));
  }

  /** The dict stores the URL-wide keyword count under "suspicious_keywords". */
  lemma UrlKeywordEntry(url: string, parsed: Option<UrlParts>)
    ensures Get(ExtractFeatures(url, parsed), "suspicious_keywords")
         == Some(ExtractSuspicious(url).suspiciousKeywords as real)
  {
    var g := ExtractGroups(url, parsed);
    GroupsConcatKeys(g);
    var d := GroupsConcat(g);
    assert d[20] == ("suspicious_keywords", g.suspicious.suspiciousKeywords as real);
    GetAt(d, 20);
  }

  // ---------------------------------------------------------------------
  // Consequences on concrete inputs
  // ---------------------------------------------------------------------

  /** "t.co" is a listed shortener, so "microsoft.com" counts as shortened. */
  lemma ShortenerMatchesMicrosoft()
    ensures ExtractSuspicious("https://microsoft.com").isShortened
  {
    var url := "https://microsoft.com";
    var l := Lower(url);
    assert url[16] == 't' && url[17] == '.' && url[18] == 'c' && url[19] == 'o';
    assert l[16] == 't' && l[17] == '.' && l[18] == 'c' && l[19] == 'o';
    assert l[16..20] == "t.co";
    ShortenedWhenListed(url, 3, 16);
  }

  lemma ShortenedWhenListed(url: string, i: int, pos: int)
    requires 0 <= i < |Shorteners| && OccursAt(Lower(url), Shorteners[i], pos)
    ensures ExtractSuspicious(url).isShortened
  {
  }

  /** A port after the four runs defeats the pattern. */
  lemma PortDefeatsIpPattern()
    ensures !MatchesIpPattern("1.2.3.4:80")
  {
    StrayCharDefeatsIpPattern("1.2.3.4:80", 7);
  }

  /** A character other than a digit or '.' before the last position rules the pattern out. */
  lemma StrayCharDefeatsIpPattern(host: string, i: nat)
    requires i + 1 < |host| && !IsDigit(host[i]) && host[i] != '.'
    ensures !MatchesIpPattern(host)
  {
    DigitRunsOnlyDigitsAndDots(host, 3);
    var h := host[..|host| - 1];
    DigitRunsOnlyDigitsAndDots(h, 3);
    assert h[i] == host[i];
  }

  /** Four dotted digit runs match the IP pattern. */
  lemma DottedQuadIsIp()
    ensures MatchesIpPattern("1.2.3.4")
  {
    assert LeadingDigits("4") == 1;
    assert LeadingDigits(".4") == 0;
    assert LeadingDigits("3.4") == 1;
    assert LeadingDigits(".3.4") == 0;
    assert LeadingDigits("2.3.4") == 1;
    assert LeadingDigits(".2.3.4") == 0;
    assert LeadingDigits("1.2.3.4") == 1;
    assert "1.2.3.4"[2..] == "2.3.4" && "2.3.4"[2..] == "3.4" && "3.4"[2..] == "4";
    assert DigitRuns("4", 0);
    assert DigitRuns("1.2.3.4", 3);
  }

  /** Whatever the pattern matches consists of digits and dots only. */
  lemma {:induction false} DigitRunsOnlyDigitsAndDots(s: string, k: nat)
    ensures DigitRuns(s, k) ==> forall i :: 0 <= i < |s| ==> IsDigit(s[i]) || s[i] == '.'
    decreases k
  {
    var n := LeadingDigits(s);
    if DigitRuns(s, k) {
      forall i | 0 <= i < |s| ensures IsDigit(s[i]) || s[i] == '.' {
        if i < n {
          assert s[..n][i] == s[i];
        } else if i > n {
          DigitRunsOnlyDigitsAndDots(s[n + 1..], k - 1);
          assert s[n + 1..][i - n - 1] == s[i];
        }
      }
    }
  }

  /** A host without '.' reports -1 subdomains. */
  lemma DotlessHostHasNegativeSubdomains(p: UrlParts)
    requires '.' !in p.netloc
    ensures ExtractDomain(Some(p)).numSubdomains == -1
  {
  }
}
